=== FILE: README.md ===
# Booking back end: a Dafny model

This project models the core of a TypeScript/Express back end for a booking service. The service sells services (a haircut, a massage, and so on) that employees perform. Clients book a slot (a date and a time) with an employee. Employees record absences and working hours, and users register, log in and rotate refresh tokens.

The model covers six areas:

- **The request validators.** These are Joi schemas under `src/validators`. A small interpreter of the validation library (module `Joi`) reads them as data. For every schema, a lemma proves that the interpreter accepts exactly the bodies described by a plain predicate.
- **Regular expressions.** Each regular expression in those schemas is written as a `Regex.Regex` value. A lemma proves that it matches exactly what a direct predicate in `Formats` describes: a 24-hex-digit ObjectId, an `HH:mm` clock time, a phone number, a postal code, a duration.
- **Stored documents.** The Mongoose schemas under `src/models` are modelled in `Models`, including:
  - the trim setter, which also applies to query filters;
  - `required` strings;
  - enum values and defaults;
  - the ObjectId cast.
- **The authentication state machine** in `src/controllers/userController.ts`: register, login, refresh-token rotation and logout, over a sequence of users. The model proves that the stored refresh tokens stay pairwise distinct, that logout revokes the token, and that rotation revokes the old token whenever the newly signed token differs from it (a refresh within the same second signs the same string, and the old token then stays valid).
- **`getAvailableEmployees`.** It is modelled as a filter over employees, and its relation to bookings is proved.
- **The booking, service, absence and working-hours controllers:**
  - `createBooking`, including how it resolves the client account;
  - the query-filter builders of `getBookings`, `getUpcomingBookings`, `getAbsences`, `getWorkingHours` and `getServices`;
  - `toggleServiceState`;
  - the field copy of `createAbsence` and `createWorkingHours`;
  - the 500/404 behaviour of `updateBooking` and `deleteBooking`.

Collections are sequences, in the order in which `find` would return them. Every operation is a pure function from the current collections and the request to the new collections and the HTTP status code.

The following are parameters of the operations rather than parts of the model:

- password hashing and comparison (`bcrypt`);
- signing and verifying tokens (`jsonwebtoken`);
- fresh ids;
- the current time;
- the date parser (`DateCast`);
- the email and URI checks of the validation library;
- the case-insensitive name match of `getServices`.

The controllers are modelled on the raw request body. The middleware that applies the validators is not part of this model, so no lemma assumes that a validator ran before a handler.

Modules, in dependency order:

- `Wrappers`, `Regex`, `Formats`, `Joi`, `Fields`;
- the validators: `BookingValidator`, `AbsenceValidator`, `ServiceValidator`, `UserValidator`, `InvitationValidator`, `ParameterValidator`, `WorkingHoursValidator`;
- `Models`, `Http`, `Lists`, `Queries`;
- `Auth`, `Availability`, `BookingController`, `ServiceController`, `AbsenceController`, `WorkingHoursController`;
- `SchemaGaps`, which states where a validator and the stored schema disagree.

## Model

| member | source | states |
|---|---|---|
| Formats.ObjectIdIff | src/validators/bookingValidator.ts:6 | the id pattern matches exactly the strings of 24 hexadecimal digits, either case |
| Formats.ClockIff | src/validators/bookingValidator.ts:26 | the time pattern matches exactly `HH:mm` with hours 00–23 and minutes 00–59 |
| Formats.PhoneIff | src/validators/bookingValidator.ts:53 | the booking phone pattern matches exactly an optional `+`, then a non-zero digit, then 1 to 14 digits |
| Formats.PostalCodeIff | src/validators/bookingValidator.ts:59 | the postal-code pattern matches exactly five digits |
| Formats.ContactPhoneIff | src/validators/parameterValidator.ts:36 | the contact phone pattern matches exactly an optional `+` followed by 7 to 15 digits |
| Formats.DurationIff | src/validators/serviceValidator.ts:31 | the duration pattern matches exactly 1 or 2 digits, a colon, then 2 digits |
| Formats.FormatClock | src/validators/workingHoursValidator.ts:16 | every minute of the day has an `HH:mm` spelling that the clock pattern accepts and that reads back as that minute |
| Formats.ClockRoundTrip | src/validators/workingHoursValidator.ts:16 | reading an accepted clock time as minutes and printing it again gives back the same text |
| BookingValidator.CreateBookingIff | src/validators/bookingValidator.ts:4-73 | a new booking is accepted iff it has the two ObjectIds, a date and an `HH:mm` time; names (1–50), an email, a phone, a postal code and a message (0–255, the empty message allowed by its `min(0)`) are optional with their formats; no other key is present |
| BookingValidator.EmptyMessageAccepted | src/validators/bookingValidator.ts:64-67 | a body with the four required fields and an empty message is a valid new booking |
| BookingValidator.UpdateBookingIff | src/validators/bookingValidator.ts:76-103 | an update is accepted iff it is a non-empty subset of the employee, the service, the date, the status and the message, with a status among the four names (`completed` included) |
| BookingValidator.UpdateEmptyMessageRejected | src/validators/bookingValidator.ts:97-101 | the update schema's message has no `min` rule, so an update with an empty message is always refused |
| BookingValidator.FilterBookingIff | src/validators/bookingValidator.ts:106-132 | a booking query is accepted iff it names at least one of the five criteria, each in its format |
| AbsenceValidator.CreateAbsenceIff | src/validators/absenceValidator.ts:7-41 | a new absence is accepted iff it has an ObjectId, two ISO dates with the end not before the start, and a reason of 3 to 255 characters |
| AbsenceValidator.UpdateAbsenceIff | src/validators/absenceValidator.ts:47-73 | an absence update is accepted iff it changes at least one field, and an end date comes only with a start date it does not precede |
| AbsenceValidator.EndDateAloneRejected | src/validators/absenceValidator.ts:47-73 | an update carrying an end date without a start date is always rejected, because the reference to the start resolves to nothing |
| AbsenceValidator.FilterAbsenceIff | src/validators/absenceValidator.ts:79-95 | an absence query is accepted iff it names the employee, a start date or an end date; the two dates are not compared |
| ServiceValidator.RoundedPriceNonNegative | src/validators/serviceValidator.ts:49-57 | rounding to cents happens before the minimum check, so a price passes the zero minimum iff it is at least -0.005 |
| ServiceValidator.CreateServiceIff | src/validators/serviceValidator.ts:4-58 | a new service is accepted iff it has a duration in `H:MM`/`HH:MM` text, a category of 3 to 50 characters and a price; name and description are optional within their lengths |
| ServiceValidator.UnboundedDurations | src/validators/serviceValidator.ts:31 | the duration check bounds neither part: `9:75` and `0:00` are accepted |
| ServiceValidator.UpdateServiceIff | src/validators/serviceValidator.ts:61-93 | a service update is accepted iff it changes at least one field; here the duration is a whole number of at least 1 |
| ServiceValidator.FilterServiceIff | src/validators/serviceValidator.ts:96-108 | a service query is accepted iff it names a name of 1 to 50 characters, an active flag, or both |
| UserValidator.RegisterIff | src/validators/userValidator.ts:7-50 | a registration is accepted iff it has both names (2–50), an email, a password (8–128) and at most one role name |
| UserValidator.RegisterRoleIsName | src/validators/userValidator.ts:44-49 | a role that the registration schema accepts is a single string, never an array |
| UserValidator.LoginIff | src/validators/userValidator.ts:56-70 | a login is accepted iff it is exactly an email and a password of 8 to 128 characters |
| UserValidator.UpdateUserIff | src/validators/userValidator.ts:79-113 | a user update is accepted iff it changes at least one of the five registration fields under the registration's rules |
| UserValidator.FilterUserIff | src/validators/userValidator.ts:119-130 | a user query is accepted iff it names a role, an email, or both |
| UserValidator.PermissionsIff | src/validators/userValidator.ts:136-144 | a permissions body is accepted iff it is a list of non-empty strings; the empty list is accepted |
| InvitationValidator.CreateInvitationIff | src/validators/invitationValidator.ts:7-22 | an invitation is accepted iff it is exactly an email and one of the three user role names, `client` included |
| InvitationValidator.UpdateInvitationIff | src/validators/invitationValidator.ts:28-36 | an invitation update is accepted iff it is exactly one status name among the four |
| InvitationValidator.FilterInvitationIff | src/validators/invitationValidator.ts:42-51 | an invitation query is accepted iff it names an email, a status, or both |
| ParameterValidator.ParameterIff | src/validators/parameterValidator.ts:4-81 | the parameters body is accepted iff it has a name of 3 to 100 characters and, optionally, contact details, social links over the four networks, two switches and a whole non-negative reminder delay |
| WorkingHoursValidator.CreateWorkingHoursIff | src/validators/workingHoursValidator.ts:7-55 | a new slot is accepted iff it has an ObjectId, two `HH:mm` times and a recurrence flag; a recurring slot needs a day, and a one-off slot needs a date |
| WorkingHoursValidator.EndTimeUnconstrained | src/validators/workingHoursValidator.ts:15-28 | the two times are never compared: an accepted slot stays accepted with any other valid end time, one earlier than the start included |
| WorkingHoursValidator.UpdateWorkingHoursIff | src/validators/workingHoursValidator.ts:61-79 | an update is accepted iff it changes at least one of the five fields and does not touch `day` or `userId`; a recurrence pattern is one of four names |
| Models.TrimStart | src/models/userModel.ts:18-21 | the trimmed-start text is a suffix of the input, every character removed is white space, and it starts with a non-space |
| Models.TrimEnd | src/models/userModel.ts:18-21 | the trimmed-end text is a prefix of the input, every character removed is white space, and it ends with a non-space |
| Models.TrimBounds | src/models/userModel.ts:18-21 | a trimmed string neither starts nor ends with white space, and it is empty iff the input was all white space |
| Models.TrimIdempotent | src/models/userModel.ts:18-21 | trimming twice is trimming once |
| Models.RequiredText | src/models/userModel.ts:18-21 | a required, trimmed string field is stored iff the value is present with a non-space character, and the stored value is its trimmed form |
| Models.CastId | src/models/bookingModel.ts:18-20 | an ObjectId cast succeeds iff the text is 24 hex digits, and it yields the input's own digits with each hex letter in lower case |
| Models.CastIdCanonical | src/models/bookingModel.ts:18-20 | casting an already canonical id returns it unchanged |
| Models.CastIdSameIff | src/models/bookingModel.ts:18-20 | two ObjectId texts cast to the same id iff they agree up to the case of their hex letters |
| Models.RoleNameRoundTrip | src/models/userModel.ts:22-26 | a role name parses to a role iff that role prints as that name |
| Models.CastRoles | src/models/userModel.ts:22-26 | a list of role names is stored iff every name is in the enum, and each stored role prints as its name |
| Models.FindByEmail | src/controllers/userController.ts:33 | the lookup finds the first user with that email, or reports that no user has it |
| Models.FindUser | src/controllers/userController.ts:142 | the lookup finds the first user with that id, or reports that no user has it |
| Models.FindByToken | src/controllers/userController.ts:180 | the lookup finds the first user holding that refresh token, or reports that none holds it |
| Models.StatusNameRoundTrip | src/models/bookingModel.ts:22 | a booking status name parses iff it is the printed name of that status |
| Models.CastStatus | src/models/bookingModel.ts:22 | a missing status defaults to `pending`; a given one is stored iff it is among the three enum names, and it keeps its name |
| Models.FindBooking | src/controllers/bookingController.ts:156 | the lookup finds the first booking with that id, or reports that none has it |
| Models.InvitationRoleRoundTrip | src/models/invitationModel.ts:16 | an invitation role name parses iff it is the printed name of that role |
| Models.InvitationStatusRoundTrip | src/models/invitationModel.ts:18 | an invitation status name parses iff it is the printed name of that status |
| Models.NewInvitation | src/models/invitationModel.ts:13-22 | an invitation is stored iff it has an email, a role among `employé` and `admin`, a known status if one is given, and a token; the email is trimmed and the status defaults to `pending` |
| Lists.FindFirst | src/controllers/userController.ts:76 | a lookup answers with the first document in store order that matches, or reports that none matches |
| Lists.Filter | src/controllers/userController.ts:221 | filtering keeps exactly the elements that satisfy the predicate, each as many times as it occurs, as an order-preserving subsequence |
| Lists.SortBy | src/controllers/bookingController.ts:113 | the result is sorted by the key and is a permutation of the input |
| Http.PathDate | src/models/workingHoursModel.ts:20 | a date path is left unset iff its text is empty; otherwise it fails iff the date does not cast, and holds the cast date |
| Queries.CastBound | src/controllers/bookingController.ts:108-109 | casting a date bound fails iff the date was invalid, keeps whether a bound was given, and a valid bound keeps its milliseconds |
| Queries.CastOptionalId | src/controllers/bookingController.ts:105-106 | casting an optional id condition fails iff the text is not an ObjectId, and it otherwise yields the cast id |
| Auth.NewUser | src/controllers/userController.ts:46-54 | the new user document validates iff both names, the email and the hash are non-empty once trimmed, every requested role is in the enum and the id is free; it then stores those fields trimmed, the role list and no token |
| Auth.Register | src/controllers/userController.ts:23-60 | 400 iff a field is missing; 409 iff the trimmed email is taken; 201 iff all fields are given, the email is free and the new document validates; on 201 exactly one user is appended, with the new id, the trimmed names and email, the hash, no token and the requested role list (`client` when no array is sent); nothing changes otherwise |
| Auth.RegisterSucceeds | src/controllers/userController.ts:23-60 | registration answers 201 exactly when every field is given, the trimmed email is free, the trimmed names, email and hash are not empty, every requested role is in the enum and the new id is free |
| Auth.SingleRoleDiscarded | src/controllers/userController.ts:43 | a role sent as a single string, or not sent at all, gives the default `client` role |
| Auth.RegisterKeepsWellFormed | src/controllers/userController.ts:23-60 | registering keeps user ids and emails unique |
| Auth.Login | src/controllers/userController.ts:67-106 | 400 iff the email or password is missing; 404 iff no user has the trimmed email; on 200 the matching user whose password compares equal gets the issued refresh token, and nothing else changes |
| Auth.Refresh | src/controllers/userController.ts:132-165 | 401 iff no token is sent; 200 iff the token verifies to the id of the first user with that id and that user holds exactly this token, which is then replaced by the issued one; otherwise 403 and nothing changes |
| Auth.Logout | src/controllers/userController.ts:171-194 | 400 iff no token is sent; 403 iff no user holds the trimmed token; on 200 that user's token is cleared and nothing else changes |
| Auth.SetTokenKeepsInvariants | src/controllers/userController.ts:96-100 | giving a user a token that nobody holds, or clearing it, keeps ids unique and tokens distinct |
| Auth.LoginKeepsInvariants | src/controllers/userController.ts:96-100 | with a fresh issued token, login keeps stored refresh tokens pairwise distinct |
| Auth.RefreshKeepsInvariants | src/controllers/userController.ts:157-159 | with a fresh issued token, rotation keeps stored refresh tokens pairwise distinct |
| Auth.LogoutKeepsInvariants | src/controllers/userController.ts:180-188 | logout keeps stored refresh tokens pairwise distinct |
| Auth.RegisterThenLogin | src/controllers/userController.ts:46-54 | a user who has just registered can log in with the same email and password and is handed the issued token |
| Auth.LoginFirstMatch | src/controllers/userController.ts:76-100 | login succeeds for the first user holding the email when the password matches that user's hash, and that user receives the issued token |
| Auth.LogoutRevokes | src/controllers/userController.ts:180-188 | after a successful logout the same refresh token is refused with 403 |
| Auth.RefreshRotates | src/controllers/userController.ts:157-159 | after a successful rotation that signs a token different from the presented one, the old refresh token is refused with 403 |
| Auth.SameTokenReissuedStaysValid | src/controllers/userController.ts:144-159 | when the newly signed token equals the presented one, as a refresh within the second of signing yields, refreshing with the old token succeeds again |
| Availability.AvailableEmployees | src/controllers/userController.ts:202-229 | 400 iff the date or time is missing; 500 iff the date does not cast; on 200 the result lists, in store order, exactly the employees with no booking at that date and time |
| Availability.OtherSlotExcludesNobody | src/controllers/userController.ts:214-221 | a booking at another date or time does not change who is available |
| Availability.SameSlotExcludesItsEmployee | src/controllers/userController.ts:214-221 | a booking at the queried slot removes exactly its employee from the available list |
| BookingController.NewClient | src/controllers/bookingController.ts:53-66 | the account for an anonymous booking validates iff both names, the email and the hash are non-empty once trimmed and the id is free; it then has the fresh id, the default `client` role, the trimmed names and email, the hash and no token |
| BookingController.NewBooking | src/controllers/bookingController.ts:71-80 | the booking document validates iff the employee, service and client ids are ObjectIds, the date casts and the id is free; it then holds those casts, the time, status `pending`, no parent and the trimmed message if one was sent |
| BookingController.CreateBooking | src/controllers/bookingController.ts:21-88 | 400 iff a slot field is missing or, without a session, the email is already claimed; the users change iff, without a session and with an unclaimed email, the client account validates, and then exactly that account is appended; 201 iff the slot is given, the client is settled (a session, or a new valid account) and the booking validates; on 201 exactly one booking is appended, with the cast ids, date and time, status `pending`, the trimmed message and the session's or the new account's id as client |
| BookingController.Place | src/controllers/bookingController.ts:71-87 | 201 iff the booking document validates, and then exactly it is appended; otherwise 500 and the bookings are unchanged; the users never change |
| BookingController.CreateBookingKeepsWellFormed | src/controllers/bookingController.ts:21-88 | creating a booking keeps user ids and emails unique and booking ids unique |
| BookingController.NoConflictCheck | src/controllers/bookingController.ts:71-84 | the outcome does not depend on the existing bookings, so a slot that is already taken is booked again |
| BookingController.PlaceIgnoresBookings | src/controllers/bookingController.ts:74-82 | whether the booking save succeeds does not depend on the other bookings |
| BookingController.CreatedBookingTakesEmployee | src/controllers/bookingController.ts:74-84 | after a booking is created, its employee is no longer listed as available at that slot |
| BookingController.BookingFilterOf | src/controllers/bookingController.ts:102-110 | the filter has a condition for each non-empty query parameter, and one date condition that holds the bounds which were given |
| BookingController.FindSorted | src/controllers/bookingController.ts:113 | finding by a filter fails iff the filter does not cast; otherwise the result is sorted by date and is a permutation of the matching bookings |
| BookingController.GetBookings | src/controllers/bookingController.ts:98-121 | 500 iff an id is not an ObjectId or a date bound is invalid, with no data; on 200 the result is sorted by date and is a permutation of the stored bookings that meet every given condition, each as often as it is stored |
| BookingController.UnknownStatusSelectsNothing | src/controllers/bookingController.ts:110 | a status outside the enum is not rejected; it simply selects nothing |
| BookingController.GetUpcomingBookings | src/controllers/bookingController.ts:127-142 | the status is 200 or 500; 500 iff the user id is not an ObjectId, with no data; on 200 the result is sorted by date and is a permutation of the bookings from now on, for that user if one is given |
| BookingController.UpcomingIsBookingsFromNow | src/controllers/bookingController.ts:127-142 | the upcoming bookings are exactly what `getBookings` answers for the same user and a `dateFrom` that reads as now |
| BookingController.CastPatch | src/controllers/bookingController.ts:156-159 | an update body casts and validates iff its ids are ObjectIds, its date is non-empty and valid, its time is non-empty and its status is in the stored enum |
| BookingController.Apply | src/controllers/bookingController.ts:156-159 | applying changes sets exactly the given fields and keeps the id and every other field |
| BookingController.ApplyIdempotent | src/controllers/bookingController.ts:156-159 | applying the same changes twice is applying them once |
| BookingController.UpdateBooking | src/controllers/bookingController.ts:150-170 | 500 iff the id or the body fails to cast or validate (checked before the lookup); 404 iff no booking has the id; on 200 only that booking changes |
| BookingController.UpdateIdempotent | src/controllers/bookingController.ts:150-170 | repeating a successful update leaves the bookings as they are |
| BookingController.CompletedPassesSchemaFailsStore | src/validators/bookingValidator.ts:92-96 | the status `completed` passes the update schema, yet the update fails with 500 because the stored enum lacks it |
| BookingController.DeleteBooking | src/controllers/bookingController.ts:176-192 | 500 iff the id is not an ObjectId; 404 iff no booking has it; on 200 exactly that booking is removed |
| BookingController.DeleteTwiceNotFound | src/controllers/bookingController.ts:181-186 | with unique ids, deleting the same booking a second time answers 404 |
| ServiceController.FindService | src/controllers/serviceController.ts:117-121 | the lookup finds the first service with that id, or reports that none has it |
| ServiceController.ServiceFilterOf | src/controllers/serviceController.ts:40-41 | the active condition is set iff the parameter is sent, and it is true exactly for the text `true`; the name condition is set iff a name is given |
| ServiceController.GetServices | src/controllers/serviceController.ts:31-50 | the result lists, in store order, exactly the services that match the active flag and the name pattern that were given |
| ServiceController.OtherTextListsInactive | src/controllers/serviceController.ts:40 | any active parameter other than `true` (such as `yes` or `1`) lists only inactive services |
| ServiceController.ToggleServiceState | src/controllers/serviceController.ts:106-136 | 400 iff `isActive` is not a boolean; 500 iff the id is not an ObjectId; 404 iff no service has it; on 200 only that service's flag is set, and the message says which way |
| ServiceController.ToggleBackRestores | src/controllers/serviceController.ts:117-121 | toggling a service and then setting it back to its old flag restores the collection |
| AbsenceController.CreateAbsence | src/controllers/absenceController.ts:8-19 | 201 iff the id casts, both dates are non-empty and cast, and the reason has a non-space character; the saved absence carries exactly those values, with the reason trimmed; on 500 nothing changes |
| AbsenceController.FindAbsence | src/models/absenceModel.ts:14-36 | an absence id is found iff some stored absence has it |
| AbsenceController.BackwardsAbsenceStored | src/models/absenceModel.ts:21-28 | the stored schema does not order the dates, so an absence whose end precedes its start is saved |
| AbsenceController.AbsenceFilterOf | src/controllers/absenceController.ts:28-32 | the filter has an employee condition iff one is given, and both date bounds apply to the start date |
| AbsenceController.GetAbsences | src/controllers/absenceController.ts:24-39 | 500 iff the id or a date fails to cast; on 200 the result lists, in store order, exactly the absences that start within the given bounds for the given employee |
| AbsenceController.EndDateBoundsTheStart | src/controllers/absenceController.ts:32 | an absence that starts inside the window is listed even if it ends after the window's end |
| WorkingHoursController.CastBoolean | src/models/workingHoursModel.ts:22 | the recurrence flag is stored as true exactly for true, `true`, 1, `1` and `yes`, and as false exactly for their five opposites |
| WorkingHoursController.FindHours | src/models/workingHoursModel.ts:15-26 | a working-hours id is found iff some stored slot has it |
| WorkingHoursController.CreateWorkingHours | src/controllers/workingHoursController.ts:8-26 | 201 iff the id casts, both times are non-empty, the flag casts and any non-empty date casts; the saved slot copies those fields, has a date iff a non-empty one was sent, trims the day and always has `priority` false |
| WorkingHoursController.EmptyDateIsNoDate | src/models/workingHoursModel.ts:20 | an empty date is cast to null and leaves the optional path unset, so the outcome is that of a body without a date |
| WorkingHoursController.PriorityIgnored | src/controllers/workingHoursController.ts:9-19 | a `priority` in the body has no effect on the outcome |
| WorkingHoursController.HoursFilterOf | src/controllers/workingHoursController.ts:35-37 | the employee condition is set iff an id is given; the recurrence condition is set iff the parameter is sent, and it is true exactly for `true` |
| WorkingHoursController.GetWorkingHours | src/controllers/workingHoursController.ts:31-46 | 500 iff the employee id is not an ObjectId; on 200 the result lists, in store order, exactly the slots that match the given conditions |
| WorkingHoursController.EmptyQueryListsAll | src/controllers/workingHoursController.ts:35-40 | an empty query lists every slot |
| SchemaGaps.ValidatedRegistrationIsClient | src/controllers/userController.ts:43 | for a body that the registration schema accepts, a successful registration always stores the `client` role |
| SchemaGaps.InvitationRoleGap | src/validators/invitationValidator.ts:7-22 | `client` passes the invitation schema, but the stored invitation rejects it |
| SchemaGaps.InvitationStatusGap | src/validators/invitationValidator.ts:28-36 | `revoked` passes the invitation update schema, but the stored status enum rejects it |

## Left out

- HTTP, Express, routing and the validation middleware are not modelled. Handlers take the request fields directly, and the JSON response bodies and messages are reduced to a status code and the data.
- Database and network failures are not modelled: the `catch` branches that answer 500 are reached only through the cast and validation errors the model names. Concurrency between a lookup and the following save is not modelled either.
- bcrypt and JWT are parameters. `compare` and `verify` are arbitrary functions, and token expiry is part of `verify`.
- `Math.random`, the current time and fresh ids are parameters.
- One `DateCast` stands for both `new Date(text)` and Mongoose's Date cast of a non-empty text. The two differ on some inputs, such as purely numeric strings. The one difference modelled is the empty string, which the document mapper turns into null (`Http.PathDate`).
- Query parameters are modelled as optional strings. Repeated parameters that Express turns into arrays are not modelled.
- Only the string and boolean forms of body values that the handlers read are modelled, except where the code inspects the type (`isActive`, `isRecurring`).
- The trim setter on a stored refresh token is not modelled. Issued tokens are assumed to carry no white space. The trim on the logout lookup is modelled.
- Projection (`select`) and `populate` are not modelled. Both change only the shape of the answer, not which documents are returned.
- Auth.Register: the `unique` index on email is not modelled beyond the explicit 409 check. A race between the check and the save is outside the model.
- Auth.Refresh: the issued access token is not returned. Only the refresh token is part of the state.
- ServiceController.GetServices: the case-insensitive `$regex` match is the `matches` parameter. An invalid pattern, which the database would reject with 500, is not modelled.
- The validation-library interpreter (`Joi.TextOk`, `Joi.NumberOk`, `Joi.RoundCents`) counts a string's length in characters, not in UTF-16 code units, and treats numbers as exact reals. Every length bound and every number rule inherits this, so the Iff lemmas of all seven validator modules (the bookings, absences, services, users, invitations, parameters and working hours) differ from the library on text outside the Basic Multilingual Plane and on numbers that a double cannot hold. For example, a first name made of one emoji is two code units long and passes `min(2)`, but `UserValidator.RegisterIff` rejects it.
- Auth.RefreshRotates: the old token is shown refused only when the newly signed token differs from it. Tokens are signed over the user id alone, with no expiry and no unique token id, and their issue time counts whole seconds. A refresh within the same second as the signing of the presented token therefore yields the identical string, and the old token keeps working (`Auth.SameTokenReissuedStaysValid`).
- `getUserFromToken`, `createService`, `updateService`, `deleteService`, `updateAbsence`, `deleteAbsence`, `updateWorkingHours`, `deleteWorkingHours` and the invitation, parameter and statistics controllers are not modelled. They are plain create/read/update/delete pass-throughs, or outside the modelled core.
- The mailer, the templates, the fixtures and the statistics service are outside the modelled core.
- `createdAt`/`updatedAt` timestamps and the `services`/`permissions` arrays of a user are not modelled. A new user's permissions are always empty.

=== FILE: absence_controller.dfy ===
/** The absence handlers (src/controllers/absenceController.ts): recording an
    absence, and listing absences through a filter built from the query. The
    absence record is src/models/absenceModel.ts. */
module AbsenceController {
  import opened Wrappers
  import opened Models
  import opened Http
  import opened Lists
  import opened Formats
  import opened Queries

  datatype Absence = Absence(id: Id, userId: Id, startDate: int, endDate: int, reason: string)

  /** The four body fields `createAbsence` reads; nothing else reaches the document. */
  datatype AbsenceBody = AbsenceBody(
    userId: Option<string>,
    startDate: Option<string>,
    endDate: Option<string>,
    reason: Option<string>)

  datatype Saved = Saved(absences: seq<Absence>, status: int)

  /** `createAbsence`: the document holds the four fields, cast (the employee id as an
      ObjectId, the dates as dates, the reason trimmed and non-empty), all required,
      so an empty date, which the mapper turns into null, fails;
      500 when one does not cast, 201 after appending it. No order between the two
      dates is checked. */
  function CreateAbsence(absences: seq<Absence>, body: AbsenceBody, castDate: DateCast, newId: Id): (o: Saved)
    ensures o.status in {500, 201}
    ensures o.status == 201 <==>
              && body.userId.Some? && IsObjectId(body.userId.value)
              && Given(body.startDate) && castDate(body.startDate.value).Some?
              && Given(body.endDate) && castDate(body.endDate.value).Some?
              && RequiredText(body.reason).Some?
              && forall j :: 0 <= j < |absences| ==> absences[j].id != newId
    ensures o.status == 500 ==> o.absences == absences
    ensures o.status == 201 ==>
              && |o.absences| == |absences| + 1 && o.absences[..|absences|] == absences
              && var a := o.absences[|absences|];
                 && a.id == newId
                 && Some(a.userId) == CastId(body.userId.value)
                 && Some(a.startDate) == castDate(body.startDate.value)
                 && Some(a.endDate) == castDate(body.endDate.value)
                 && a.reason == Trim(body.reason.value)
  {
    var user := if body.userId.Some? then CastId(body.userId.value) else None;
    var start := if body.startDate.Some? then PathDate(body.startDate.value, castDate) else None;
    var end := if body.endDate.Some? then PathDate(body.endDate.value, castDate) else None;
    var reason := RequiredText(body.reason);
    if user.Some? && start.Some? && start.value.Some? && end.Some? && end.value.Some? &&
       reason.Some? && FindAbsence(absences, newId).None?
    then Saved(absences + [Absence(newId, user.value, start.value.value, end.value.value, reason.value)], 201)
    else Saved(absences, 500)
  }

  function FindAbsence(absences: seq<Absence>, id: Id): (r: Option<nat>)
    ensures r.None? <==> forall j :: 0 <= j < |absences| ==> absences[j].id != id
  {
    FindFirst(absences, (a: Absence) => a.id == id)
  }

  /** An absence ending before it starts is stored like any other. */
  lemma BackwardsAbsenceStored(absences: seq<Absence>, body: AbsenceBody, castDate: DateCast, newId: Id)
    requires body.userId.Some? && IsObjectId(body.userId.value)
    requires Given(body.startDate) && Given(body.endDate)
    requires castDate(body.startDate.value).Some? && castDate(body.endDate.value).Some?
    requires castDate(body.endDate.value).value < castDate(body.startDate.value).value
    requires RequiredText(body.reason).Some?
    requires forall j :: 0 <= j < |absences| ==> absences[j].id != newId
    ensures var o := CreateAbsence(absences, body, castDate, newId);
            o.status == 201 && o.absences[|absences|].endDate < o.absences[|absences|].startDate
  {
  }

  // ---------------------------------------------------------------------------
  // getAbsences

  datatype AbsenceQuery = AbsenceQuery(userId: Option<string>, startDate: Option<string>, endDate: Option<string>)

  /** The filter `getAbsences` builds. Both date parameters bound the absence's
      `startDate`: there is no condition on its `endDate`. */
  datatype AbsenceFilter = AbsenceFilter(userId: Option<string>, startDate: Option<DateBounds>)

  /** An employee condition for a non-empty `userId`; one condition on `startDate` when
      either date parameter is non-empty, with `$gte` from `startDate` and `$lte` from
      `endDate`. */
  function AbsenceFilterOf(q: AbsenceQuery, castDate: DateCast): (f: AbsenceFilter)
    ensures f.userId.Some? <==> Given(q.userId)
    ensures f.userId.Some? ==> f.userId == q.userId
    ensures f.startDate.Some? <==> Given(q.startDate) || Given(q.endDate)
    ensures f.startDate.Some? ==>
              && (f.startDate.value.gte.Some? <==> Given(q.startDate))
              && (f.startDate.value.lte.Some? <==> Given(q.endDate))
              && (Given(q.startDate) ==> f.startDate.value.gte == Some(InstantOf(q.startDate.value, castDate)))
              && (Given(q.endDate) ==> f.startDate.value.lte == Some(InstantOf(q.endDate.value, castDate)))
  {
    AbsenceFilter(
      if Given(q.userId) then q.userId else None,
      if Given(q.startDate) || Given(q.endDate) then
        Some(DateBounds(
          if Given(q.startDate) then Some(InstantOf(q.startDate.value, castDate)) else None,
          if Given(q.endDate) then Some(InstantOf(q.endDate.value, castDate)) else None))
      else None)
  }

  /** `Absence.find(filter)`: 500 when the employee id is not an ObjectId or a date is
      invalid; otherwise the absences of that employee whose start lies within the
      bounds, in store order. */
  function GetAbsences(absences: seq<Absence>, q: AbsenceQuery, castDate: DateCast): (r: Listing<Absence>)
    ensures r.status in {200, 500}
    ensures r.status == 500 <==>
              || (Given(q.userId) && !IsObjectId(q.userId.value))
              || (Given(q.startDate) && castDate(q.startDate.value).None?)
              || (Given(q.endDate) && castDate(q.endDate.value).None?)
    ensures r.status == 200 ==>
              && IsSubseq(r.data, absences)
              && forall a :: a in r.data <==>
                   && a in absences
                   && (Given(q.userId) ==> Some(a.userId) == CastId(q.userId.value))
                   && (Given(q.startDate) ==> castDate(q.startDate.value).value <= a.startDate)
                   && (Given(q.endDate) ==> a.startDate <= castDate(q.endDate.value).value)
  {
    var f := AbsenceFilterOf(q, castDate);
    var bounds := if f.startDate.Some? then f.startDate.value else DateBounds(None, None);
    var user := CastOptionalId(f.userId);
    var lo := CastBound(bounds.gte);
    var hi := CastBound(bounds.lte);
    if user.Some? && lo.Some? && hi.Some? then
      Listing(200, Filter(absences, (a: Absence) =>
        && (user.value.Some? ==> a.userId == user.value.value)
        && (lo.value.Some? ==> lo.value.value <= a.startDate)
        && (hi.value.Some? ==> a.startDate <= hi.value.value)))
    else Listing(500, [])
  }

  /** An absence that starts inside the requested window is listed even when it runs
      past the window's end: `endDate` bounds the start, not the end. */
  lemma EndDateBoundsTheStart(absences: seq<Absence>, q: AbsenceQuery, castDate: DateCast, a: Absence)
    requires q.userId.None? && Given(q.startDate) && Given(q.endDate)
    requires castDate(q.startDate.value).Some? && castDate(q.endDate.value).Some?
    requires a in absences
    requires castDate(q.startDate.value).value <= a.startDate <= castDate(q.endDate.value).value < a.endDate
    ensures a in GetAbsences(absences, q, castDate).data
  {
  }
}

=== FILE: absence_validator.dfy ===
/** The request-body schemas for absences (src/validators/absenceValidator.ts): the
    library schema, a plain description of the bodies it accepts, and a lemma proving
    the two agree. */
module AbsenceValidator {
  import opened Wrappers
  import opened Joi
  import opened Formats
  import opened Fields

  function CreateAbsenceSchema(): Schema {
    Schema(map[
      "userId" := IdRule(Required),
      "startDate" := Rule(Date(true, None), Required),
      "endDate" := Rule(Date(true, Some("startDate")), Required),
      "reason" := Rule(Text(Some(3), Some(255), Plain), Required)
    ], false, [])
  }

  /** The two ISO dates of a body, when both are dates, are ordered. */
  predicate EndNotBeforeStart(p: Payload, lib: Library)
    requires "startDate" in p && "endDate" in p
  {
    && lib.date(p["startDate"], true).Some?
    && lib.date(p["endDate"], true).Some?
    && lib.date(p["startDate"], true).value <= lib.date(p["endDate"], true).value
  }

  /** A new absence names its employee, two ISO dates with the end not before the start,
      and a reason of 3 to 255 characters. */
  predicate CreateAbsenceRules(p: Payload, lib: Library) {
    && p.Keys == {"userId", "startDate", "endDate", "reason"}
    && p["userId"].Str? && IsObjectId(p["userId"].s)
    && EndNotBeforeStart(p, lib)
    && p["reason"].Str? && 3 <= |p["reason"].s| <= 255
  }

  lemma CreateAbsenceSound(p: Payload, lib: Library)
    requires Accepts(CreateAbsenceSchema(), p, lib)
    ensures CreateAbsenceRules(p, lib)
  {
    var s := CreateAbsenceSchema();
    assert FieldOk("userId", s.fields["userId"], p, lib);
    IdField("userId", Required, p, lib);
    assert FieldOk("startDate", s.fields["startDate"], p, lib);
    assert FieldOk("endDate", s.fields["endDate"], p, lib);
    assert FieldOk("reason", s.fields["reason"], p, lib);
  }

  lemma CreateAbsenceComplete(p: Payload, lib: Library)
    requires CreateAbsenceRules(p, lib)
    ensures Accepts(CreateAbsenceSchema(), p, lib)
  {
    var s := CreateAbsenceSchema();
    forall k | k in s.fields ensures FieldOk(k, s.fields[k], p, lib) {
      if k == "userId" { IdField(k, Required, p, lib); }
    }
  }

  /** The create-absence schema accepts exactly the bodies `CreateAbsenceRules`
      describes. */
  lemma CreateAbsenceIff(p: Payload, lib: Library)
    ensures Accepts(CreateAbsenceSchema(), p, lib) <==> CreateAbsenceRules(p, lib)
  {
    if Accepts(CreateAbsenceSchema(), p, lib) { CreateAbsenceSound(p, lib); }
    if CreateAbsenceRules(p, lib) { CreateAbsenceComplete(p, lib); }
  }

  function UpdateAbsenceSchema(): Schema {
    Schema(map[
      "userId" := IdRule(Optional),
      "startDate" := Rule(Date(true, None), Optional),
      "endDate" := Rule(Date(true, Some("startDate")), Optional),
      "reason" := Rule(Text(Some(3), Some(255), Plain), Optional)
    ], true, [])
  }

  /** An update changes at least one field. An end date can only be sent together
      with a start date it does not precede: the reference to the start date resolves
      to nothing otherwise, and the library rejects that. */
  predicate UpdateAbsenceRules(p: Payload, lib: Library) {
    && p != map[]
    && p.Keys <= {"userId", "startDate", "endDate", "reason"}
    && ("userId" in p ==> p["userId"].Str? && IsObjectId(p["userId"].s))
    && ("startDate" in p ==> lib.date(p["startDate"], true).Some?)
    && ("endDate" in p ==> "startDate" in p && EndNotBeforeStart(p, lib))
    && ("reason" in p ==> p["reason"].Str? && 3 <= |p["reason"].s| <= 255)
  }

  lemma UpdateAbsenceSound(p: Payload, lib: Library)
    requires Accepts(UpdateAbsenceSchema(), p, lib)
    ensures UpdateAbsenceRules(p, lib)
  {
    var s := UpdateAbsenceSchema();
    assert FieldOk("userId", s.fields["userId"], p, lib);
    IdField("userId", Optional, p, lib);
    assert FieldOk("startDate", s.fields["startDate"], p, lib);
    assert FieldOk("endDate", s.fields["endDate"], p, lib);
    assert FieldOk("reason", s.fields["reason"], p, lib);
  }

  lemma UpdateAbsenceComplete(p: Payload, lib: Library)
    requires UpdateAbsenceRules(p, lib)
    ensures Accepts(UpdateAbsenceSchema(), p, lib)
  {
    var s := UpdateAbsenceSchema();
    forall k | k in s.fields ensures FieldOk(k, s.fields[k], p, lib) {
      if k == "userId" { IdField(k, Optional, p, lib); }
    }
  }

  /** The update-absence schema accepts exactly the bodies `UpdateAbsenceRules`
      describes. */
  lemma UpdateAbsenceIff(p: Payload, lib: Library)
    ensures Accepts(UpdateAbsenceSchema(), p, lib) <==> UpdateAbsenceRules(p, lib)
  {
    if Accepts(UpdateAbsenceSchema(), p, lib) { UpdateAbsenceSound(p, lib); }
    if UpdateAbsenceRules(p, lib) { UpdateAbsenceComplete(p, lib); }
  }

  /** So an update cannot move only the end of an absence. */
  lemma EndDateAloneRejected(p: Payload, lib: Library)
    requires "endDate" in p && "startDate" !in p
    ensures !Accepts(UpdateAbsenceSchema(), p, lib)
  {
    if Accepts(UpdateAbsenceSchema(), p, lib) { UpdateAbsenceSound(p, lib); }
  }

  function FilterAbsenceSchema(): Schema {
    Schema(map[
      "userId" := IdRule(Optional),
      "startDate" := Rule(Date(true, None), Optional),
      "endDate" := Rule(Date(true, None), Optional)
    ], false, ["userId", "startDate", "endDate"])
  }

  /** An absence query names at least one of the employee, a start date and an end
      date; here the two dates are not compared. */
  predicate FilterAbsenceRules(p: Payload, lib: Library) {
    && p.Keys <= {"userId", "startDate", "endDate"}
    && p != map[]
    && ("userId" in p ==> p["userId"].Str? && IsObjectId(p["userId"].s))
    && ("startDate" in p ==> lib.date(p["startDate"], true).Some?)
    && ("endDate" in p ==> lib.date(p["endDate"], true).Some?)
  }

  lemma FilterAbsenceSound(p: Payload, lib: Library)
    requires Accepts(FilterAbsenceSchema(), p, lib)
    ensures FilterAbsenceRules(p, lib)
  {
    var s := FilterAbsenceSchema();
    assert FieldOk("userId", s.fields["userId"], p, lib);
    IdField("userId", Optional, p, lib);
    assert FieldOk("startDate", s.fields["startDate"], p, lib);
    assert FieldOk("endDate", s.fields["endDate"], p, lib);
  }

  lemma FilterAbsenceComplete(p: Payload, lib: Library)
    requires FilterAbsenceRules(p, lib)
    ensures Accepts(FilterAbsenceSchema(), p, lib)
  {
    var s := FilterAbsenceSchema();
    forall k | k in s.fields ensures FieldOk(k, s.fields[k], p, lib) {
      if k == "userId" { IdField(k, Optional, p, lib); }
    }
    var k :| k in p;
    if k == "userId" { assert s.anyOf[0] in p; }
    else if k == "startDate" { assert s.anyOf[1] in p; }
    else { assert s.anyOf[2] in p; }
  }

  /** The absence-filter schema accepts exactly the queries `FilterAbsenceRules`
      describes. */
  lemma FilterAbsenceIff(p: Payload, lib: Library)
    ensures Accepts(FilterAbsenceSchema(), p, lib) <==> FilterAbsenceRules(p, lib)
  {
    if Accepts(FilterAbsenceSchema(), p, lib) { FilterAbsenceSound(p, lib); }
    if FilterAbsenceRules(p, lib) { FilterAbsenceComplete(p, lib); }
  }
}

=== FILE: auth.dfy ===
/** Registration and the refresh-token life cycle (src/controllers/userController.ts):
    `register`, `login`, `refreshToken` and `logout` as transitions on the user
    collection, each with the status code it answers. Password hashing and token
    signing are outside the model: the hash a registration stores, the comparison a
    login makes, the token a login or refresh issues and the id a token decodes to
    are parameters. */
module Auth {
  import opened Wrappers
  import opened Models
  import opened Http

  /** The `role` of a registration body: absent, a single name, or an array of names. */
  datatype RoleField = NoRole | RoleText(name: string) | RoleList(names: seq<string>)

  datatype RegisterRequest = RegisterRequest(
    firstName: Option<string>,
    lastName: Option<string>,
    email: Option<string>,
    password: Option<string>,
    role: RoleField)

  datatype LoginRequest = LoginRequest(email: Option<string>, password: Option<string>)

  /** The collection after a request, and the status code answered. */
  datatype Outcome = Outcome(users: seq<User>, status: int)

  /** The same, with the refresh token handed to the client on success. */
  datatype Session = Session(users: seq<User>, status: int, refresh: Option<string>)

  /** `Array.isArray(role) ? role : ["client"]` */
  function RequestedRoles(role: RoleField): seq<string> {
    if role.RoleList? then role.names else ["client"]
  }

  predicate AllGiven(req: RegisterRequest) {
    Given(req.firstName) && Given(req.lastName) && Given(req.email) && Given(req.password)
  }

  /** The document `new User({...}).save()` stores, when it validates: names and email
      are trimmed and must stay non-empty, the hash is the password, every role name
      is in the enum, and the driver's id is not taken. */
  function NewUser(users: seq<User>, req: RegisterRequest, hashed: string, newId: Id): (r: Option<User>)
    ensures r.Some? <==>
              && req.firstName.Some? && Trim(req.firstName.value) != []
              && req.lastName.Some? && Trim(req.lastName.value) != []
              && req.email.Some? && Trim(req.email.value) != [] && Trim(hashed) != []
              && CastRoles(RequestedRoles(req.role)).Some?
              && forall j :: 0 <= j < |users| ==> users[j].id != newId
    ensures r.Some? ==>
              && r.value.id == newId
              && r.value.firstName == Trim(req.firstName.value) && r.value.lastName == Trim(req.lastName.value)
              && r.value.email == Trim(req.email.value) && r.value.password == Trim(hashed)
              && r.value.roles == CastRoles(RequestedRoles(req.role)).value
              && r.value.refreshToken.None?
  {
    var fn := RequiredText(req.firstName);
    var ln := RequiredText(req.lastName);
    var em := RequiredText(req.email);
    var pw := RequiredText(Some(hashed));
    var roles := CastRoles(RequestedRoles(req.role));
    if fn.Some? && ln.Some? && em.Some? && pw.Some? && roles.Some? && FindUser(users, newId).None?
    then Some(User(newId, fn.value, ln.value, em.value, pw.value, roles.value, [], None))
    else None
  }

  /** `register`: 400 when a field is missing, 409 when the (trimmed) email is taken,
      500 when the document does not validate, 201 after appending the new user. */
  function Register(users: seq<User>, req: RegisterRequest, hashed: string, newId: Id): (o: Outcome)
    ensures o.status == 400 <==> !AllGiven(req)
    ensures o.status == 409 <==>
              AllGiven(req) && exists j :: 0 <= j < |users| && users[j].email == Trim(req.email.value)
    ensures o.status in {400, 409, 500, 201}
    ensures o.status != 201 ==> o.users == users
    ensures o.status == 201 <==>
              && AllGiven(req)
              && (forall j :: 0 <= j < |users| ==> users[j].email != Trim(req.email.value))
              && NewUser(users, req, hashed, newId).Some?
    ensures o.status == 201 ==>
              && |o.users| == |users| + 1
              && o.users[..|users|] == users
              && var u := o.users[|users|];
                 && u.id == newId && u.email == Trim(req.email.value)
                 && u.firstName == Trim(req.firstName.value) && u.lastName == Trim(req.lastName.value)
                 && (forall j :: 0 <= j < |users| ==> users[j].id != newId)
                 && u.refreshToken.None? && u.password == Trim(hashed)
                 && |u.roles| == |RequestedRoles(req.role)|
                 && forall i :: 0 <= i < |u.roles| ==> RoleName(u.roles[i]) == RequestedRoles(req.role)[i]
  {
    if !AllGiven(req) then Outcome(users, 400)
    else if FindByEmail(users, Trim(req.email.value)).Some? then Outcome(users, 409)
    else match NewUser(users, req, hashed, newId)
      case None => Outcome(users, 500)
      case Some(u) => Outcome(users + [u], 201)
  }

  /** Registration succeeds exactly when every field is given, the trimmed email is
      free, the trimmed names, email and hash are not empty, every requested role is
      in the enum and the new id is free. */
  lemma RegisterSucceeds(users: seq<User>, req: RegisterRequest, hashed: string, newId: Id)
    ensures Register(users, req, hashed, newId).status == 201 <==>
              && AllGiven(req)
              && (forall j :: 0 <= j < |users| ==> users[j].email != Trim(req.email.value))
              && Trim(req.firstName.value) != [] && Trim(req.lastName.value) != []
              && Trim(req.email.value) != [] && Trim(hashed) != []
              && CastRoles(RequestedRoles(req.role)).Some?
              && (forall j :: 0 <= j < |users| ==> users[j].id != newId)
  {
  }

  /** A single role name is dropped: the account is a client's, whatever name was sent. */
  lemma SingleRoleDiscarded(users: seq<User>, req: RegisterRequest, hashed: string, newId: Id)
    requires !req.role.RoleList?
    requires Register(users, req, hashed, newId).status == 201
    ensures Register(users, req, hashed, newId).users[|users|].roles == DefaultRoles
  {
    var u := Register(users, req, hashed, newId).users[|users|];
    assert RoleName(u.roles[0]) == "client";
    RoleNameRoundTrip("client", u.roles[0]);
  }

  /** Registration keeps ids and emails distinct. */
  lemma RegisterKeepsWellFormed(users: seq<User>, req: RegisterRequest, hashed: string, newId: Id)
    requires UsersWellFormed(users)
    ensures UsersWellFormed(Register(users, req, hashed, newId).users)
  {
    if Register(users, req, hashed, newId).status == 201 {
      RegisteredIsAppended(users, req, hashed, newId);
      AppendUserKeepsWellFormed(users, Register(users, req, hashed, newId).users[|users|]);
    }
  }

  /** `login`: 400 when a field is missing, 404 for an unknown email, 401 when the
      password does not match the stored hash; otherwise the user's stored refresh
      token becomes the newly issued one and nothing else changes. */
  function Login(users: seq<User>, req: LoginRequest, compare: (string, string) -> bool,
                 issued: string): (o: Session)
    ensures o.status == 400 <==> !Given(req.email) || !Given(req.password)
    ensures o.status == 404 <==>
              Given(req.email) && Given(req.password) &&
              forall j :: 0 <= j < |users| ==> users[j].email != Trim(req.email.value)
    ensures o.status in {400, 404, 401, 200}
    ensures o.status != 200 ==> o.users == users && o.refresh.None?
    ensures o.status == 200 ==>
              && o.refresh == Some(issued)
              && exists k :: 0 <= k < |users| && users[k].email == Trim(req.email.value)
                             && compare(req.password.value, users[k].password)
                             && o.users == users[k := users[k].(refreshToken := Some(issued))]
  {
    if !Given(req.email) || !Given(req.password) then Session(users, 400, None)
    else match FindByEmail(users, Trim(req.email.value))
      case None => Session(users, 404, None)
      case Some(k) =>
        if !compare(req.password.value, users[k].password) then Session(users, 401, None)
        else Session(users[k := users[k].(refreshToken := Some(issued))], 200, Some(issued))
  }

  /** `refreshToken`: 401 without a token; 403 when the token does not verify, names
      no user, or is not the one that user holds; otherwise the user's stored token is
      replaced by the newly issued one. `verify` is the signature check, giving the
      id inside a valid token. */
  function Refresh(users: seq<User>, token: Option<string>, verify: string -> Option<string>,
                   issued: string): (o: Session)
    ensures o.status == 401 <==> !Given(token)
    ensures o.status in {401, 403, 200}
    ensures o.status != 200 ==> o.users == users && o.refresh.None?
    ensures o.status == 200 <==>
              && Given(token)
              && verify(token.value).Some?
              && exists k :: 0 <= k < |users| && CastId(verify(token.value).value) == Some(users[k].id)
                             && users[k].refreshToken == token
                             && forall j :: 0 <= j < k ==> users[j].id != users[k].id
    ensures o.status == 200 ==>
              && o.refresh == Some(issued)
              && exists k :: 0 <= k < |users| && users[k].refreshToken == token
                             && o.users == users[k := users[k].(refreshToken := Some(issued))]
  {
    if !Given(token) then Session(users, 401, None)
    else match verify(token.value)
      case None => Session(users, 403, None)
      case Some(sub) =>
        match CastId(sub)
        case None => Session(users, 403, None)
        case Some(id) =>
          match FindUser(users, id)
          case None =>
            Session(users, 403, None)
          case Some(k) =>
            if users[k].refreshToken != token then Session(users, 403, None)
            else Session(users[k := users[k].(refreshToken := Some(issued))], 200, Some(issued))
  }

  /** `logout`: 400 without a token, 403 when no user holds it; otherwise the holder's
      refresh token is removed and nothing else changes. The lookup goes through the
      path's `trim` setter, so it is the trimmed token that is looked for. */
  function Logout(users: seq<User>, token: Option<string>): (o: Outcome)
    ensures o.status == 400 <==> !Given(token)
    ensures o.status == 403 <==>
              Given(token) && forall j :: 0 <= j < |users| ==> users[j].refreshToken != Some(Trim(token.value))
    ensures o.status in {400, 403, 200}
    ensures o.status != 200 ==> o.users == users
    ensures o.status == 200 ==>
              exists k :: 0 <= k < |users| && users[k].refreshToken == Some(Trim(token.value))
                          && o.users == users[k := users[k].(refreshToken := None)]
  {
    if !Given(token) then Outcome(users, 400)
    else match FindByToken(users, Trim(token.value))
      case None => Outcome(users, 403)
      case Some(k) => Outcome(users[k := users[k].(refreshToken := None)], 200)
  }

  /** No two users hold the same refresh token. */
  predicate TokensDistinct(users: seq<User>) {
    forall i, j :: 0 <= i < j < |users| && users[i].refreshToken.Some? ==>
      users[i].refreshToken != users[j].refreshToken
  }

  /** Whether a token is held by nobody: what a freshly signed token is. */
  predicate Unheld(users: seq<User>, t: string) {
    forall j :: 0 <= j < |users| ==> users[j].refreshToken != Some(t)
  }

  /** Giving one user a token nobody holds keeps ids, emails and tokens distinct. */
  lemma SetTokenKeepsInvariants(users: seq<User>, k: nat, t: Option<string>)
    requires k < |users| && UsersWellFormed(users) && TokensDistinct(users)
    requires t.None? || Unheld(users, t.value)
    ensures UsersWellFormed(users[k := users[k].(refreshToken := t)])
    ensures TokensDistinct(users[k := users[k].(refreshToken := t)])
  {
  }

  /** Logging in keeps ids, emails and tokens distinct, provided the newly signed
      token is one nobody holds yet. */
  lemma LoginKeepsInvariants(users: seq<User>, req: LoginRequest, compare: (string, string) -> bool,
                             issued: string)
    requires UsersWellFormed(users) && TokensDistinct(users) && Unheld(users, issued)
    ensures var o := Login(users, req, compare, issued).users;
            UsersWellFormed(o) && TokensDistinct(o)
  {
    var o := Login(users, req, compare, issued);
    if o.status == 200 {
      var k :| 0 <= k < |users| && o.users == users[k := users[k].(refreshToken := Some(issued))];
      SetTokenKeepsInvariants(users, k, Some(issued));
    }
  }

  /** Refreshing keeps ids, emails and tokens distinct, provided the newly signed token
      is one nobody holds yet. */
  lemma RefreshKeepsInvariants(users: seq<User>, token: Option<string>, verify: string -> Option<string>,
                               issued: string)
    requires UsersWellFormed(users) && TokensDistinct(users) && Unheld(users, issued)
    ensures var o := Refresh(users, token, verify, issued).users;
            UsersWellFormed(o) && TokensDistinct(o)
  {
    var o := Refresh(users, token, verify, issued);
    if o.status == 200 {
      var k :| 0 <= k < |users| && users[k].refreshToken == token &&
               o.users == users[k := users[k].(refreshToken := Some(issued))];
      SetTokenKeepsInvariants(users, k, Some(issued));
    }
  }

  /** Logging out keeps ids, emails and tokens distinct. */
  lemma LogoutKeepsInvariants(users: seq<User>, token: Option<string>)
    requires UsersWellFormed(users) && TokensDistinct(users)
    ensures var o := Logout(users, token).users;
            UsersWellFormed(o) && TokensDistinct(o)
  {
    var o := Logout(users, token);
    if o.status == 200 {
      var k :| 0 <= k < |users| && o.users == users[k := users[k].(refreshToken := None)];
      SetTokenKeepsInvariants(users, k, None);
    }
  }

  /** A user who has just registered can log in with the same email and password
      (given that the hash comparison recognises the password), and is then handed
      a refresh token. */
  lemma RegisterThenLogin(users: seq<User>, req: RegisterRequest, hashed: string, newId: Id,
                          compare: (string, string) -> bool, issued: string)
    requires UsersWellFormed(users)
    requires Register(users, req, hashed, newId).status == 201
    requires compare(req.password.value, Trim(hashed))
    ensures var after := Register(users, req, hashed, newId).users;
            var o := Login(after, LoginRequest(req.email, req.password), compare, issued);
            o.status == 200 && o.users[|users|].refreshToken == Some(issued)
  {
    var after := Register(users, req, hashed, newId).users;
    RegisteredIsAppended(users, req, hashed, newId);
    LoginFirstMatch(after, LoginRequest(req.email, req.password), compare, issued, |users|);
  }

  /** A registration appends one user, whose id and email no earlier user has. */
  lemma RegisteredIsAppended(users: seq<User>, req: RegisterRequest, hashed: string, newId: Id)
    requires Register(users, req, hashed, newId).status == 201
    ensures var after := Register(users, req, hashed, newId).users;
            && AllGiven(req) && |after| == |users| + 1 && after == users + [after[|users|]]
            && after[|users|].email == Trim(req.email.value) && after[|users|].password == Trim(hashed)
            && (forall j :: 0 <= j < |users| ==> after[j].email != Trim(req.email.value))
            && (forall j :: 0 <= j < |users| ==> users[j].email != after[|users|].email)
            && (forall j :: 0 <= j < |users| ==> users[j].id != after[|users|].id)
  {
    var u := NewUser(users, req, hashed, newId).value;
    assert FindByEmail(users, Trim(req.email.value)).None?;
    assert Register(users, req, hashed, newId).users == users + [u];
  }

  /** Login succeeds for the first user holding the email when the password matches
      that user's hash. */
  lemma LoginFirstMatch(users: seq<User>, req: LoginRequest, compare: (string, string) -> bool,
                        issued: string, k: nat)
    requires Given(req.email) && Given(req.password)
    requires k < |users| && users[k].email == Trim(req.email.value)
    requires forall j :: 0 <= j < k ==> users[j].email != Trim(req.email.value)
    requires compare(req.password.value, users[k].password)
    ensures Login(users, req, compare, issued).status == 200
    ensures Login(users, req, compare, issued).users[k].refreshToken == Some(issued)
  {
    assert FindByEmail(users, Trim(req.email.value)) == Some(k);
  }

  /** After a successful logout the token is dead: refreshing with it is refused, as
      long as tokens were distinct and the token has no surrounding white space (as a
      signed token has none). */
  lemma LogoutRevokes(users: seq<User>, token: Option<string>, verify: string -> Option<string>,
                      issued: string)
    requires TokensDistinct(users)
    requires token.Some? && Trim(token.value) == token.value
    requires Logout(users, token).status == 200
    ensures Refresh(Logout(users, token).users, token, verify, issued).status == 403
  {
    var after := Logout(users, token).users;
    var k :| 0 <= k < |users| && users[k].refreshToken == token &&
             after == users[k := users[k].(refreshToken := None)];
    assert forall j :: 0 <= j < |after| ==> after[j].refreshToken != token;
  }

  /** Refreshing rotates the token: with distinct tokens and a new token different from
      the old one, the old token cannot be used a second time. */
  lemma RefreshRotates(users: seq<User>, token: Option<string>, verify: string -> Option<string>,
                       issued: string, next: string)
    requires TokensDistinct(users)
    requires Refresh(users, token, verify, issued).status == 200
    requires token != Some(issued)
    ensures Refresh(Refresh(users, token, verify, issued).users, token, verify, next).status == 403
  {
    var after := Refresh(users, token, verify, issued).users;
    var k :| 0 <= k < |users| && users[k].refreshToken == token &&
             after == users[k := users[k].(refreshToken := Some(issued))];
    assert forall j :: 0 <= j < |after| ==> after[j].refreshToken != token;
  }

  /** Rotation needs a new string. The token is signed over the user id alone and its
      issue time counts whole seconds, so a refresh within the second of the login
      signs the very same string; the presented token is then still the stored one
      and refreshing with it again succeeds. */
  lemma SameTokenReissuedStaysValid(users: seq<User>, token: Option<string>, verify: string -> Option<string>,
                                    issued: string, next: string)
    requires Refresh(users, token, verify, issued).status == 200
    requires token == Some(issued)
    ensures Refresh(Refresh(users, token, verify, issued).users, token, verify, next).status == 200
  {
    var after := Refresh(users, token, verify, issued).users;
    var k :| 0 <= k < |users| && CastId(verify(token.value).value) == Some(users[k].id)
             && users[k].refreshToken == token
             && forall j :: 0 <= j < k ==> users[j].id != users[k].id;
    assert after == users[k := users[k].(refreshToken := Some(issued))];
    assert after[k].refreshToken == token && after[k].id == users[k].id;
    assert forall j :: 0 <= j < k ==> after[j].id != after[k].id;
  }
}

=== FILE: availability.dfy ===
/** `getAvailableEmployees` (src/controllers/userController.ts): the employees with
    no booking at exactly the requested date and time. There is no interval
    arithmetic: the time is compared as text, and working hours and absences are not
    consulted. */
module Availability {
  import opened Wrappers
  import opened Models
  import opened Http
  import opened Lists

  /** The employees a booking at date `d` and time `t` takes: the `userId` of every
      booking stored with that exact date and time text. */
  predicate Booked(bookings: seq<Booking>, d: int, t: string, id: Id) {
    exists b :: b in bookings && b.date == d && b.time == t && b.userId == id
  }

  predicate IsEmployee(u: User) {
    Employee in u.roles
  }

  /** 400 without a date or a time, 500 when the date does not cast; otherwise the
      users holding the employee role whom no booking at that date and time takes, in
      store order. */
  function AvailableEmployees(users: seq<User>, bookings: seq<Booking>, date: Option<string>,
                              time: Option<string>, castDate: DateCast): (r: Listing<User>)
    ensures r.status == 400 <==> !Given(date) || !Given(time)
    ensures r.status == 500 <==> Given(date) && Given(time) && castDate(date.value).None?
    ensures r.status in {400, 500, 200}
    ensures r.status != 200 ==> r.data == []
    ensures r.status == 200 ==>
              && IsSubseq(r.data, users)
              && forall u :: u in r.data <==>
                   u in users && IsEmployee(u) && !Booked(bookings, castDate(date.value).value, time.value, u.id)
  {
    if !Given(date) || !Given(time) then Listing(400, [])
    else match castDate(date.value)
      case None => Listing(500, [])
      case Some(d) =>
        var booked := set b | b in bookings && b.date == d && b.time == time.value :: b.userId;
        Listing(200, Filter(users, u => IsEmployee(u) && u.id !in booked))
  }

  /** A booking at another date or another time text excludes nobody, even when the two
      times name overlapping appointments: adding it leaves the answer as it was. */
  lemma OtherSlotExcludesNobody(users: seq<User>, bookings: seq<Booking>, date: Option<string>,
                                time: Option<string>, castDate: DateCast, b: Booking)
    requires Given(date) && Given(time) && castDate(date.value).Some?
    requires b.date != castDate(date.value).value || b.time != time.value
    ensures AvailableEmployees(users, bookings + [b], date, time, castDate)
         == AvailableEmployees(users, bookings, date, time, castDate)
  {
    var d := castDate(date.value).value;
    var t := time.value;
    var before := set x | x in bookings && x.date == d && x.time == t :: x.userId;
    var after := set x | x in bookings + [b] && x.date == d && x.time == t :: x.userId;
    assert before == after;
  }

  /** A booking at the requested date and time takes its employee out of the answer,
      and nobody else: every other available employee stays available. */
  lemma SameSlotExcludesItsEmployee(users: seq<User>, bookings: seq<Booking>, date: Option<string>,
                                    time: Option<string>, castDate: DateCast, b: Booking)
    requires Given(date) && Given(time) && castDate(date.value).Some?
    requires b.date == castDate(date.value).value && b.time == time.value
    ensures var before := AvailableEmployees(users, bookings, date, time, castDate).data;
            var after := AvailableEmployees(users, bookings + [b], date, time, castDate).data;
            && IsSubseq(after, before)
            && forall u :: u in after <==> u in before && u.id != b.userId
  {
    var d := castDate(date.value).value;
    var t := time.value;
    var before := set x | x in bookings && x.date == d && x.time == t :: x.userId;
    var after := set x | x in bookings + [b] && x.date == d && x.time == t :: x.userId;
    assert after == before + {b.userId};
    FilterMonotone(users, u => IsEmployee(u) && u.id !in before, u => IsEmployee(u) && u.id !in after);
  }
}

=== FILE: booking_controller.dfy ===
/** The booking handlers (src/controllers/bookingController.ts): creating a booking
    with its account resolution, listing bookings through a filter built from the
    query, and updating or deleting one by id. The hash of the visitor's random
    password, the ids the driver assigns and the date cast are parameters. */
module BookingController {
  import opened Wrappers
  import opened Models
  import opened Http
  import opened Lists
  import opened Formats
  import opened Queries
  import Availability
  import Joi
  import BookingValidator

  // ---------------------------------------------------------------------------
  // createBooking

  /** The body fields `createBooking` reads. The phone number and postal code are
      read too, but the user document has no such paths and drops them. */
  datatype BookingRequest = BookingRequest(
    userId: Option<string>,
    serviceId: Option<string>,
    date: Option<string>,
    time: Option<string>,
    firstName: Option<string>,
    lastName: Option<string>,
    email: Option<string>,
    message: Option<string>)

  /** Both collections after a request, and the status code answered. */
  datatype Created = Created(users: seq<User>, bookings: seq<Booking>, status: int)

  predicate SlotGiven(req: BookingRequest) {
    Given(req.userId) && Given(req.serviceId) && Given(req.date) && Given(req.time)
  }

  /** What `User.findOne({ email })` finds something for. A missing email drops the
      condition, so any user matches; a given one is trimmed by the path's setter. */
  predicate EmailClaimed(users: seq<User>, email: Option<string>) {
    if email.None? then users != []
    else exists j :: 0 <= j < |users| && users[j].email == Trim(email.value)
  }

  /** The account made for a visitor: names and email required and trimmed, the hash
      of a random password, the single role `client`, an id not yet taken. */
  function NewClient(users: seq<User>, req: BookingRequest, hashed: string, newId: Id): (r: Option<User>)
    ensures r.Some? <==>
              && req.firstName.Some? && Trim(req.firstName.value) != []
              && req.lastName.Some? && Trim(req.lastName.value) != []
              && req.email.Some? && Trim(req.email.value) != [] && Trim(hashed) != []
              && forall j :: 0 <= j < |users| ==> users[j].id != newId
    ensures r.Some? ==>
              && r.value.id == newId && r.value.roles == DefaultRoles
              && r.value.firstName == Trim(req.firstName.value) && r.value.lastName == Trim(req.lastName.value)
              && r.value.email == Trim(req.email.value) && r.value.password == Trim(hashed)
              && r.value.refreshToken.None?
  {
    var fn := RequiredText(req.firstName);
    var ln := RequiredText(req.lastName);
    var em := RequiredText(req.email);
    var pw := RequiredText(Some(hashed));
    if fn.Some? && ln.Some? && em.Some? && pw.Some? && FindUser(users, newId).None?
    then Some(User(newId, fn.value, ln.value, em.value, pw.value, DefaultRoles, [], None))
    else None
  }

  /** The booking document `new Booking({...}).save()` stores, when it validates: the
      three ids cast, the date cast, a non-empty time, the message trimmed, status
      `pending`, no parent, and an id not yet taken. */
  function NewBooking(bookings: seq<Booking>, req: BookingRequest, client: string,
                      castDate: DateCast, newId: Id): (r: Option<Booking>)
    requires SlotGiven(req)
    ensures r.Some? <==>
              && IsObjectId(req.userId.value) && IsObjectId(req.serviceId.value) && IsObjectId(client)
              && castDate(req.date.value).Some?
              && forall j :: 0 <= j < |bookings| ==> bookings[j].id != newId
    ensures r.Some? ==>
              && r.value.id == newId
              && Some(r.value.userId) == CastId(req.userId.value)
              && Some(r.value.serviceId) == CastId(req.serviceId.value)
              && Some(r.value.clientId) == CastId(client)
              && Some(r.value.date) == castDate(req.date.value)
              && r.value.time == req.time.value
              && r.value.status == Pending && r.value.parent.None?
              && r.value.message == (if req.message.Some? then Some(Trim(req.message.value)) else None)
  {
    var employee := CastId(req.userId.value);
    var service := CastId(req.serviceId.value);
    var clientId := CastId(client);
    var date := castDate(req.date.value);
    if employee.Some? && service.Some? && clientId.Some? && date.Some? && FindBooking(bookings, newId).None?
    then Some(Booking(newId, service.value, employee.value, clientId.value, date.value, req.time.value,
                      Pending, if req.message.Some? then Some(Trim(req.message.value)) else None, None))
    else None
  }

  /** The client a booking is for: the session's user, or the account just made. */
  function ClientOf(session: Option<string>, newUserId: Id): string {
    if session.Some? then session.value else newUserId
  }

  /** `createBooking`: 400 when a slot field is missing; without a session, 400 when
      the email is claimed, else a client account is saved first (500 if it does not
      validate); then the booking is saved (500 if it does not validate, the account
      staying behind), 201. No existing booking is consulted. */
  function CreateBooking(users: seq<User>, bookings: seq<Booking>, req: BookingRequest,
                         session: Option<string>, hashed: string, newUserId: Id, newBookingId: Id,
                         castDate: DateCast): (o: Created)
    ensures o.status in {400, 500, 201}
    ensures o.status == 400 <==> !SlotGiven(req) || (session.None? && EmailClaimed(users, req.email))
    ensures o.status == 400 ==> o.users == users && o.bookings == bookings
    ensures o.users != users <==>
              && SlotGiven(req) && session.None? && !EmailClaimed(users, req.email)
              && NewClient(users, req, hashed, newUserId).Some?
    ensures o.status == 201 <==>
              && SlotGiven(req)
              && (session.Some? || (!EmailClaimed(users, req.email) && NewClient(users, req, hashed, newUserId).Some?))
              && NewBooking(bookings, req, ClientOf(session, newUserId), castDate, newBookingId).Some?
    ensures o.users == users ||
              (&& session.None?
               && |o.users| == |users| + 1 && o.users[..|users|] == users
               && req.email.Some?
               && var c := o.users[|users|];
                  && c.id == newUserId && c.roles == DefaultRoles && c.email == Trim(req.email.value)
                  && req.firstName.Some? && c.firstName == Trim(req.firstName.value)
                  && req.lastName.Some? && c.lastName == Trim(req.lastName.value)
                  && forall j :: 0 <= j < |users| ==> users[j].id != newUserId)
    ensures o.status != 201 ==> o.bookings == bookings
    ensures o.status == 201 ==>
              && SlotGiven(req)
              && |o.bookings| == |bookings| + 1 && o.bookings[..|bookings|] == bookings
              && var b := o.bookings[|bookings|];
                 && b.id == newBookingId
                 && (forall j :: 0 <= j < |bookings| ==> bookings[j].id != newBookingId)
                 && Some(b.userId) == CastId(req.userId.value)
                 && Some(b.serviceId) == CastId(req.serviceId.value)
                 && Some(b.clientId) == CastId(ClientOf(session, newUserId))
                 && Some(b.date) == castDate(req.date.value)
                 && b.time == req.time.value
                 && b.status == Pending && b.parent.None?
                 && b.message == (if req.message.Some? then Some(Trim(req.message.value)) else None)
  {
    if !SlotGiven(req) then Created(users, bookings, 400)
    else if session.Some? then Place(users, bookings, req, session.value, castDate, newBookingId)
    else if EmailClaimed(users, req.email) then Created(users, bookings, 400)
    else match NewClient(users, req, hashed, newUserId)
      case None => Created(users, bookings, 500)
      case Some(c) => Place(users + [c], bookings, req, newUserId, castDate, newBookingId)
  }

  /** Saving the booking once the client is settled. */
  function Place(users: seq<User>, bookings: seq<Booking>, req: BookingRequest, client: string,
                 castDate: DateCast, newBookingId: Id): (o: Created)
    requires SlotGiven(req)
    ensures o.users == users && o.status in {500, 201}
    ensures o.status == 201 <==> NewBooking(bookings, req, client, castDate, newBookingId).Some?
    ensures o.status == 500 ==> o.bookings == bookings
    ensures o.status == 201 ==> NewBooking(bookings, req, client, castDate, newBookingId).Some? &&
                                o.bookings == bookings + [NewBooking(bookings, req, client, castDate, newBookingId).value]
  {
    match NewBooking(bookings, req, client, castDate, newBookingId)
    case None => Created(users, bookings, 500)
    case Some(b) => Created(users, bookings + [b], 201)
  }

  /** Creating a booking keeps user ids and emails distinct, and booking ids distinct. */
  lemma CreateBookingKeepsWellFormed(users: seq<User>, bookings: seq<Booking>, req: BookingRequest,
                                     session: Option<string>, hashed: string, newUserId: Id,
                                     newBookingId: Id, castDate: DateCast)
    requires UsersWellFormed(users) && BookingsWellFormed(bookings)
    ensures var o := CreateBooking(users, bookings, req, session, hashed, newUserId, newBookingId, castDate);
            UsersWellFormed(o.users) && BookingsWellFormed(o.bookings)
  {
    var o := CreateBooking(users, bookings, req, session, hashed, newUserId, newBookingId, castDate);
    if o.users != users {
      var c := o.users[|users|];
      assert o.users == o.users[..|users|] + [c];
      AppendUserKeepsWellFormed(users, c);
    }
    if o.status == 201 {
      var b := o.bookings[|bookings|];
      assert o.bookings == o.bookings[..|bookings|] + [b];
      AppendBookingKeepsWellFormed(bookings, b);
    }
  }

  /** No conflict check: whatever bookings already exist, even one for the same
      employee at the same date and time, the answer and the accounts are the same
      (as long as the new booking's id is free in both). */
  lemma NoConflictCheck(users: seq<User>, bookings: seq<Booking>, others: seq<Booking>, req: BookingRequest,
                        session: Option<string>, hashed: string, newUserId: Id, newBookingId: Id,
                        castDate: DateCast)
    requires forall j :: 0 <= j < |bookings| ==> bookings[j].id != newBookingId
    requires forall j :: 0 <= j < |others| ==> others[j].id != newBookingId
    ensures var a := CreateBooking(users, bookings, req, session, hashed, newUserId, newBookingId, castDate);
            var b := CreateBooking(users, others, req, session, hashed, newUserId, newBookingId, castDate);
            a.status == b.status && a.users == b.users
  {
    if SlotGiven(req) {
      var client := ClientOf(session, newUserId);
      var accounts := if session.Some? || EmailClaimed(users, req.email) || NewClient(users, req, hashed, newUserId).None?
                      then users else users + [NewClient(users, req, hashed, newUserId).value];
      PlaceIgnoresBookings(accounts, bookings, others, req, client, castDate, newBookingId);
    }
  }

  /** Whether the booking is saved does not depend on the other bookings. */
  lemma PlaceIgnoresBookings(users: seq<User>, bookings: seq<Booking>, others: seq<Booking>,
                             req: BookingRequest, client: string, castDate: DateCast, newBookingId: Id)
    requires SlotGiven(req)
    requires forall j :: 0 <= j < |bookings| ==> bookings[j].id != newBookingId
    requires forall j :: 0 <= j < |others| ==> others[j].id != newBookingId
    ensures Place(users, bookings, req, client, castDate, newBookingId).status
         == Place(users, others, req, client, castDate, newBookingId).status
  {
    assert FindBooking(bookings, newBookingId).None? && FindBooking(others, newBookingId).None?;
  }

  /** A booking just made takes its employee out of the available list for that date
      and time. */
  lemma CreatedBookingTakesEmployee(users: seq<User>, bookings: seq<Booking>, req: BookingRequest,
                                    session: Option<string>, hashed: string, newUserId: Id,
                                    newBookingId: Id, castDate: DateCast, u: User)
    requires CreateBooking(users, bookings, req, session, hashed, newUserId, newBookingId, castDate).status == 201
    requires Some(u.id) == CastId(req.userId.value)
    ensures var o := CreateBooking(users, bookings, req, session, hashed, newUserId, newBookingId, castDate);
            var free := Availability.AvailableEmployees(o.users, o.bookings, req.date, req.time, castDate);
            free.status == 200 && u !in free.data
  {
    var o := CreateBooking(users, bookings, req, session, hashed, newUserId, newBookingId, castDate);
    var b := o.bookings[|bookings|];
    assert b in o.bookings;
    assert Availability.Booked(o.bookings, castDate(req.date.value).value, req.time.value, u.id);
  }

  // ---------------------------------------------------------------------------
  // getBookings and getUpcomingBookings

  datatype BookingQuery = BookingQuery(
    userId: Option<string>,
    serviceId: Option<string>,
    dateFrom: Option<string>,
    dateTo: Option<string>,
    status: Option<string>)

  /** The filter object `getBookings` builds: a key for each condition it sets. */
  datatype BookingFilter = BookingFilter(
    userId: Option<string>,
    serviceId: Option<string>,
    date: Option<DateBounds>,
    status: Option<string>)

  /** The filter built from the query: a condition for each non-empty parameter, and one
      date condition holding the bounds that were given. */
  function BookingFilterOf(q: BookingQuery, castDate: DateCast): (f: BookingFilter)
    ensures f.userId.Some? <==> Given(q.userId)
    ensures f.serviceId.Some? <==> Given(q.serviceId)
    ensures f.status.Some? <==> Given(q.status)
    ensures f.userId.Some? ==> f.userId == q.userId
    ensures f.serviceId.Some? ==> f.serviceId == q.serviceId
    ensures f.status.Some? ==> f.status == q.status
    ensures f.date.Some? <==> Given(q.dateFrom) || Given(q.dateTo)
    ensures f.date.Some? ==>
              && (f.date.value.gte.Some? <==> Given(q.dateFrom))
              && (f.date.value.lte.Some? <==> Given(q.dateTo))
              && (Given(q.dateFrom) ==> f.date.value.gte == Some(InstantOf(q.dateFrom.value, castDate)))
              && (Given(q.dateTo) ==> f.date.value.lte == Some(InstantOf(q.dateTo.value, castDate)))
  {
    BookingFilter(
      if Given(q.userId) then q.userId else None,
      if Given(q.serviceId) then q.serviceId else None,
      if Given(q.dateFrom) || Given(q.dateTo) then
        Some(DateBounds(
          if Given(q.dateFrom) then Some(InstantOf(q.dateFrom.value, castDate)) else None,
          if Given(q.dateTo) then Some(InstantOf(q.dateTo.value, castDate)) else None))
      else None,
      if Given(q.status) then q.status else None)
  }

  /** A filter once the driver has cast it: ids as ObjectIds and dates as instants. */
  datatype Criteria = Criteria(
    userId: Option<Id>,
    serviceId: Option<Id>,
    from: Option<int>,
    to: Option<int>,
    status: Option<string>)

  /** Casting the filter: an id that is not an ObjectId or an invalid date is a cast
      error. The status is compared as text, with no enum check. */
  function CastFilter(f: BookingFilter): Option<Criteria> {
    var bounds := if f.date.Some? then f.date.value else DateBounds(None, None);
    var u := CastOptionalId(f.userId);
    var s := CastOptionalId(f.serviceId);
    var lo := CastBound(bounds.gte);
    var hi := CastBound(bounds.lte);
    if u.Some? && s.Some? && lo.Some? && hi.Some?
    then Some(Criteria(u.value, s.value, lo.value, hi.value, f.status))
    else None
  }

  /** Whether a booking satisfies every condition of the cast filter. */
  predicate Selects(c: Criteria, b: Booking) {
    && (c.userId.Some? ==> b.userId == c.userId.value)
    && (c.serviceId.Some? ==> b.serviceId == c.serviceId.value)
    && (c.from.Some? ==> c.from.value <= b.date)
    && (c.to.Some? ==> b.date <= c.to.value)
    && (c.status.Some? ==> StatusName(b.status) == c.status.value)
  }

  function ByDate(b: Booking): int {
    b.date
  }

  /** `Booking.find(filter).sort({ date: 1 })`: 500 on a cast error, otherwise the
      bookings the filter selects, in ascending date order. */
  function FindSorted(bookings: seq<Booking>, f: BookingFilter): (r: Listing<Booking>)
    ensures r.status in {200, 500}
    ensures r.status == 500 <==> CastFilter(f).None?
    ensures r.status == 500 ==> r.data == []
    ensures r.status == 200 ==>
              && SortedBy(r.data, ByDate)
              && multiset(r.data) == multiset(Filter(bookings, b => Selects(CastFilter(f).value, b)))
              && forall b :: b in r.data <==> b in bookings && Selects(CastFilter(f).value, b)
  {
    match CastFilter(f)
    case None => Listing(500, [])
    case Some(c) =>
      var selected := Filter(bookings, b => Selects(c, b));
      var sorted := SortBy(selected, ByDate);
      assert forall b :: b in sorted <==> b in multiset(selected);
      Listing(200, sorted)
  }

  /** Whether a booking meets every condition the query gives, read directly off the
      query: the ids as ObjectIds, the bounds as dates, the status as its name. */
  predicate QuerySelects(q: BookingQuery, castDate: DateCast, b: Booking) {
    && (Given(q.userId) ==> Some(b.userId) == CastId(q.userId.value))
    && (Given(q.serviceId) ==> Some(b.serviceId) == CastId(q.serviceId.value))
    && (Given(q.dateFrom) ==> castDate(q.dateFrom.value).Some? && castDate(q.dateFrom.value).value <= b.date)
    && (Given(q.dateTo) ==> castDate(q.dateTo.value).Some? && b.date <= castDate(q.dateTo.value).value)
    && (Given(q.status) ==> StatusName(b.status) == q.status.value)
  }

  /** `getBookings`: 500 when a given id is not an ObjectId or a given date is invalid;
      otherwise exactly the bookings meeting every given condition, each as often as it
      is stored, sorted by date. */
  function GetBookings(bookings: seq<Booking>, q: BookingQuery, castDate: DateCast): (r: Listing<Booking>)
    ensures r.status in {200, 500}
    ensures r.status == 500 <==>
              || (Given(q.userId) && !IsObjectId(q.userId.value))
              || (Given(q.serviceId) && !IsObjectId(q.serviceId.value))
              || (Given(q.dateFrom) && castDate(q.dateFrom.value).None?)
              || (Given(q.dateTo) && castDate(q.dateTo.value).None?)
    ensures r.status == 500 ==> r.data == []
    ensures r.status == 200 ==>
              && SortedBy(r.data, ByDate)
              && multiset(r.data) == multiset(Filter(bookings, b => QuerySelects(q, castDate, b)))
              && forall b :: b in r.data <==> b in bookings && QuerySelects(q, castDate, b)
  {
    CastQuery(q, castDate);
    var f := BookingFilterOf(q, castDate);
    if CastFilter(f).None? then FindSorted(bookings, f)
    else
      FilterCongruent(bookings, b => Selects(CastFilter(f).value, b), b => QuerySelects(q, castDate, b));
      FindSorted(bookings, f)
  }

  /** A query's filter casts exactly when its ids and dates do, to the conditions the
      given parameters name. */
  lemma CastQuery(q: BookingQuery, castDate: DateCast)
    ensures CastFilter(BookingFilterOf(q, castDate)).None? <==>
              || (Given(q.userId) && !IsObjectId(q.userId.value))
              || (Given(q.serviceId) && !IsObjectId(q.serviceId.value))
              || (Given(q.dateFrom) && castDate(q.dateFrom.value).None?)
              || (Given(q.dateTo) && castDate(q.dateTo.value).None?)
    ensures CastFilter(BookingFilterOf(q, castDate)).Some? ==>
              CastFilter(BookingFilterOf(q, castDate)).value == Criteria(
                if Given(q.userId) then CastId(q.userId.value) else None,
                if Given(q.serviceId) then CastId(q.serviceId.value) else None,
                if Given(q.dateFrom) then castDate(q.dateFrom.value) else None,
                if Given(q.dateTo) then castDate(q.dateTo.value) else None,
                if Given(q.status) then q.status else None)
  {
  }

  /** A status outside the stored enum, such as `completed` (which the filter schema
      allows), selects nothing. */
  lemma UnknownStatusSelectsNothing(bookings: seq<Booking>, q: BookingQuery, castDate: DateCast)
    requires Given(q.status) && ParseStatus(q.status.value).None?
    ensures GetBookings(bookings, q, castDate).data == []
  {
    var r := GetBookings(bookings, q, castDate);
    if r.data != [] {
      var b := r.data[0];
      assert b in r.data && QuerySelects(q, castDate, b);
      StatusNameRoundTrip(q.status.value, b.status);
      assert false;
    }
  }

  /** Whether a booking is upcoming at `now`, and the given employee's if one is named. */
  predicate Upcoming(userId: Option<string>, now: int, b: Booking) {
    now <= b.date && (Given(userId) ==> Some(b.userId) == CastId(userId.value))
  }

  /** `getUpcomingBookings`: the bookings from `now` on, of the given employee if any,
      each as often as it is stored, sorted by date; 500 when the employee id is not an
      ObjectId. */
  function GetUpcomingBookings(bookings: seq<Booking>, userId: Option<string>, now: int): (r: Listing<Booking>)
    ensures r.status in {200, 500}
    ensures r.status == 500 <==> Given(userId) && !IsObjectId(userId.value)
    ensures r.status == 500 ==> r.data == []
    ensures r.status == 200 ==>
              && SortedBy(r.data, ByDate)
              && multiset(r.data) == multiset(Filter(bookings, b => Upcoming(userId, now, b)))
              && forall b :: b in r.data <==> b in bookings && Upcoming(userId, now, b)
  {
    var f := BookingFilter(if Given(userId) then userId else None, None, Some(DateBounds(Some(At(now)), None)), None);
    if CastFilter(f).None? then FindSorted(bookings, f)
    else
      FilterCongruent(bookings, b => Selects(CastFilter(f).value, b), b => Upcoming(userId, now, b));
      FindSorted(bookings, f)
  }

  /** The upcoming bookings are the ones `getBookings` lists for the same employee
      and a `dateFrom` that reads as `now`: the same status and the same list. */
  lemma UpcomingIsBookingsFromNow(bookings: seq<Booking>, userId: Option<string>, now: int,
                                  from: string, castDate: DateCast)
    requires from != [] && castDate(from) == Some(now)
    ensures GetUpcomingBookings(bookings, userId, now)
         == GetBookings(bookings, BookingQuery(userId, None, Some(from), None, None), castDate)
  {
    var q := BookingQuery(userId, None, Some(from), None, None);
    assert BookingFilterOf(q, castDate)
        == BookingFilter(if Given(userId) then userId else None, None, Some(DateBounds(Some(At(now)), None)), None);
  }

  // ---------------------------------------------------------------------------
  // updateBooking and deleteBooking

  /** The paths an update body can set; other keys are dropped by the strict schema. */
  datatype BookingPatch = BookingPatch(
    serviceId: Option<string>,
    userId: Option<string>,
    clientId: Option<string>,
    date: Option<string>,
    time: Option<string>,
    status: Option<string>,
    message: Option<string>,
    parent: Option<string>)

  /** An update once cast and validated. */
  datatype Changes = Changes(
    serviceId: Option<Id>,
    userId: Option<Id>,
    clientId: Option<Id>,
    date: Option<int>,
    time: Option<string>,
    status: Option<BookingStatus>,
    message: Option<string>,
    parent: Option<Id>)

  /** Casting and the update validators: ids must be ObjectIds, the date valid and not
      empty (an empty date is cast to null, which the required path refuses), the time
      non-empty (it is required) and the status in the enum; the message is trimmed. */
  function CastPatch(p: BookingPatch, castDate: DateCast): (r: Option<Changes>)
    ensures r.Some? <==>
              && (p.serviceId.Some? ==> IsObjectId(p.serviceId.value))
              && (p.userId.Some? ==> IsObjectId(p.userId.value))
              && (p.clientId.Some? ==> IsObjectId(p.clientId.value))
              && (p.parent.Some? ==> IsObjectId(p.parent.value))
              && (p.date.Some? ==> Given(p.date) && castDate(p.date.value).Some?)
              && (p.time.Some? ==> p.time.value != [])
              && (p.status.Some? ==> p.status.value in {"pending", "confirmed", "cancelled"})
  {
    var service := CastOptionalId(p.serviceId);
    var employee := CastOptionalId(p.userId);
    var client := CastOptionalId(p.clientId);
    var parent := CastOptionalId(p.parent);
    var date := if p.date.None? then Some(None)
                else match PathDate(p.date.value, castDate)
                  case Some(Some(ms)) => Some(Some(ms))
                  case _ => None;
    var status := if p.status.None? then Some(None) else if ParseStatus(p.status.value).Some? then Some(ParseStatus(p.status.value)) else None;
    if service.Some? && employee.Some? && client.Some? && parent.Some? && date.Some? && status.Some? &&
       (p.time.Some? ==> p.time.value != [])
    then Some(Changes(service.value, employee.value, client.value, date.value, p.time, status.value,
                      if p.message.Some? then Some(Trim(p.message.value)) else None, parent.value))
    else None
  }

  /** The booking with the given paths replaced and the rest kept. */
  function Apply(b: Booking, c: Changes): (r: Booking)
    ensures r.id == b.id
    ensures r.serviceId == c.serviceId.GetOr(b.serviceId) && r.userId == c.userId.GetOr(b.userId)
    ensures r.clientId == c.clientId.GetOr(b.clientId) && r.date == c.date.GetOr(b.date)
    ensures r.time == c.time.GetOr(b.time) && r.status == c.status.GetOr(b.status)
    ensures r.message == (if c.message.Some? then c.message else b.message)
    ensures r.parent == (if c.parent.Some? then c.parent else b.parent)
  {
    b.(serviceId := c.serviceId.GetOr(b.serviceId),
       userId := c.userId.GetOr(b.userId),
       clientId := c.clientId.GetOr(b.clientId),
       date := c.date.GetOr(b.date),
       time := c.time.GetOr(b.time),
       status := c.status.GetOr(b.status),
       message := if c.message.Some? then c.message else b.message,
       parent := if c.parent.Some? then c.parent else b.parent)
  }

  /** Applying the same changes twice is applying them once. */
  lemma ApplyIdempotent(b: Booking, c: Changes)
    ensures Apply(Apply(b, c), c) == Apply(b, c)
  {
  }

  datatype Stored = Stored(bookings: seq<Booking>, status: int)

  /** `findByIdAndUpdate` with validators: the id and the body are cast and validated
      before the lookup (500), then 404 for an unknown id; otherwise the booking with
      that id gets the changes and no other booking changes. */
  function UpdateBooking(bookings: seq<Booking>, id: string, p: BookingPatch, castDate: DateCast): (o: Stored)
    ensures o.status in {500, 404, 200}
    ensures o.status == 500 <==> !IsObjectId(id) || CastPatch(p, castDate).None?
    ensures o.status == 404 <==>
              IsObjectId(id) && CastPatch(p, castDate).Some? &&
              forall j :: 0 <= j < |bookings| ==> Some(bookings[j].id) != CastId(id)
    ensures o.status != 200 ==> o.bookings == bookings
    ensures o.status == 200 ==>
              exists k :: 0 <= k < |bookings| && Some(bookings[k].id) == CastId(id) &&
                          o.bookings == bookings[k := Apply(bookings[k], CastPatch(p, castDate).value)]
  {
    match (CastId(id), CastPatch(p, castDate))
    case (Some(key), Some(c)) =>
      (match FindBooking(bookings, key)
       case None => Stored(bookings, 404)
       case Some(k) => Stored(bookings[k := Apply(bookings[k], c)], 200))
    case _ => Stored(bookings, 500)
  }

  /** Sending the same update twice leaves the bookings as one update did. */
  lemma UpdateIdempotent(bookings: seq<Booking>, id: string, p: BookingPatch, castDate: DateCast)
    requires UpdateBooking(bookings, id, p, castDate).status == 200
    ensures var once := UpdateBooking(bookings, id, p, castDate).bookings;
            UpdateBooking(once, id, p, castDate).bookings == once
  {
    var c := CastPatch(p, castDate).value;
    var key := CastId(id).value;
    var k := FindBooking(bookings, key).value;
    var once := bookings[k := Apply(bookings[k], c)];
    assert once[k].id == key;
    assert forall j :: 0 <= j < k ==> once[j] == bookings[j];
    assert FindBooking(once, key) == Some(k);
    ApplyIdempotent(bookings[k], c);
  }

  /** The update schema lets the status `completed` through, but the stored enum does
      not have it: such an update is answered 500 whatever the booking. */
  lemma CompletedPassesSchemaFailsStore(lib: Joi.Library, bookings: seq<Booking>, id: string,
                                        p: BookingPatch, castDate: DateCast)
    requires p.status == Some("completed")
    ensures Joi.Accepts(BookingValidator.UpdateBookingSchema(), map["status" := Joi.Str("completed")], lib)
    ensures UpdateBooking(bookings, id, p, castDate).status == 500
  {
    BookingValidator.UpdateBookingIff(map["status" := Joi.Str("completed")], lib);
  }

  /** `findByIdAndDelete`: 500 for an id that is not an ObjectId, 404 for an unknown one;
      otherwise the booking with that id is removed and the others stay in order. */
  function DeleteBooking(bookings: seq<Booking>, id: string): (o: Stored)
    ensures o.status in {500, 404, 200}
    ensures o.status == 500 <==> !IsObjectId(id)
    ensures o.status == 404 <==>
              IsObjectId(id) && forall j :: 0 <= j < |bookings| ==> Some(bookings[j].id) != CastId(id)
    ensures o.status != 200 ==> o.bookings == bookings
    ensures o.status == 200 ==>
              exists k :: 0 <= k < |bookings| && Some(bookings[k].id) == CastId(id) &&
                          o.bookings == bookings[..k] + bookings[k + 1..]
  {
    match CastId(id)
    case None => Stored(bookings, 500)
    case Some(key) =>
      match FindBooking(bookings, key)
      case None => Stored(bookings, 404)
      case Some(k) => Stored(bookings[..k] + bookings[k + 1..], 200)
  }

  /** With distinct ids, a deleted booking is gone: deleting it again answers 404. */
  lemma DeleteTwiceNotFound(bookings: seq<Booking>, id: string)
    requires BookingsWellFormed(bookings)
    requires DeleteBooking(bookings, id).status == 200
    ensures DeleteBooking(DeleteBooking(bookings, id).bookings, id).status == 404
  {
    var after := DeleteBooking(bookings, id).bookings;
    var k :| 0 <= k < |bookings| && Some(bookings[k].id) == CastId(id) && after == bookings[..k] + bookings[k + 1..];
    forall j | 0 <= j < |after| ensures Some(after[j].id) != CastId(id) {
      if j < k { assert after[j] == bookings[j]; } else { assert after[j] == bookings[j + 1]; }
    }
  }
}

=== FILE: booking_validator.dfy ===
/** The request-body schemas for bookings (src/validators/bookingValidator.ts), each
    written as the library schema and as a plain description of the bodies it
    accepts, with a lemma proving the two agree. */
module BookingValidator {
  import opened Wrappers
  import opened Joi
  import opened Formats
  import opened Fields

  /** The statuses the update and filter schemas allow; `completed` is one of them,
      though the stored booking's status enum does not have it. */
  const Statuses: seq<string> := ["pending", "confirmed", "cancelled", "completed"]

  function CreateBookingSchema(): Schema {
    Schema(map[
      "userId" := IdRule(Required),
      "serviceId" := IdRule(Required),
      "date" := Rule(Date(false, None), Required),
      "time" := ClockRule(Required),
      "firstName" := Rule(Text(None, Some(50), Plain), Optional),
      "lastName" := Rule(Text(None, Some(50), Plain), Optional),
      "email" := Rule(Text(None, None, Email), Optional),
      "phoneNumber" := PhoneRule(Optional),
      "postalCode" := PostalCodeRule(Optional),
      "message" := Rule(Text(Some(0), Some(255), Plain), Optional)
    ], false, [])
  }

  /** The bodies a new booking may have: the employee and service ids are 24 hex
      digits, the date is a date, the time is one of "00:00".."23:59"; names have 1
      to 50 characters (no empty strings), the message 0 to 255 (its `min(0)` lets
      the empty string through), phone number and postal code have their formats.
      Nothing else may be sent. */
  predicate CreateBookingRules(p: Payload, lib: Library) {
    && p.Keys <= {"userId", "serviceId", "date", "time", "firstName", "lastName", "email",
                  "phoneNumber", "postalCode", "message"}
    && CreateBookingRequired(p, lib)
    && CreateBookingOptional(p, lib)
  }

  predicate CreateBookingRequired(p: Payload, lib: Library) {
    && "userId" in p && p["userId"].Str? && IsObjectId(p["userId"].s)
    && "serviceId" in p && p["serviceId"].Str? && IsObjectId(p["serviceId"].s)
    && "date" in p && lib.date(p["date"], false).Some?
    && "time" in p && p["time"].Str? && IsClockTime(p["time"].s)
  }

  predicate CreateBookingOptional(p: Payload, lib: Library) {
    && ("firstName" in p ==> p["firstName"].Str? && 1 <= |p["firstName"].s| <= 50)
    && ("lastName" in p ==> p["lastName"].Str? && 1 <= |p["lastName"].s| <= 50)
    && ("email" in p ==> p["email"].Str? && p["email"].s != [] && lib.isEmail(p["email"].s))
    && ("phoneNumber" in p ==> p["phoneNumber"].Str? && IsPhoneNumber(p["phoneNumber"].s))
    && ("postalCode" in p ==> p["postalCode"].Str? && IsPostalCode(p["postalCode"].s))
    && ("message" in p ==> p["message"].Str? && |p["message"].s| <= 255)
  }

  lemma CreateBookingSoundRequired(p: Payload, lib: Library)
    requires Accepts(CreateBookingSchema(), p, lib)
    ensures CreateBookingRequired(p, lib)
  {
    var s := CreateBookingSchema();
    assert FieldOk("userId", s.fields["userId"], p, lib);
    IdField("userId", Required, p, lib);
    assert FieldOk("serviceId", s.fields["serviceId"], p, lib);
    IdField("serviceId", Required, p, lib);
    assert FieldOk("time", s.fields["time"], p, lib);
    ClockField("time", Required, p, lib);
    assert FieldOk("date", s.fields["date"], p, lib);
  }

  lemma CreateBookingSoundOptional(p: Payload, lib: Library)
    requires Accepts(CreateBookingSchema(), p, lib)
    ensures CreateBookingOptional(p, lib)
  {
    var s := CreateBookingSchema();
    assert FieldOk("phoneNumber", s.fields["phoneNumber"], p, lib);
    PhoneField("phoneNumber", Optional, p, lib);
    assert FieldOk("postalCode", s.fields["postalCode"], p, lib);
    PostalCodeField("postalCode", Optional, p, lib);
    assert FieldOk("firstName", s.fields["firstName"], p, lib);
    assert FieldOk("lastName", s.fields["lastName"], p, lib);
    assert FieldOk("email", s.fields["email"], p, lib);
    assert FieldOk("message", s.fields["message"], p, lib);
  }

  lemma CreateBookingComplete(p: Payload, lib: Library)
    requires CreateBookingRules(p, lib)
    ensures Accepts(CreateBookingSchema(), p, lib)
  {
    var s := CreateBookingSchema();
    forall k | k in s.fields ensures FieldOk(k, s.fields[k], p, lib) {
      if k == "userId" || k == "serviceId" { IdField(k, Required, p, lib); }
      else if k == "time" { ClockField(k, Required, p, lib); }
      else if k == "phoneNumber" { PhoneField(k, Optional, p, lib); }
      else if k == "postalCode" { PostalCodeField(k, Optional, p, lib); }
    }
  }

  /** The create-booking schema accepts exactly the bodies `CreateBookingRules` describes. */
  lemma CreateBookingIff(p: Payload, lib: Library)
    ensures Accepts(CreateBookingSchema(), p, lib) <==> CreateBookingRules(p, lib)
  {
    if Accepts(CreateBookingSchema(), p, lib) {
      CreateBookingSoundRequired(p, lib);
      CreateBookingSoundOptional(p, lib);
    }
    if CreateBookingRules(p, lib) { CreateBookingComplete(p, lib); }
  }

  /** `min(0)` lets an empty message through: a body with the four required fields
      and `message: ""` is a valid new booking. */
  lemma EmptyMessageAccepted(p: Payload, lib: Library)
    requires CreateBookingRequired(p, lib)
    requires p.Keys == {"userId", "serviceId", "date", "time", "message"} && p["message"] == Str("")
    ensures Accepts(CreateBookingSchema(), p, lib)
  {
    assert CreateBookingOptional(p, lib);
    CreateBookingComplete(p, lib);
  }

  function UpdateBookingSchema(): Schema {
    Schema(map[
      "userId" := IdRule(Optional),
      "serviceId" := IdRule(Optional),
      "date" := Rule(Date(true, None), Optional),
      "status" := Rule(OneOf(Statuses), Optional),
      "message" := Rule(Text(None, Some(255), Plain), Optional)
    ], true, [])
  }

  /** An update changes at least one of the five fields; a status must be one of the
      four names. */
  predicate UpdateBookingRules(p: Payload, lib: Library) {
    && p != map[]
    && p.Keys <= {"userId", "serviceId", "date", "status", "message"}
    && ("userId" in p ==> p["userId"].Str? && IsObjectId(p["userId"].s))
    && ("serviceId" in p ==> p["serviceId"].Str? && IsObjectId(p["serviceId"].s))
    && ("date" in p ==> lib.date(p["date"], true).Some?)
    && ("status" in p ==> p["status"] in {Str("pending"), Str("confirmed"), Str("cancelled"), Str("completed")})
    && ("message" in p ==> p["message"].Str? && 1 <= |p["message"].s| <= 255)
  }

  lemma UpdateBookingSound(p: Payload, lib: Library)
    requires Accepts(UpdateBookingSchema(), p, lib)
    ensures UpdateBookingRules(p, lib)
  {
    var s := UpdateBookingSchema();
    assert FieldOk("userId", s.fields["userId"], p, lib);
    IdField("userId", Optional, p, lib);
    assert FieldOk("serviceId", s.fields["serviceId"], p, lib);
    IdField("serviceId", Optional, p, lib);
    assert FieldOk("date", s.fields["date"], p, lib);
    assert FieldOk("status", s.fields["status"], p, lib);
    assert FieldOk("message", s.fields["message"], p, lib);
  }

  lemma UpdateBookingComplete(p: Payload, lib: Library)
    requires UpdateBookingRules(p, lib)
    ensures Accepts(UpdateBookingSchema(), p, lib)
  {
    var s := UpdateBookingSchema();
    forall k | k in s.fields ensures FieldOk(k, s.fields[k], p, lib) {
      if k == "userId" || k == "serviceId" { IdField(k, Optional, p, lib); }
    }
  }

  /** The update-booking schema accepts exactly the bodies `UpdateBookingRules` describes. */
  lemma UpdateBookingIff(p: Payload, lib: Library)
    ensures Accepts(UpdateBookingSchema(), p, lib) <==> UpdateBookingRules(p, lib)
  {
    if Accepts(UpdateBookingSchema(), p, lib) { UpdateBookingSound(p, lib); }
    if UpdateBookingRules(p, lib) { UpdateBookingComplete(p, lib); }
  }

  function FilterBookingSchema(): Schema {
    Schema(map[
      "userId" := IdRule(Optional),
      "serviceId" := IdRule(Optional),
      "dateFrom" := Rule(Date(true, None), Optional),
      "dateTo" := Rule(Date(true, None), Optional),
      "status" := Rule(OneOf(Statuses), Optional)
    ], false, ["userId", "serviceId", "dateFrom", "dateTo", "status"])
  }

  /** A booking query names at least one criterion among the five. */
  predicate FilterBookingRules(p: Payload, lib: Library) {
    && p.Keys <= {"userId", "serviceId", "dateFrom", "dateTo", "status"}
    && ("userId" in p || "serviceId" in p || "dateFrom" in p || "dateTo" in p || "status" in p)
    && ("userId" in p ==> p["userId"].Str? && IsObjectId(p["userId"].s))
    && ("serviceId" in p ==> p["serviceId"].Str? && IsObjectId(p["serviceId"].s))
    && ("dateFrom" in p ==> lib.date(p["dateFrom"], true).Some?)
    && ("dateTo" in p ==> lib.date(p["dateTo"], true).Some?)
    && ("status" in p ==> p["status"] in {Str("pending"), Str("confirmed"), Str("cancelled"), Str("completed")})
  }

  lemma FilterBookingSound(p: Payload, lib: Library)
    requires Accepts(FilterBookingSchema(), p, lib)
    ensures FilterBookingRules(p, lib)
  {
    var s := FilterBookingSchema();
    assert FieldOk("userId", s.fields["userId"], p, lib);
    IdField("userId", Optional, p, lib);
    assert FieldOk("serviceId", s.fields["serviceId"], p, lib);
    IdField("serviceId", Optional, p, lib);
    assert FieldOk("dateFrom", s.fields["dateFrom"], p, lib);
    assert FieldOk("dateTo", s.fields["dateTo"], p, lib);
    assert FieldOk("status", s.fields["status"], p, lib);
  }

  lemma FilterBookingComplete(p: Payload, lib: Library)
    requires FilterBookingRules(p, lib)
    ensures Accepts(FilterBookingSchema(), p, lib)
  {
    var s := FilterBookingSchema();
    forall k | k in s.fields ensures FieldOk(k, s.fields[k], p, lib) {
      if k == "userId" || k == "serviceId" { IdField(k, Optional, p, lib); }
    }
    if "userId" in p { assert s.anyOf[0] in p; }
    else if "serviceId" in p { assert s.anyOf[1] in p; }
    else if "dateFrom" in p { assert s.anyOf[2] in p; }
    else if "dateTo" in p { assert s.anyOf[3] in p; }
    else { assert s.anyOf[4] in p; }
  }

  /** The booking-filter schema accepts exactly the queries `FilterBookingRules` describes. */
  lemma FilterBookingIff(p: Payload, lib: Library)
    ensures Accepts(FilterBookingSchema(), p, lib) <==> FilterBookingRules(p, lib)
  {
    if Accepts(FilterBookingSchema(), p, lib) { FilterBookingSound(p, lib); }
    if FilterBookingRules(p, lib) { FilterBookingComplete(p, lib); }
  }

  /** The update schema's message has no `min` rule, so there an empty message is
      refused, whatever else the body holds. */
  lemma UpdateEmptyMessageRejected(p: Payload, lib: Library)
    requires "message" in p && p["message"] == Str("")
    ensures !Accepts(UpdateBookingSchema(), p, lib)
  {
    UpdateBookingIff(p, lib);
  }
}

=== FILE: fields.dfy ===
/** The field rules the validators share: a string field constrained by one of the
    regular expressions of `Formats`. Each lemma turns the library's verdict on such a
    field into the direct description of the strings the expression matches. */
module Fields {
  import opened Wrappers
  import opened Joi
  import opened Formats

  /** `string().pattern(/^[0-9a-fA-F]{24}$/)` */
  function IdRule(pr: Presence): Rule {
    Rule(Text(None, None, Pattern(ObjectIdPattern())), pr)
  }

  /** `string().pattern(/^([01]\d|2[0-3]):([0-5]\d)$/)` */
  function ClockRule(pr: Presence): Rule {
    Rule(Text(None, None, Pattern(ClockPattern())), pr)
  }

  /** `string().pattern(/^\+?[1-9]\d{1,14}$/)` */
  function PhoneRule(pr: Presence): Rule {
    Rule(Text(None, None, Pattern(PhonePattern())), pr)
  }

  /** `string().pattern(/^\d{5}$/)` */
  function PostalCodeRule(pr: Presence): Rule {
    Rule(Text(None, None, Pattern(PostalCodePattern())), pr)
  }

  /** `string().min(1)` followed by the custom check `value.match(/^\d{1,2}:\d{2}$/)`. */
  function DurationRule(pr: Presence): Rule {
    Rule(Text(Some(1), None, Pattern(DurationPattern())), pr)
  }

  /** `string().pattern(/^\+?[0-9]{7,15}$/)` */
  function ContactPhoneRule(pr: Presence): Rule {
    Rule(Text(None, None, Pattern(ContactPhonePattern())), pr)
  }

  lemma IdField(k: string, pr: Presence, p: Payload, lib: Library)
    ensures FieldOk(k, IdRule(pr), p, lib) <==>
            if k in p then p[k].Str? && IsObjectId(p[k].s) else !IsRequired(pr, p)
  {
    if k in p && p[k].Str? { ObjectIdIff(p[k].s); }
  }

  lemma ClockField(k: string, pr: Presence, p: Payload, lib: Library)
    ensures FieldOk(k, ClockRule(pr), p, lib) <==>
            if k in p then p[k].Str? && IsClockTime(p[k].s) else !IsRequired(pr, p)
  {
    if k in p && p[k].Str? { ClockIff(p[k].s); }
  }

  lemma PhoneField(k: string, pr: Presence, p: Payload, lib: Library)
    ensures FieldOk(k, PhoneRule(pr), p, lib) <==>
            if k in p then p[k].Str? && IsPhoneNumber(p[k].s) else !IsRequired(pr, p)
  {
    if k in p && p[k].Str? { PhoneIff(p[k].s); }
  }

  lemma PostalCodeField(k: string, pr: Presence, p: Payload, lib: Library)
    ensures FieldOk(k, PostalCodeRule(pr), p, lib) <==>
            if k in p then p[k].Str? && IsPostalCode(p[k].s) else !IsRequired(pr, p)
  {
    if k in p && p[k].Str? { PostalCodeIff(p[k].s); }
  }

  lemma DurationField(k: string, pr: Presence, p: Payload, lib: Library)
    ensures FieldOk(k, DurationRule(pr), p, lib) <==>
            if k in p then p[k].Str? && IsDurationText(p[k].s) else !IsRequired(pr, p)
  {
    if k in p && p[k].Str? { DurationIff(p[k].s); }
  }

  lemma ContactPhoneField(k: string, pr: Presence, p: Payload, lib: Library)
    ensures FieldOk(k, ContactPhoneRule(pr), p, lib) <==>
            if k in p then p[k].Str? && IsContactPhone(p[k].s) else !IsRequired(pr, p)
  {
    if k in p && p[k].Str? { ContactPhoneIff(p[k].s); }
  }
}

=== FILE: formats.dfy ===
/** The text formats the validators check with anchored regular expressions, each
    given twice: as the regular expression the validator writes, and as a direct
    description of the accepted strings; the lemmas prove the two agree. */
module Formats {
  import opened Regex

  predicate IsDigit(c: char) {
    '0' <= c <= '9'
  }

  predicate IsHexDigit(c: char) {
    IsDigit(c) || 'a' <= c <= 'f' || 'A' <= c <= 'F'
  }

  predicate AllDigits(s: string) {
    forall i :: 0 <= i < |s| ==> IsDigit(s[i])
  }

  /** The numeric value of a digit character. */
  function DigitValue(c: char): nat
    requires IsDigit(c)
  {
    c as int - '0' as int
  }

  /** The digit character of a value below ten. */
  function DigitChar(d: nat): (c: char)
    requires d < 10
    ensures IsDigit(c) && DigitValue(c) == d
  {
    ('0' as int + d) as char
  }

  /** The string without one leading `+`, if it has one. */
  function StripPlus(s: string): string {
    if 0 < |s| && s[0] == '+' then s[1..] else s
  }

  // ---------------------------------------------------------------------------
  // Direct descriptions of the accepted strings

  /** A MongoDB ObjectId in text: exactly 24 hexadecimal digits, either case. */
  predicate IsObjectId(s: string) {
    |s| == 24 && forall i :: 0 <= i < |s| ==> IsHexDigit(s[i])
  }

  /** `HH:mm` on a 24-hour clock: 00:00 to 23:59, both parts two digits. */
  predicate IsClockTime(s: string) {
    && |s| == 5 && s[2] == ':'
    && IsDigit(s[0]) && IsDigit(s[1]) && IsDigit(s[3]) && IsDigit(s[4])
    && DigitValue(s[0]) * 10 + DigitValue(s[1]) < 24
    && DigitValue(s[3]) < 6
  }

  /** A booking's phone number: an optional `+`, then 2 to 15 digits of which the
      first is not zero. */
  predicate IsPhoneNumber(s: string) {
    var body := StripPlus(s);
    2 <= |body| <= 15 && body[0] != '0' && AllDigits(body)
  }

  /** A French postal code: exactly five digits. */
  predicate IsPostalCode(s: string) {
    |s| == 5 && AllDigits(s)
  }

  /** A service duration in `H:MM` text: one or two digits, a colon, two digits.
      Neither part is bounded, so `9:75` and `0:00` are durations. */
  predicate IsDurationText(s: string) {
    && (|s| == 4 || |s| == 5)
    && s[|s| - 3] == ':'
    && AllDigits(s[..|s| - 3])
    && AllDigits(s[|s| - 2..])
  }

  /** The business's contact phone: an optional `+`, then 7 to 15 digits. */
  predicate IsContactPhone(s: string) {
    7 <= |StripPlus(s)| <= 15 && AllDigits(StripPlus(s))
  }

  // ---------------------------------------------------------------------------
  // The regular expressions as the validators write them

  function HexRanges(): seq<CharRange> {
    [CharRange('0', '9'), CharRange('a', 'f'), CharRange('A', 'F')]
  }

  /** `^[0-9a-fA-F]{24}$` */
  function ObjectIdPattern(): Regex {
    Repeat(Class(HexRanges()), 24, 24)
  }

  /** `^([01]\d|2[0-3]):([0-5]\d)$` */
  function ClockPattern(): Regex {
    Seq(Alt(Seq(Class([CharRange('0', '1')]), Digit()), Seq(Lit('2'), Class([CharRange('0', '3')]))),
        Seq(Lit(':'), Seq(Class([CharRange('0', '5')]), Digit())))
  }

  /** `^\+?[1-9]\d{1,14}$` */
  function PhonePattern(): Regex {
    Seq(Opt(Lit('+')), Seq(Class([CharRange('1', '9')]), Repeat(Digit(), 1, 14)))
  }

  /** `^\d{5}$` */
  function PostalCodePattern(): Regex {
    Repeat(Digit(), 5, 5)
  }

  /** `^\d{1,2}:\d{2}$` */
  function DurationPattern(): Regex {
    Seq(Repeat(Digit(), 1, 2), Seq(Lit(':'), Repeat(Digit(), 2, 2)))
  }

  /** `^\+?[0-9]{7,15}$` */
  function ContactPhonePattern(): Regex {
    Seq(Opt(Lit('+')), Repeat(Class([CharRange('0', '9')]), 7, 15))
  }

  // ---------------------------------------------------------------------------
  // Agreement of the two descriptions

  lemma OneRange(c: char, lo: char, hi: char)
    ensures InClass(c, [CharRange(lo, hi)]) <==> lo <= c <= hi
  {
    if lo <= c <= hi {
      assert [CharRange(lo, hi)][0].lo <= c <= [CharRange(lo, hi)][0].hi;
    }
  }

  lemma HexClass(c: char)
    ensures InClass(c, HexRanges()) <==> IsHexDigit(c)
  {
    var rs := HexRanges();
    if IsDigit(c) {
      assert rs[0].lo <= c <= rs[0].hi;
    } else if 'a' <= c <= 'f' {
      assert rs[1].lo <= c <= rs[1].hi;
    } else if 'A' <= c <= 'F' {
      assert rs[2].lo <= c <= rs[2].hi;
    }
  }

  /** `\d{lo,hi}` matches exactly the digit strings of length lo to hi. */
  lemma DigitsIff(lo: nat, hi: nat, s: string)
    ensures Matches(Repeat(Digit(), lo, hi), s) <==> lo <= |s| <= hi && AllDigits(s)
  {
    RepeatClass([CharRange('0', '9')], lo, hi, s);
    forall i | 0 <= i < |s| {
      OneRange(s[i], '0', '9');
    }
  }

  lemma ObjectIdIff(s: string)
    ensures Matches(ObjectIdPattern(), s) <==> IsObjectId(s)
  {
    RepeatClass(HexRanges(), 24, 24, s);
    forall i | 0 <= i < |s| {
      HexClass(s[i]);
    }
  }

  lemma PostalCodeIff(s: string)
    ensures Matches(PostalCodePattern(), s) <==> IsPostalCode(s)
  {
    DigitsIff(5, 5, s);
  }

  /** `([01]\d|2[0-3])` matches the two-digit hours 00 to 23. */
  lemma HourIff(s: string)
    requires |s| == 2
    ensures Matches(Alt(Seq(Class([CharRange('0', '1')]), Digit()), Seq(Lit('2'), Class([CharRange('0', '3')]))), s)
            <==> IsDigit(s[0]) && IsDigit(s[1]) && DigitValue(s[0]) * 10 + DigitValue(s[1]) < 24
  {
    SeqFixedLeft(Class([CharRange('0', '1')]), Digit(), s);
    SeqFixedLeft(Lit('2'), Class([CharRange('0', '3')]), s);
    assert s[..1] == [s[0]] && s[1..] == [s[1]];
    OneRange(s[0], '0', '1');
    OneRange(s[0], '2', '2');
    OneRange(s[1], '0', '9');
    OneRange(s[1], '0', '3');
  }

  /** `:([0-5]\d)` matches a colon and the two-digit minutes 00 to 59. */
  lemma MinuteIff(s: string)
    requires |s| == 3
    ensures Matches(Seq(Lit(':'), Seq(Class([CharRange('0', '5')]), Digit())), s)
            <==> s[0] == ':' && IsDigit(s[1]) && IsDigit(s[2]) && DigitValue(s[1]) < 6
  {
    SeqFixedLeft(Lit(':'), Seq(Class([CharRange('0', '5')]), Digit()), s);
    SeqFixedLeft(Class([CharRange('0', '5')]), Digit(), s[1..]);
    assert s[..1] == [s[0]];
    assert s[1..][..1] == [s[1]] && s[1..][1..] == [s[2]];
    OneRange(s[0], ':', ':');
    OneRange(s[1], '0', '5');
    OneRange(s[2], '0', '9');
  }

  lemma ClockIff(s: string)
    ensures Matches(ClockPattern(), s) <==> IsClockTime(s)
  {
    var hour := Alt(Seq(Class([CharRange('0', '1')]), Digit()), Seq(Lit('2'), Class([CharRange('0', '3')])));
    var minute := Seq(Lit(':'), Seq(Class([CharRange('0', '5')]), Digit()));
    SeqFixedLeft(hour, minute, s);
    if |s| == 5 {
      HourIff(s[..2]);
      MinuteIff(s[2..]);
      assert s[..2][0] == s[0] && s[..2][1] == s[1];
      assert s[2..][0] == s[2] && s[2..][1] == s[3] && s[2..][2] == s[4];
    } else if 2 <= |s| && Matches(minute, s[2..]) {
      WidthSound(minute, s[2..]);
    }
  }

  /** `[1-9]\d{1,14}` after the optional plus sign. */
  lemma PhoneBodyIff(s: string)
    ensures Matches(Seq(Class([CharRange('1', '9')]), Repeat(Digit(), 1, 14)), s)
            <==> 2 <= |s| <= 15 && s[0] != '0' && AllDigits(s)
  {
    SeqFixedLeft(Class([CharRange('1', '9')]), Repeat(Digit(), 1, 14), s);
    if 1 <= |s| {
      assert s[..1] == [s[0]];
      OneRange(s[0], '1', '9');
      DigitsIff(1, 14, s[1..]);
      if AllDigits(s[1..]) && IsDigit(s[0]) {
        forall i | 0 <= i < |s| ensures IsDigit(s[i]) {
          if i > 0 { assert s[i] == s[1..][i - 1]; }
        }
      }
      if AllDigits(s) {
        forall i | 0 <= i < |s[1..]| ensures IsDigit(s[1..][i]) {
          assert s[1..][i] == s[i + 1];
        }
      }
    }
  }

  lemma PhoneIff(s: string)
    ensures Matches(PhonePattern(), s) <==> IsPhoneNumber(s)
  {
    var body := Seq(Class([CharRange('1', '9')]), Repeat(Digit(), 1, 14));
    SeqOptLeft('+', body, s);
    PhoneBodyIff(s);
    if 0 < |s| {
      PhoneBodyIff(s[1..]);
    }
  }

  lemma ContactPhoneIff(s: string)
    ensures Matches(ContactPhonePattern(), s) <==> IsContactPhone(s)
  {
    SeqOptLeft('+', Repeat(Class([CharRange('0', '9')]), 7, 15), s);
    DigitsIff(7, 15, s);
    if 0 < |s| {
      DigitsIff(7, 15, s[1..]);
      if s[0] == '+' {
        assert !IsDigit(s[0]);
      }
    }
  }

  /** `:\d{2}` matches a colon and two digits. */
  lemma ColonDigitsIff(t: string)
    requires |t| == 3
    ensures Matches(Seq(Lit(':'), Repeat(Digit(), 2, 2)), t) <==> t[0] == ':' && AllDigits(t[1..])
  {
    SeqFixedLeft(Lit(':'), Repeat(Digit(), 2, 2), t);
    assert t[..1] == [t[0]];
    OneRange(t[0], ':', ':');
    DigitsIff(2, 2, t[1..]);
  }

  lemma DurationIff(s: string)
    ensures Matches(DurationPattern(), s) <==> IsDurationText(s)
  {
    if Matches(DurationPattern(), s) { DurationSound(s); }
    if IsDurationText(s) { DurationComplete(s); }
  }

  lemma DurationSound(s: string)
    requires Matches(DurationPattern(), s)
    ensures IsDurationText(s)
  {
    var left := Repeat(Digit(), 1, 2);
    var right := Seq(Lit(':'), Repeat(Digit(), 2, 2));
    SeqSplitRight(left, right, s);
    DurationParts(s);
  }

  lemma DurationComplete(s: string)
    requires IsDurationText(s)
    ensures Matches(DurationPattern(), s)
  {
    var left := Repeat(Digit(), 1, 2);
    var right := Seq(Lit(':'), Repeat(Digit(), 2, 2));
    DurationParts(s);
    SeqIntro(left, right, s, |s| - 3);
  }

  /** A duration split three characters before its end: the hours, then the colon
      and the minutes. */
  lemma DurationParts(s: string)
    requires 3 <= |s|
    ensures IsDurationText(s) <==>
              && Matches(Repeat(Digit(), 1, 2), s[..|s| - 3])
              && Matches(Seq(Lit(':'), Repeat(Digit(), 2, 2)), s[|s| - 3..])
  {
    var n := |s| - 3;
    var head, tail := s[..n], s[n..];
    ColonDigitsIff(tail);
    DigitsIff(1, 2, head);
    assert tail[0] == s[n] && tail[1..] == s[n + 1..];
  }

  // ---------------------------------------------------------------------------
  // `HH:mm` strings and minutes of the day

  /** The minute of the day a clock time names. */
  function ClockMinutes(s: string): (t: nat)
    requires IsClockTime(s)
    ensures t < 24 * 60
  {
    (DigitValue(s[0]) * 10 + DigitValue(s[1])) * 60 + DigitValue(s[3]) * 10 + DigitValue(s[4])
  }

  /** The clock time of a minute of the day, zero-padded. */
  function FormatClock(t: nat): (s: string)
    requires t < 24 * 60
    ensures IsClockTime(s) && ClockMinutes(s) == t
  {
    var h, m := t / 60, t % 60;
    [DigitChar(h / 10), DigitChar(h % 10), ':', DigitChar(m / 10), DigitChar(m % 10)]
  }

  /** Every accepted clock time is the formatting of its own minute: `HH:mm` accepts
      exactly the 1440 strings "00:00" to "23:59", one per minute of the day. */
  lemma ClockRoundTrip(s: string)
    requires IsClockTime(s)
    ensures FormatClock(ClockMinutes(s)) == s
  {
    var t := ClockMinutes(s);
    var f := FormatClock(t);
    var h := DigitValue(s[0]) * 10 + DigitValue(s[1]);
    var m := DigitValue(s[3]) * 10 + DigitValue(s[4]);
    assert t / 60 == h && t % 60 == m;
    assert f[0] == s[0] && f[1] == s[1] && f[2] == s[2] && f[3] == s[3] && f[4] == s[4];
  }
}

=== FILE: http.dfy ===
/** What the request handlers share: reading an optional request field the way
    JavaScript tests it, and the shape of a listing answer. */
module Http {
  import opened Wrappers

  /** A request field the handler tests with `!field` or `if (field)`: absent, or a
      string, and only the non-empty string passes. */
  predicate Given(v: Option<string>) {
    v.Some? && v.value != []
  }

  /** A listing answer: the status code and, on success, the documents found. */
  datatype Listing<T> = Listing(status: int, data: seq<T>)

  /** The date cast: `new Date(text)` or the document mapper's cast of a text to a date
      path, giving epoch milliseconds, or nothing for an invalid date. */
  type DateCast = string -> Option<int>

  /** The document mapper's cast of a text to a date path. The empty string becomes
      null, which leaves the path unset (and fails it when it is required); any other
      text goes through the date cast, and an invalid date is a cast error. */
  function PathDate(text: string, castDate: DateCast): (r: Option<Option<int>>)
    ensures r == Some(None) <==> text == []
    ensures r.None? <==> text != [] && castDate(text).None?
    ensures r.Some? && text != [] ==> r.value == castDate(text)
  {
    if text == [] then Some(None)
    else if castDate(text).Some? then Some(castDate(text))
    else None
  }
}

=== FILE: invitation_validator.dfy ===
/** The request-body schemas for invitations (src/validators/invitationValidator.ts):
    the library schema, a plain description of the bodies it accepts, and a lemma
    proving the two agree. */
module InvitationValidator {
  import opened Wrappers
  import opened Joi
  import opened UserValidator

  /** The statuses the update and filter schemas allow; `revoked` is one of them,
      though the stored invitation's status enum does not have it. */
  const InvitationStatuses: seq<string> := ["pending", "accepted", "declined", "revoked"]

  predicate IsInvitationStatusName(v: Value) {
    v in {Str("pending"), Str("accepted"), Str("declined"), Str("revoked")}
  }

  function CreateInvitationSchema(): Schema {
    Schema(map[
      "email" := Rule(Text(None, None, Email), Required),
      "role" := Rule(OneOf(RoleNames), Required)
    ], false, [])
  }

  /** An invitation carries exactly an email address and a role name, `client` among
      them. */
  predicate CreateInvitationRules(p: Payload, lib: Library) {
    && p.Keys == {"email", "role"}
    && IsEmailText(p["email"], lib)
    && IsRoleName(p["role"])
  }

  /** The create-invitation schema accepts exactly the bodies `CreateInvitationRules`
      describes. */
  lemma CreateInvitationIff(p: Payload, lib: Library)
    ensures Accepts(CreateInvitationSchema(), p, lib) <==> CreateInvitationRules(p, lib)
  {
    var s := CreateInvitationSchema();
    if Accepts(s, p, lib) {
      assert FieldOk("email", s.fields["email"], p, lib);
      assert FieldOk("role", s.fields["role"], p, lib);
    }
  }

  function UpdateInvitationSchema(): Schema {
    Schema(map["status" := Rule(OneOf(InvitationStatuses), Required)], false, [])
  }

  /** An invitation update carries exactly a status name. */
  predicate UpdateInvitationRules(p: Payload) {
    p.Keys == {"status"} && IsInvitationStatusName(p["status"])
  }

  /** The update-invitation schema accepts exactly the bodies `UpdateInvitationRules`
      describes. */
  lemma UpdateInvitationIff(p: Payload, lib: Library)
    ensures Accepts(UpdateInvitationSchema(), p, lib) <==> UpdateInvitationRules(p)
  {
    var s := UpdateInvitationSchema();
    if Accepts(s, p, lib) {
      assert FieldOk("status", s.fields["status"], p, lib);
    }
  }

  function FilterInvitationSchema(): Schema {
    Schema(map[
      "email" := Rule(Text(None, None, Email), Optional),
      "status" := Rule(OneOf(InvitationStatuses), Optional)
    ], false, ["email", "status"])
  }

  /** An invitation query names an email address, a status, or both. */
  predicate FilterInvitationRules(p: Payload, lib: Library) {
    && p.Keys <= {"email", "status"}
    && p != map[]
    && ("email" in p ==> IsEmailText(p["email"], lib))
    && ("status" in p ==> IsInvitationStatusName(p["status"]))
  }

  /** The invitation-filter schema accepts exactly the queries `FilterInvitationRules`
      describes. */
  lemma FilterInvitationIff(p: Payload, lib: Library)
    ensures Accepts(FilterInvitationSchema(), p, lib) <==> FilterInvitationRules(p, lib)
  {
    var s := FilterInvitationSchema();
    if Accepts(s, p, lib) {
      assert FieldOk("email", s.fields["email"], p, lib);
      assert FieldOk("status", s.fields["status"], p, lib);
    }
    if FilterInvitationRules(p, lib) {
      if "email" in p { assert s.anyOf[0] in p; } else { assert s.anyOf[1] in p; }
    }
  }
}

=== FILE: joi.dfy ===
/** The part of the Joi validation library the request validators use, with its
    default options (abort early, convert, no unknown keys). A schema is data: a map
    from body key to the field's rule, plus the object-level rules `.min(1)` and
    `.or(...)`; `Accepts` says whether a JSON body passes it. */
module Joi {
  import opened Wrappers
  import opened Regex

  /** A JSON value as it arrives in a request body. */
  datatype Value =
    | Null
    | Str(s: string)
    | Num(n: real)
    | Bool(b: bool)
    | Arr(items: seq<Value>)
    | Obj(entries: map<string, Value>)

  type Payload = map<string, Value>

  /** The library's own checks that this model does not reproduce, as parameters:
      `string().email()`, `string().uri()`, `number()` given a numeric string, and
      `date()` / `date().iso()` (the flag) coercing a value to epoch milliseconds. */
  datatype Library = Library(
    isEmail: string -> bool,
    isUri: string -> bool,
    numeral: string -> Option<real>,
    date: (Value, bool) -> Option<int>)

  datatype Format = Plain | Pattern(re: Regex) | Email | Uri

  datatype Kind =
    | Text(min: Option<nat>, max: Option<nat>, format: Format)  // string().min().max()...
    | OneOf(allowed: seq<string>)                          // string().valid(...)
    | Number(least: real, integer: bool, cents: bool)      // number().min(), .integer(), .precision(2)
    | Boolean                                              // boolean()
    | Date(iso: bool, notBefore: Option<string>)           // date(), .iso(), .min(Joi.ref(key))
    | Strings                                              // array().items(string())
    | Links(names: set<string>)                            // object({name: string().uri(), ...})

  /** `.required()`, `.optional()`, or `.when(ref, { is: equals, then: required, otherwise: optional })`. */
  datatype Presence = Required | Optional | RequiredWhen(ref: string, equals: bool)

  datatype Rule = Rule(kind: Kind, presence: Presence)

  /** `nonEmpty` is `.min(1)` on the object; `anyOf` lists the `.or(...)` peers, at
      least one of which must be present when the list is not empty. */
  datatype Schema = Schema(fields: map<string, Rule>, nonEmpty: bool, anyOf: seq<string>)

  /** `Number.MAX_SAFE_INTEGER`: `number()` rejects values beyond it in magnitude. */
  const MaxSafeInteger: real := 9007199254740991.0

  predicate IsInteger(x: real) {
    x == x.Floor as real
  }

  /** `Math.round(x * 100) / 100`, in exact arithmetic; what `.precision(2)` turns a
      number into before the other rules see it. */
  function RoundCents(x: real): real {
    ((x * 100.0 + 0.5).Floor as real) / 100.0
  }

  function AsciiLower(c: char): char {
    if 'A' <= c <= 'Z' then (c as int + 32) as char else c
  }

  function LowerAscii(s: string): (t: string)
    ensures |t| == |s|
  {
    if s == [] then [] else [AsciiLower(s[0])] + LowerAscii(s[1..])
  }

  /** `boolean()` takes `true`/`false`, and in convert mode the strings "true" and
      "false" in any letter case. (No non-ASCII letter lower-cases to one of the
      letters of those two words, so ASCII case folding decides the same.) */
  function AsBool(v: Value): Option<bool> {
    match v
    case Bool(b) => Some(b)
    case Str(s) =>
      var t := LowerAscii(s);
      if t == "true" then Some(true) else if t == "false" then Some(false) else None
    case _ => None
  }

  /** `number()`: a JSON number, or in convert mode a numeric string. */
  function AsNumber(v: Value, lib: Library): Option<real> {
    match v
    case Num(n) => Some(n)
    case Str(s) => lib.numeral(s)
    case _ => None
  }

  predicate FormatOk(f: Format, s: string, lib: Library) {
    match f
    case Plain => true
    case Pattern(re) => Matches(re, s)
    case Email => lib.isEmail(s)
    case Uri => lib.isUri(s)
  }

  /** `string()` refuses the empty string, unless the rule carries `min(0)`; `min` is
      `None` when there is no `min` rule. */
  predicate TextOk(min: Option<nat>, max: Option<nat>, f: Format, v: Value, lib: Library) {
    && v.Str?
    && (|v.s| > 0 || min == Some(0))
    && (min.Some? ==> min.value <= |v.s|)
    && (max.Some? ==> |v.s| <= max.value)
    && FormatOk(f, v.s, lib)
  }

  predicate NumberOk(min: real, integer: bool, cents: bool, v: Value, lib: Library) {
    && AsNumber(v, lib).Some?
    && var x := AsNumber(v, lib).value;
       var r := if cents then RoundCents(x) else x;
       && -MaxSafeInteger <= x <= MaxSafeInteger
       && (integer ==> IsInteger(r))
       && r >= min
  }

  /** `date().min(Joi.ref(key))`: the reference must itself be a date (an absent
      sibling is not) and this date must not be earlier. */
  predicate DateOk(iso: bool, notBefore: Option<string>, v: Value, p: Payload, lib: Library) {
    && lib.date(v, iso).Some?
    && (notBefore.Some? ==>
          && notBefore.value in p
          && lib.date(p[notBefore.value], iso).Some?
          && lib.date(v, iso).value >= lib.date(p[notBefore.value], iso).value)
  }

  /** `array().items(string())`: an array of non-empty strings. */
  predicate StringsOk(v: Value) {
    v.Arr? && forall i :: 0 <= i < |v.items| ==> v.items[i].Str? && |v.items[i].s| > 0
  }

  /** `object({name: string().uri(), ...})`: only the named keys, each a URI. */
  predicate LinksOk(names: set<string>, v: Value, lib: Library) {
    && v.Obj?
    && forall n :: n in v.entries ==>
         n in names && v.entries[n].Str? && |v.entries[n].s| > 0 && lib.isUri(v.entries[n].s)
  }

  predicate KindOk(k: Kind, v: Value, p: Payload, lib: Library) {
    match k
    case Text(min, max, f) => TextOk(min, max, f, v, lib)
    case OneOf(allowed) => v.Str? && v.s in allowed
    case Number(least, integer, cents) => NumberOk(least, integer, cents, v, lib)
    case Boolean => AsBool(v).Some?
    case Date(iso, notBefore) => DateOk(iso, notBefore, v, p, lib)
    case Strings => StringsOk(v)
    case Links(names) => LinksOk(names, v, lib)
  }

  /** Whether the field must be present; a `when` condition sees the converted value
      of the field it refers to, which the library validates first. */
  predicate IsRequired(pr: Presence, p: Payload) {
    match pr
    case Required => true
    case Optional => false
    case RequiredWhen(ref, b) => ref in p && AsBool(p[ref]) == Some(b)
  }

  predicate FieldOk(key: string, r: Rule, p: Payload, lib: Library) {
    if key in p then KindOk(r.kind, p[key], p, lib) else !IsRequired(r.presence, p)
  }

  /** Whether the body passes the schema. */
  predicate Accepts(schema: Schema, p: Payload, lib: Library) {
    && p.Keys <= schema.fields.Keys
    && (forall k :: k in schema.fields ==> FieldOk(k, schema.fields[k], p, lib))
    && (schema.nonEmpty ==> p != map[])
    && (|schema.anyOf| > 0 ==> exists i :: 0 <= i < |schema.anyOf| && schema.anyOf[i] in p)
  }
}

=== FILE: lists.dfy ===
/** Sequences as the database returns them: the documents a query selects, in store
    order, and the same documents sorted on a key. */
module Lists {
  import opened Wrappers

  /** The position of the first element of `s` that `found` picks: `findOne` and
      `findById` answer with the first matching document in store order. */
  function FindFirst<T>(s: seq<T>, found: T -> bool): (r: Option<nat>)
    ensures r.Some? ==> r.value < |s| && found(s[r.value]) && forall j :: 0 <= j < r.value ==> !found(s[j])
    ensures r.None? ==> forall j :: 0 <= j < |s| ==> !found(s[j])
  {
    if s == [] then None
    else if found(s[0]) then Some(0)
    else match FindFirst(s[1..], found)
      case None => None
      case Some(k) => Some(k + 1)
  }

  /** `a` is `s` with some elements left out and the rest in their order. */
  predicate IsSubseq<T(==,!new)>(a: seq<T>, s: seq<T>)
    decreases |s|
  {
    if s == [] then a == []
    else IsSubseq(a, s[1..]) || (a != [] && a[0] == s[0] && IsSubseq(a[1..], s[1..]))
  }

  /** The elements of `s` that `keep` selects, in the order of `s`. */
  function Filter<T(==,!new)>(s: seq<T>, keep: T -> bool): (r: seq<T>)
    ensures forall x :: x in r <==> x in s && keep(x)
    ensures IsSubseq(r, s)
    ensures |r| <= |s|
    ensures forall x :: multiset(r)[x] == if keep(x) then multiset(s)[x] else 0
  {
    if s == [] then []
    else
      assert s == [s[0]] + s[1..];
      if keep(s[0]) then [s[0]] + Filter(s[1..], keep)
      else Filter(s[1..], keep)
  }

  /** Selecting with a stronger test keeps fewer elements. */
  lemma {:induction false} FilterMonotone<T(!new)>(s: seq<T>, keep: T -> bool, keep': T -> bool)
    requires forall x :: x in s && keep'(x) ==> keep(x)
    ensures IsSubseq(Filter(s, keep'), Filter(s, keep))
  {
    if s != [] {
      FilterMonotone(s[1..], keep, keep');
    }
  }

  /** Selecting with tests that agree on every element gives the same sequence. */
  lemma {:induction false} FilterCongruent<T(!new)>(s: seq<T>, keep: T -> bool, keep': T -> bool)
    requires forall x :: x in s ==> keep(x) == keep'(x)
    ensures Filter(s, keep) == Filter(s, keep')
  {
    if s != [] {
      FilterCongruent(s[1..], keep, keep');
    }
  }

  /** A test every element passes selects the whole sequence. */
  lemma {:induction false} FilterAll<T(!new)>(s: seq<T>, keep: T -> bool)
    requires forall x :: x in s ==> keep(x)
    ensures Filter(s, keep) == s
  {
    if s != [] {
      FilterAll(s[1..], keep);
    }
  }

  predicate SortedBy<T>(s: seq<T>, key: T -> int) {
    forall i, j :: 0 <= i < j < |s| ==> key(s[i]) <= key(s[j])
  }

  function InsertBy<T(!new)>(x: T, s: seq<T>, key: T -> int): (r: seq<T>)
    requires SortedBy(s, key)
    ensures SortedBy(r, key)
    ensures multiset(r) == multiset(s) + multiset{x}
    ensures |r| == |s| + 1 && (r[0] == x || (s != [] && r[0] == s[0]))
  {
    if s == [] || key(x) <= key(s[0]) then [x] + s
    else
      var rest := InsertBy(x, s[1..], key);
      assert s == [s[0]] + s[1..];
      assert key(s[0]) <= key(rest[0]);
      [s[0]] + rest
  }

  /** `sort({ key: 1 })`: the same documents, in ascending order of the key. */
  function SortBy<T(!new)>(s: seq<T>, key: T -> int): (r: seq<T>)
    ensures SortedBy(r, key)
    ensures multiset(r) == multiset(s)
  {
    if s == [] then []
    else
      assert s == [s[0]] + s[1..];
      InsertBy(s[0], SortBy(s[1..], key), key)
  }
}

=== FILE: models.dfy ===
/** The stored records (the files under src/models) and what the document mapper does to a
    value on the way in: ObjectId casting, the `trim` setter, `required`, enum
    checks and defaults. */
module Models {
  import opened Wrappers
  import opened Formats
  import opened Lists

  // ---------------------------------------------------------------------------
  // Text as the document mapper stores it

  /** The characters `String.prototype.trim` removes: white space and line
      terminators as ECMAScript defines them. */
  predicate IsSpace(c: char) {
    || c == '\t' || c == '\n' || c == '\U{000B}' || c == '\U{000C}' || c == '\r' || c == ' '
    || c == '\U{00A0}' || c == '\U{1680}' || '\U{2000}' <= c <= '\U{200A}'
    || c == '\U{2028}' || c == '\U{2029}' || c == '\U{202F}' || c == '\U{205F}'
    || c == '\U{3000}' || c == '\U{FEFF}'
  }

  function TrimStart(s: string): (t: string)
    ensures |t| <= |s| && t == s[|s| - |t|..]
    ensures |t| > 0 ==> !IsSpace(t[0])
    ensures forall i :: 0 <= i < |s| - |t| ==> IsSpace(s[i])
  {
    if |s| > 0 && IsSpace(s[0]) then TrimStart(s[1..]) else s
  }

  function TrimEnd(s: string): (t: string)
    ensures |t| <= |s| && t == s[..|t|]
    ensures |t| > 0 ==> !IsSpace(t[|t| - 1])
    ensures forall i :: |t| <= i < |s| ==> IsSpace(s[i])
  {
    if |s| > 0 && IsSpace(s[|s| - 1]) then TrimEnd(s[..|s| - 1]) else s
  }

  /** The `trim: true` setter. */
  function Trim(s: string): string {
    TrimEnd(TrimStart(s))
  }

  /** What trimming keeps is the stretch of `s` between its first and last
      non-space characters; a string of spaces trims to nothing. */
  lemma TrimBounds(s: string)
    ensures |Trim(s)| > 0 ==> !IsSpace(Trim(s)[0]) && !IsSpace(Trim(s)[|Trim(s)| - 1])
    ensures Trim(s) == [] <==> forall i :: 0 <= i < |s| ==> IsSpace(s[i])
  {
    var a := TrimStart(s);
    var t := TrimEnd(a);
    if |t| > 0 {
      assert t[0] == a[0] == s[|s| - |a|];
    }
  }

  /** Trimming twice trims nothing more. */
  lemma TrimIdempotent(s: string)
    ensures Trim(Trim(s)) == Trim(s)
  {
    TrimBounds(s);
    var t := Trim(s);
    if |t| > 0 {
      assert TrimStart(t) == t;
      assert TrimEnd(t) == t;
    }
  }

  /** A `required` string path with the `trim` setter: present, and not empty once
      trimmed; the stored value is the trimmed one. */
  function RequiredText(v: Option<string>): (r: Option<string>)
    ensures r.Some? <==> v.Some? && exists i :: 0 <= i < |v.value| && !IsSpace(v.value[i])
    ensures r.Some? <==> v.Some? && Trim(v.value) != []
    ensures r.Some? ==> r.value == Trim(v.value)
  {
    if v.None? then None
    else
      TrimBounds(v.value);
      if Trim(v.value) == [] then None else Some(Trim(v.value))
  }

  // ---------------------------------------------------------------------------
  // Object ids

  /** An ObjectId's text as the driver prints it: 24 lower-case hexadecimal digits. */
  type Id = string

  predicate IsCanonicalId(s: string) {
    |s| == 24 && forall i :: 0 <= i < |s| ==> IsDigit(s[i]) || 'a' <= s[i] <= 'f'
  }

  function LowerHex(c: char): char {
    if 'A' <= c <= 'F' then (c as int + 32) as char else c
  }

  /** Casting a request string to an ObjectId path: 24 hexadecimal digits in either
      case; the id then prints in lower case. */
  function CastId(s: string): (r: Option<Id>)
    ensures r.Some? <==> IsObjectId(s)
    ensures r.Some? ==> IsCanonicalId(r.value) && |r.value| == |s|
    ensures r.Some? ==> forall i :: 0 <= i < |s| ==> r.value[i] == LowerHex(s[i])
  {
    if IsObjectId(s) then Some(seq(|s|, i requires 0 <= i < |s| => LowerHex(s[i]))) else None
  }

  /** An id as the driver prints it casts back to itself. */
  lemma CastIdCanonical(s: string)
    requires IsCanonicalId(s)
    ensures CastId(s) == Some(s)
  {
    assert IsObjectId(s);
    var r := CastId(s).value;
    assert forall i :: 0 <= i < |s| ==> r[i] == LowerHex(s[i]) == s[i];
    assert r == s;
  }

  /** Two ObjectId texts name the same id exactly when they agree up to the case of
      their hexadecimal letters. */
  lemma CastIdSameIff(s: string, t: string)
    requires IsObjectId(s) && IsObjectId(t)
    ensures CastId(s) == CastId(t) <==> forall i :: 0 <= i < |s| ==> LowerHex(s[i]) == LowerHex(t[i])
  {
    var a := CastId(s).value;
    var b := CastId(t).value;
    if forall i :: 0 <= i < |s| ==> LowerHex(s[i]) == LowerHex(t[i]) {
      assert forall i :: 0 <= i < |a| ==> a[i] == b[i];
      assert a == b;
    }
  }

  // ---------------------------------------------------------------------------
  // Users (src/models/userModel.ts)

  datatype Role = Admin | Employee | Client

  function RoleName(r: Role): string {
    match r
    case Admin => "admin"
    case Employee => "employé"
    case Client => "client"
  }

  /** The `role` enum: the three names and nothing else. */
  function ParseRole(s: string): Option<Role> {
    if s == "admin" then Some(Admin)
    else if s == "employé" then Some(Employee)
    else if s == "client" then Some(Client)
    else None
  }

  lemma RoleNameRoundTrip(s: string, r: Role)
    ensures ParseRole(s) == Some(r) <==> RoleName(r) == s
  {
  }

  /** Casting the `role` array: every element must be one of the enum's names, or
      the document does not validate. */
  function CastRoles(names: seq<string>): (r: Option<seq<Role>>)
    ensures r.Some? <==> forall i :: 0 <= i < |names| ==> ParseRole(names[i]).Some?
    ensures r.Some? ==> |r.value| == |names| &&
                        forall i :: 0 <= i < |names| ==> RoleName(r.value[i]) == names[i]
  {
    if names == [] then Some([])
    else
      match (ParseRole(names[0]), CastRoles(names[1..]))
      case (Some(x), Some(rest)) =>
        RoleNameRoundTrip(names[0], x);
        assert forall i :: 1 <= i < |names| ==> names[i] == names[1..][i - 1];
        Some([x] + rest)
      case (_, _) =>
        assert forall i :: 1 <= i < |names| ==> names[i] == names[1..][i - 1];
        None
  }

  /** The `role` path's default. */
  const DefaultRoles: seq<Role> := [Client]

  datatype User = User(
    id: Id,
    firstName: string,
    lastName: string,
    email: string,
    password: string,
    roles: seq<Role>,
    permissions: seq<string>,
    refreshToken: Option<string>)

  /** The collection's guarantees: ids are distinct, and the unique index on `email`
      keeps emails distinct. */
  predicate UsersWellFormed(users: seq<User>) {
    forall i, j :: 0 <= i < j < |users| ==>
      users[i].id != users[j].id && users[i].email != users[j].email
  }

  /** Saving a user whose id and email no stored user has keeps the collection
      well formed. */
  lemma AppendUserKeepsWellFormed(users: seq<User>, u: User)
    requires UsersWellFormed(users)
    requires forall j :: 0 <= j < |users| ==> users[j].id != u.id && users[j].email != u.email
    ensures UsersWellFormed(users + [u])
  {
  }

  /** `findOne({ email })`: the first user with that (trimmed) email. */
  function FindByEmail(users: seq<User>, email: string): (r: Option<nat>)
    ensures r.Some? ==> r.value < |users| && users[r.value].email == email &&
                        forall j :: 0 <= j < r.value ==> users[j].email != email
    ensures r.None? ==> forall j :: 0 <= j < |users| ==> users[j].email != email
  {
    FindFirst(users, (u: User) => u.email == email)
  }

  /** `findById(id)`. */
  function FindUser(users: seq<User>, id: Id): (r: Option<nat>)
    ensures r.Some? ==> r.value < |users| && users[r.value].id == id &&
                        forall j :: 0 <= j < r.value ==> users[j].id != id
    ensures r.None? ==> forall j :: 0 <= j < |users| ==> users[j].id != id
  {
    FindFirst(users, (u: User) => u.id == id)
  }

  /** `findOne({ refreshToken })`. */
  function FindByToken(users: seq<User>, token: string): (r: Option<nat>)
    ensures r.Some? ==> r.value < |users| && users[r.value].refreshToken == Some(token) &&
                        forall j :: 0 <= j < r.value ==> users[j].refreshToken != Some(token)
    ensures r.None? ==> forall j :: 0 <= j < |users| ==> users[j].refreshToken != Some(token)
  {
    FindFirst(users, (u: User) => u.refreshToken == Some(token))
  }

  // ---------------------------------------------------------------------------
  // Bookings (src/models/bookingModel.ts)

  datatype BookingStatus = Pending | Confirmed | Cancelled

  function StatusName(s: BookingStatus): string {
    match s
    case Pending => "pending"
    case Confirmed => "confirmed"
    case Cancelled => "cancelled"
  }

  /** The `status` enum. */
  function ParseStatus(s: string): Option<BookingStatus> {
    if s == "pending" then Some(Pending)
    else if s == "confirmed" then Some(Confirmed)
    else if s == "cancelled" then Some(Cancelled)
    else None
  }

  lemma StatusNameRoundTrip(s: string, st: BookingStatus)
    ensures ParseStatus(s) == Some(st) <==> StatusName(st) == s
  {
  }

  /** The `status` path: absent means the default `pending`; a given name must be in
      the enum. */
  function CastStatus(s: Option<string>): (r: Option<BookingStatus>)
    ensures s.None? ==> r == Some(Pending)
    ensures s.Some? ==> (r.Some? <==> s.value in {"pending", "confirmed", "cancelled"})
    ensures s.Some? && r.Some? ==> StatusName(r.value) == s.value
  {
    if s.None? then Some(Pending) else ParseStatus(s.value)
  }

  /** `date` is epoch milliseconds; `time` is the request's text, never parsed. */
  datatype Booking = Booking(
    id: Id,
    serviceId: Id,
    userId: Id,
    clientId: Id,
    date: int,
    time: string,
    status: BookingStatus,
    message: Option<string>,
    parent: Option<Id>)

  predicate BookingsWellFormed(bookings: seq<Booking>) {
    forall i, j :: 0 <= i < j < |bookings| ==> bookings[i].id != bookings[j].id
  }

  /** Saving a booking under an id no stored booking has keeps ids distinct. */
  lemma AppendBookingKeepsWellFormed(bookings: seq<Booking>, b: Booking)
    requires BookingsWellFormed(bookings)
    requires forall j :: 0 <= j < |bookings| ==> bookings[j].id != b.id
    ensures BookingsWellFormed(bookings + [b])
  {
  }

  function FindBooking(bookings: seq<Booking>, id: Id): (r: Option<nat>)
    ensures r.Some? ==> r.value < |bookings| && bookings[r.value].id == id &&
                        forall j :: 0 <= j < r.value ==> bookings[j].id != id
    ensures r.None? ==> forall j :: 0 <= j < |bookings| ==> bookings[j].id != id
  {
    FindFirst(bookings, (b: Booking) => b.id == id)
  }

  // ---------------------------------------------------------------------------
  // Invitations (src/models/invitationModel.ts)

  datatype InvitationRole = InvitedEmployee | InvitedAdmin

  function InvitationRoleName(r: InvitationRole): string {
    match r
    case InvitedEmployee => "employé"
    case InvitedAdmin => "admin"
  }

  function ParseInvitationRole(s: string): Option<InvitationRole> {
    if s == "employé" then Some(InvitedEmployee)
    else if s == "admin" then Some(InvitedAdmin)
    else None
  }

  lemma InvitationRoleRoundTrip(s: string, r: InvitationRole)
    ensures ParseInvitationRole(s) == Some(r) <==> InvitationRoleName(r) == s
  {
  }

  datatype InvitationStatus = Invited | Accepted | Declined

  function InvitationStatusName(s: InvitationStatus): string {
    match s
    case Invited => "pending"
    case Accepted => "accepted"
    case Declined => "declined"
  }

  function ParseInvitationStatus(s: string): Option<InvitationStatus> {
    if s == "pending" then Some(Invited)
    else if s == "accepted" then Some(Accepted)
    else if s == "declined" then Some(Declined)
    else None
  }

  lemma InvitationStatusRoundTrip(s: string, st: InvitationStatus)
    ensures ParseInvitationStatus(s) == Some(st) <==> InvitationStatusName(st) == s
  {
  }

  datatype Invitation = Invitation(
    id: Id,
    email: string,
    role: InvitationRole,
    services: seq<Id>,
    status: InvitationStatus,
    token: string)

  /** A new invitation document: email (trimmed) and token are required, the role must
      be in the enum, and the status defaults to `pending`. */
  function NewInvitation(id: Id, email: Option<string>, role: Option<string>,
                         status: Option<string>, token: Option<string>): (r: Option<Invitation>)
    ensures r.Some? <==>
              && RequiredText(email).Some?
              && role.Some? && role.value in {"employé", "admin"}
              && (status.None? || status.value in {"pending", "accepted", "declined"})
              && token.Some? && token.value != []
    ensures r.Some? ==> r.value.email == Trim(email.value) && InvitationRoleName(r.value.role) == role.value
    ensures r.Some? && status.None? ==> r.value.status == Invited
  {
    var st := if status.None? then Some(Invited) else ParseInvitationStatus(status.value);
    if RequiredText(email).Some? && role.Some? && ParseInvitationRole(role.value).Some? &&
       st.Some? && token.Some? && token.value != []
    then Some(Invitation(id, RequiredText(email).value, ParseInvitationRole(role.value).value, [], st.value, token.value))
    else None
  }

  /** The unique index on `email`. */
  predicate InvitationsWellFormed(invitations: seq<Invitation>) {
    forall i, j :: 0 <= i < j < |invitations| ==>
      invitations[i].id != invitations[j].id && invitations[i].email != invitations[j].email
  }
}

=== FILE: parameter_validator.dfy ===
/** The request-body schema for the business's parameters
    (src/validators/parameterValidator.ts): the library schema, a plain description of
    the bodies it accepts, and a lemma proving the two agree. */
module ParameterValidator {
  import opened Wrappers
  import opened Joi
  import opened Formats
  import opened Fields
  import opened UserValidator

  const SocialNetworks: set<string> := {"facebook", "twitter", "linkedin", "instagram"}

  function ParameterSchema(): Schema {
    Schema(map[
      "name" := Rule(Text(Some(3), Some(100), Plain), Required),
      "description" := Rule(Text(None, Some(500), Plain), Optional),
      "logoUrl" := Rule(Text(None, None, Uri), Optional),
      "address" := Rule(Text(None, Some(255), Plain), Optional),
      "phone" := ContactPhoneRule(Optional),
      "email" := Rule(Text(None, None, Email), Optional),
      "websiteUrl" := Rule(Text(None, None, Uri), Optional),
      "socialMediaUrls" := Rule(Links(SocialNetworks), Optional),
      "enableEmailNotifications" := Rule(Boolean, Optional),
      "enableSmsNotifications" := Rule(Boolean, Optional),
      "defaultBookingReminderTime" := Rule(Number(0.0, true, false), Optional)
    ], false, [])
  }

  predicate IsUriText(v: Value, lib: Library) {
    v.Str? && v.s != [] && lib.isUri(v.s)
  }

  /** The social links: an object whose keys are among the four networks, each a URI. */
  predicate IsSocialLinks(v: Value, lib: Library) {
    v.Obj? && forall n :: n in v.entries ==> n in SocialNetworks && IsUriText(v.entries[n], lib)
  }

  /** The business's parameters: a name of 3 to 100 characters, and optionally the
      contact details below. */
  predicate ParameterRules(p: Payload, lib: Library) {
    && p.Keys <= {"name", "description", "logoUrl", "address", "phone", "email", "websiteUrl",
                  "socialMediaUrls", "enableEmailNotifications", "enableSmsNotifications",
                  "defaultBookingReminderTime"}
    && "name" in p && p["name"].Str? && 3 <= |p["name"].s| <= 100
    && ParameterContactRules(p, lib)
    && ParameterSettingsRules(p, lib)
  }

  /** Description up to 500 characters, address up to 255, a contact phone of 7 to 15
      digits after an optional `+`, an email address and two URIs. */
  predicate ParameterContactRules(p: Payload, lib: Library) {
    && ("description" in p ==> p["description"].Str? && 1 <= |p["description"].s| <= 500)
    && ("logoUrl" in p ==> IsUriText(p["logoUrl"], lib))
    && ("address" in p ==> p["address"].Str? && 1 <= |p["address"].s| <= 255)
    && ("phone" in p ==> p["phone"].Str? && IsContactPhone(p["phone"].s))
    && ("email" in p ==> IsEmailText(p["email"], lib))
    && ("websiteUrl" in p ==> IsUriText(p["websiteUrl"], lib))
  }

  /** The social links, two notification switches and a whole, non-negative reminder
      delay. */
  predicate ParameterSettingsRules(p: Payload, lib: Library) {
    && ("socialMediaUrls" in p ==> IsSocialLinks(p["socialMediaUrls"], lib))
    && ("enableEmailNotifications" in p ==> AsBool(p["enableEmailNotifications"]).Some?)
    && ("enableSmsNotifications" in p ==> AsBool(p["enableSmsNotifications"]).Some?)
    && ("defaultBookingReminderTime" in p ==>
          && AsNumber(p["defaultBookingReminderTime"], lib).Some?
          && IsInteger(AsNumber(p["defaultBookingReminderTime"], lib).value)
          && 0.0 <= AsNumber(p["defaultBookingReminderTime"], lib).value <= MaxSafeInteger)
  }

  lemma ParameterSoundContact(p: Payload, lib: Library)
    requires Accepts(ParameterSchema(), p, lib)
    ensures "name" in p && p["name"].Str? && 3 <= |p["name"].s| <= 100
    ensures ParameterContactRules(p, lib)
  {
    ParameterSoundText(p, lib);
    ParameterSoundReach(p, lib);
  }

  /** The name, the description and the address. */
  lemma ParameterSoundText(p: Payload, lib: Library)
    requires Accepts(ParameterSchema(), p, lib)
    ensures "name" in p && p["name"].Str? && 3 <= |p["name"].s| <= 100
    ensures "description" in p ==> p["description"].Str? && 1 <= |p["description"].s| <= 500
    ensures "address" in p ==> p["address"].Str? && 1 <= |p["address"].s| <= 255
  {
    var s := ParameterSchema();
    assert FieldOk("name", s.fields["name"], p, lib);
    assert FieldOk("description", s.fields["description"], p, lib);
    assert FieldOk("address", s.fields["address"], p, lib);
  }

  /** The phone, the email address and the two links. */
  lemma ParameterSoundReach(p: Payload, lib: Library)
    requires Accepts(ParameterSchema(), p, lib)
    ensures "logoUrl" in p ==> IsUriText(p["logoUrl"], lib)
    ensures "phone" in p ==> p["phone"].Str? && IsContactPhone(p["phone"].s)
    ensures "email" in p ==> IsEmailText(p["email"], lib)
    ensures "websiteUrl" in p ==> IsUriText(p["websiteUrl"], lib)
  {
    var s := ParameterSchema();
    assert FieldOk("phone", s.fields["phone"], p, lib);
    ContactPhoneField("phone", Optional, p, lib);
    assert FieldOk("logoUrl", s.fields["logoUrl"], p, lib);
    assert FieldOk("email", s.fields["email"], p, lib);
    assert FieldOk("websiteUrl", s.fields["websiteUrl"], p, lib);
  }

  lemma ParameterSoundSettings(p: Payload, lib: Library)
    requires Accepts(ParameterSchema(), p, lib)
    ensures ParameterSettingsRules(p, lib)
  {
    var s := ParameterSchema();
    assert FieldOk("socialMediaUrls", s.fields["socialMediaUrls"], p, lib);
    assert FieldOk("enableEmailNotifications", s.fields["enableEmailNotifications"], p, lib);
    assert FieldOk("enableSmsNotifications", s.fields["enableSmsNotifications"], p, lib);
    assert FieldOk("defaultBookingReminderTime", s.fields["defaultBookingReminderTime"], p, lib);
  }

  lemma ParameterComplete(p: Payload, lib: Library)
    requires ParameterRules(p, lib)
    ensures Accepts(ParameterSchema(), p, lib)
  {
    var s := ParameterSchema();
    forall k | k in s.fields ensures FieldOk(k, s.fields[k], p, lib) {
      if k == "phone" { ContactPhoneField(k, Optional, p, lib); }
    }
  }

  /** The parameter schema accepts exactly the bodies `ParameterRules` describes. */
  lemma ParameterIff(p: Payload, lib: Library)
    ensures Accepts(ParameterSchema(), p, lib) <==> ParameterRules(p, lib)
  {
    if Accepts(ParameterSchema(), p, lib) {
      ParameterSoundContact(p, lib);
      ParameterSoundSettings(p, lib);
    }
    if ParameterRules(p, lib) { ParameterComplete(p, lib); }
  }
}

=== FILE: queries.dfy ===
/** The values a query filter holds before and after the driver casts it. */
module Queries {
  import opened Wrappers
  import opened Models
  import opened Http
  import Formats

  /** A date in a filter: `new Date(text)`, which may be the invalid date. */
  datatype Instant = At(ms: int) | InvalidDate

  function InstantOf(text: string, castDate: DateCast): Instant {
    if castDate(text).Some? then At(castDate(text).value) else InvalidDate
  }

  /** The `$gte` and `$lte` bounds of a date condition. */
  datatype DateBounds = DateBounds(gte: Option<Instant>, lte: Option<Instant>)

  /** Casting a bound: the invalid date is a cast error. */
  function CastBound(b: Option<Instant>): (r: Option<Option<int>>)
    ensures r.None? <==> b == Some(InvalidDate)
    ensures r.Some? ==> (r.value.Some? <==> b.Some?)
    ensures b.Some? && b.value.At? ==> r == Some(Some(b.value.ms))
  {
    match b
    case None => Some(None)
    case Some(At(ms)) => Some(Some(ms))
    case Some(InvalidDate) => None
  }

  /** Casting an optional id condition: text that is not an ObjectId is a cast error. */
  function CastOptionalId(s: Option<string>): (r: Option<Option<Id>>)
    ensures r.None? <==> s.Some? && !Formats.IsObjectId(s.value)
    ensures r.Some? ==> r.value == (if s.Some? then CastId(s.value) else None)
  {
    match s
    case None => Some(None)
    case Some(t) => if CastId(t).Some? then Some(CastId(t)) else None
  }
}

=== FILE: regex.dfy ===
/** Anchored regular expressions, as the validators write them between `^` and `$`.
    `Matches(r, s)` is the language of `r`: whether the whole of `s` is matched, which
    is what `/^r$/.test(s)` and `s.match(/^r$/) != null` decide. */
module Regex {

  /** An inclusive character range `lo-hi` inside a bracket class. */
  datatype CharRange = CharRange(lo: char, hi: char)

  datatype Regex =
    | Empty                                  // the empty string only
    | Class(ranges: seq<CharRange>)          // `[...]`, `\d` or a single literal character
    | Seq(first: Regex, rest: Regex)         // concatenation
    | Alt(left: Regex, right: Regex)         // `left|right`
    | Repeat(body: Regex, lo: nat, hi: nat)  // `body{lo,hi}`; `?` is `{0,1}`

  /** A literal character. */
  function Lit(c: char): Regex {
    Class([CharRange(c, c)])
  }

  /** `\d`: an ASCII digit (without the `u` flag this is exactly `[0-9]`). */
  function Digit(): Regex {
    Class([CharRange('0', '9')])
  }

  /** `r?` */
  function Opt(r: Regex): Regex {
    Repeat(r, 0, 1)
  }

  predicate InClass(c: char, ranges: seq<CharRange>) {
    exists i :: 0 <= i < |ranges| && ranges[i].lo <= c <= ranges[i].hi
  }

  function Size(r: Regex): nat {
    match r
    case Empty => 1
    case Class(_) => 1
    case Seq(a, b) => 1 + Size(a) + Size(b)
    case Alt(a, b) => 1 + Size(a) + Size(b)
    case Repeat(a, _, _) => 1 + Size(a)
  }

  /** Whether `r` matches all of `s`. A repetition consumes a non-empty piece per
      iteration; the iterations still owed when `s` is used up can only be met by a
      body that matches the empty string. */
  predicate Matches(r: Regex, s: string)
    decreases Size(r), |s|
  {
    match r
    case Empty => |s| == 0
    case Class(rs) => |s| == 1 && InClass(s[0], rs)
    case Seq(a, b) => exists k :: 0 <= k <= |s| && Matches(a, s[..k]) && Matches(b, s[k..])
    case Alt(a, b) => Matches(a, s) || Matches(b, s)
    case Repeat(a, lo, hi) =>
      if |s| == 0 then lo == 0 || Matches(a, [])
      else
        0 < hi &&
        exists k :: 1 <= k <= |s| && Matches(a, s[..k]) &&
                    Matches(Repeat(a, if lo == 0 then 0 else lo - 1, hi - 1), s[k..])
  }

  /** The length every match of `r` has, when there is one such length that the
      structure of `r` makes evident. */
  function Width(r: Regex): Fixed
  {
    match r
    case Empty => Known(0)
    case Class(_) => Known(1)
    case Seq(a, b) =>
      if Width(a).Known? && Width(b).Known? then Known(Width(a).n + Width(b).n) else Unknown
    case Alt(a, b) =>
      if Width(a).Known? && Width(a) == Width(b) then Width(a) else Unknown
    case Repeat(a, lo, hi) =>
      if Width(a).Known? && Width(a).n > 0 && lo == hi then Known(lo * Width(a).n) else Unknown
  }

  datatype Fixed = Unknown | Known(n: nat)

  /** A match of a repetition of a fixed-width body has a multiple of that width. */
  lemma {:induction false} RepeatWidth(a: Regex, n: nat, s: string)
    requires Width(a).Known? && Width(a).n > 0
    requires Matches(Repeat(a, n, n), s)
    ensures |s| == n * Width(a).n
    decreases 1 + Size(a), 0, |s|
  {
    var w := Width(a).n;
    if |s| == 0 {
      if n != 0 {
        WidthSound(a, []);
      }
    } else {
      var k :| 1 <= k <= |s| && Matches(a, s[..k]) && Matches(Repeat(a, if n == 0 then 0 else n - 1, n - 1), s[k..]);
      WidthSound(a, s[..k]);
      RepeatWidth(a, n - 1, s[k..]);
      assert |s| == k + |s[k..]|;
      assert |s| == w + (n - 1) * w;
    }
  }

  /** Every match of `r` has the length `Width(r)` announces. */
  lemma {:induction false} WidthSound(r: Regex, s: string)
    requires Width(r).Known? && Matches(r, s)
    ensures |s| == Width(r).n
    decreases Size(r), 1, 0
  {
    match r
    case Empty =>
    case Class(_) =>
    case Seq(a, b) =>
      var k :| 0 <= k <= |s| && Matches(a, s[..k]) && Matches(b, s[k..]);
      WidthSound(a, s[..k]);
      WidthSound(b, s[k..]);
    case Alt(a, b) =>
      if Matches(a, s) { WidthSound(a, s); } else { WidthSound(b, s); }
    case Repeat(a, lo, hi) =>
      RepeatWidth(a, lo, s);
  }

  /** A repetition of a one-character class matches exactly the strings of allowed
      length made of characters of that class. */
  lemma {:induction false} RepeatClass(rs: seq<CharRange>, lo: nat, hi: nat, s: string)
    ensures Matches(Repeat(Class(rs), lo, hi), s) <==>
            (lo <= |s| <= hi && forall i :: 0 <= i < |s| ==> InClass(s[i], rs))
    decreases |s|
  {
    var r := Repeat(Class(rs), lo, hi);
    if |s| > 0 && hi > 0 {
      var lo' := if lo == 0 then 0 else lo - 1;
      RepeatClass(rs, lo', hi - 1, s[1..]);
      if Matches(r, s) {
        var k :| 1 <= k <= |s| && Matches(Class(rs), s[..k]) && Matches(Repeat(Class(rs), lo', hi - 1), s[k..]);
        assert k == 1 && s[..k][0] == s[0];
        forall i | 0 <= i < |s| ensures InClass(s[i], rs) {
          if i > 0 { assert s[i] == s[1..][i - 1]; }
        }
      }
      if lo <= |s| <= hi && forall i :: 0 <= i < |s| ==> InClass(s[i], rs) {
        forall i | 0 <= i < |s[1..]| ensures InClass(s[1..][i], rs) {
          assert s[1..][i] == s[i + 1];
        }
        assert s[..1][0] == s[0];
        assert Matches(Class(rs), s[..1]);
      }
    }
  }

  /** A split point of a match of a concatenation. */
  lemma SeqWitness(a: Regex, b: Regex, s: string) returns (k: nat)
    requires Matches(Seq(a, b), s)
    ensures k <= |s| && Matches(a, s[..k]) && Matches(b, s[k..])
  {
    k :| 0 <= k <= |s| && Matches(a, s[..k]) && Matches(b, s[k..]);
  }

  /** Any split point whose two halves match gives a match of the concatenation. */
  lemma SeqIntro(a: Regex, b: Regex, s: string, k: nat)
    requires k <= |s| && Matches(a, s[..k]) && Matches(b, s[k..])
    ensures Matches(Seq(a, b), s)
  {
  }

  /** When the first part has a fixed width the split point of a concatenation is
      forced. */
  lemma SeqFixedLeft(a: Regex, b: Regex, s: string)
    requires Width(a).Known?
    ensures Matches(Seq(a, b), s) <==>
            (Width(a).n <= |s| && Matches(a, s[..Width(a).n]) && Matches(b, s[Width(a).n..]))
  {
    var n := Width(a).n;
    if Matches(Seq(a, b), s) {
      var k := SeqWitness(a, b, s);
      WidthSound(a, s[..k]);
    }
    if n <= |s| && Matches(a, s[..n]) && Matches(b, s[n..]) {
      SeqIntro(a, b, s, n);
    }
  }

  /** When the second part has a fixed width the split point of a match of a
      concatenation is forced. */
  lemma SeqSplitRight(a: Regex, b: Regex, s: string)
    requires Width(b).Known? && Matches(Seq(a, b), s)
    ensures Width(b).n <= |s| && Matches(a, s[..|s| - Width(b).n]) && Matches(b, s[|s| - Width(b).n..])
  {
    var k := SeqWitness(a, b, s);
    WidthSound(b, s[k..]);
  }

  /** A literal matches exactly the one-character string of that character. */
  lemma LitIff(c: char, s: string)
    ensures Matches(Lit(c), s) <==> |s| == 1 && s[0] == c
  {
    if |s| == 1 && s[0] == c {
      assert [CharRange(c, c)][0].lo <= s[0] <= [CharRange(c, c)][0].hi;
    }
  }

  /** An optional literal matches exactly the empty string and that character. */
  lemma OptLitIff(c: char, s: string)
    ensures Matches(Opt(Lit(c)), s) <==> s == [] || (|s| == 1 && s[0] == c)
  {
    RepeatClass([CharRange(c, c)], 0, 1, s);
    if |s| == 1 {
      LitIff(c, s);
    }
  }

  /** An optional leading character either takes the first character or nothing. */
  lemma SeqOptLeft(c: char, b: Regex, s: string)
    ensures Matches(Seq(Opt(Lit(c)), b), s) <==>
            ((0 < |s| && s[0] == c && Matches(b, s[1..])) || Matches(b, s))
  {
    var o := Opt(Lit(c));
    if Matches(Seq(o, b), s) {
      var k := SeqWitness(o, b, s);
      OptLitIff(c, s[..k]);
      assert k == 0 || k == 1;
    }
    if 0 < |s| && s[0] == c && Matches(b, s[1..]) {
      OptLitIff(c, s[..1]);
      SeqIntro(o, b, s, 1);
    }
    if Matches(b, s) {
      OptLitIff(c, s[..0]);
      assert s[0..] == s;
      SeqIntro(o, b, s, 0);
    }
  }
}

=== FILE: schema_gaps.dfy ===
/** Where a request schema and the stored record disagree: values the validators let
    through that the record's enums then refuse, and a field the validator allows
    that the handler throws away. */
module SchemaGaps {
  import opened Wrappers
  import opened Joi
  import opened Models
  import Auth
  import UserValidator
  import InvitationValidator

  /** How the registration handler sees the `role` of a JSON body. */
  predicate ReadsRole(p: Payload, role: Auth.RoleField) {
    match role
    case NoRole => "role" !in p
    case RoleText(n) => "role" in p && p["role"] == Str(n)
    case RoleList(ns) => "role" in p && p["role"] == Arr(seq(|ns|, i requires 0 <= i < |ns| => Str(ns[i])))
  }

  /** The registration schema allows a single role name, and the handler only keeps an
      array: every registration that passes the schema makes a client account,
      whatever role it names. */
  lemma ValidatedRegistrationIsClient(users: seq<User>, p: Payload, lib: Library, req: Auth.RegisterRequest,
                                      hashed: string, newId: Id)
    requires Accepts(UserValidator.RegisterSchema(), p, lib)
    requires ReadsRole(p, req.role)
    requires Auth.Register(users, req, hashed, newId).status == 201
    ensures Auth.Register(users, req, hashed, newId).users[|users|].roles == DefaultRoles
  {
    UserValidator.RegisterIff(p, lib);
    Auth.SingleRoleDiscarded(users, req, hashed, newId);
  }

  /** The invitation schema accepts the role `client`, which the invitation record's
      enum does not have: such an invitation cannot be stored. */
  lemma InvitationRoleGap(lib: Library, email: string, id: Id, token: Option<string>)
    requires email != [] && lib.isEmail(email)
    ensures Accepts(InvitationValidator.CreateInvitationSchema(),
                    map["email" := Str(email), "role" := Str("client")], lib)
    ensures NewInvitation(id, Some(email), Some("client"), None, token).None?
  {
    InvitationValidator.CreateInvitationIff(map["email" := Str(email), "role" := Str("client")], lib);
  }

  /** The invitation update schema accepts the status `revoked`, which is not one of the
      record's statuses. */
  lemma InvitationStatusGap(lib: Library)
    ensures Accepts(InvitationValidator.UpdateInvitationSchema(), map["status" := Str("revoked")], lib)
    ensures ParseInvitationStatus("revoked").None?
  {
    InvitationValidator.UpdateInvitationIff(map["status" := Str("revoked")], lib);
  }
}

=== FILE: service_controller.dfy ===
/** The service handlers (src/controllers/serviceController.ts): listing services
    through a filter built from the query, and switching a service on or off. */
module ServiceController {
  import opened Wrappers
  import opened Models
  import opened Http
  import opened Lists
  import opened Formats
  import Joi

  /** A stored service (src/models/serviceModel.ts); the duration is the text the
      creation schema checked. */
  datatype Service = Service(
    id: Id,
    name: string,
    description: string,
    duration: string,
    price: Option<real>,
    isActive: bool,
    users: seq<Id>)

  function FindService(services: seq<Service>, id: Id): (r: Option<nat>)
    ensures r.Some? ==> r.value < |services| && services[r.value].id == id &&
                        forall j :: 0 <= j < r.value ==> services[j].id != id
    ensures r.None? ==> forall j :: 0 <= j < |services| ==> services[j].id != id
  {
    FindFirst(services, (s: Service) => s.id == id)
  }

  // ---------------------------------------------------------------------------
  // getServices

  datatype ServiceQuery = ServiceQuery(isActive: Option<string>, name: Option<string>)

  /** The filter `getServices` builds: an activity condition and a name pattern. */
  datatype ServiceFilter = ServiceFilter(isActive: Option<bool>, name: Option<string>)

  /** The activity condition is there whenever the parameter is, even empty, and asks
      for active services only when it is exactly `true`; the name pattern is there
      when the name is non-empty. */
  function ServiceFilterOf(q: ServiceQuery): (f: ServiceFilter)
    ensures f.isActive.Some? <==> q.isActive.Some?
    ensures f.isActive.Some? ==> (f.isActive.value <==> q.isActive.value == "true")
    ensures f.name.Some? <==> Given(q.name)
    ensures f.name.Some? ==> f.name == q.name
  {
    ServiceFilter(
      if q.isActive.Some? then Some(q.isActive.value == "true") else None,
      if Given(q.name) then q.name else None)
  }

  /** `Service.find(filter)`: the services meeting both conditions, in store order.
      `matches(pattern, name)` is the database's case-insensitive regular-expression
      match. */
  function GetServices(services: seq<Service>, q: ServiceQuery, matches: (string, string) -> bool): (r: seq<Service>)
    ensures IsSubseq(r, services)
    ensures forall s :: s in r <==>
              && s in services
              && (q.isActive.Some? ==> (s.isActive <==> q.isActive.value == "true"))
              && (Given(q.name) ==> matches(q.name.value, s.name))
  {
    var f := ServiceFilterOf(q);
    Filter(services, (s: Service) => (f.isActive.Some? ==> s.isActive == f.isActive.value) &&
                                    (f.name.Some? ==> matches(f.name.value, s.name)))
  }

  /** Any activity text other than `true`, `1` and `TRUE` included, lists inactive
      services only. */
  lemma OtherTextListsInactive(services: seq<Service>, q: ServiceQuery, matches: (string, string) -> bool)
    requires q.isActive.Some? && q.isActive.value != "true"
    ensures forall s :: s in GetServices(services, q, matches) ==> !s.isActive
  {
  }

  // ---------------------------------------------------------------------------
  // toggleServiceState

  datatype Toggled = Toggled(services: seq<Service>, status: int, message: string)

  const Activated := "Service activated successfully."
  const Deactivated := "Service deactivated successfully."

  /** `toggleServiceState`: 400 unless the body's `isActive` is a JSON boolean, checked
      before any lookup; 500 for an id that is not an ObjectId; 404 for an unknown id;
      otherwise the service with that id gets the new flag and nothing else changes. */
  function ToggleServiceState(services: seq<Service>, id: string, isActive: Option<Joi.Value>): (o: Toggled)
    ensures o.status in {400, 500, 404, 200}
    ensures o.status == 400 <==> !(isActive.Some? && isActive.value.Bool?)
    ensures o.status == 500 <==> isActive.Some? && isActive.value.Bool? && !IsObjectId(id)
    ensures o.status == 404 <==>
              isActive.Some? && isActive.value.Bool? && IsObjectId(id) &&
              forall j :: 0 <= j < |services| ==> Some(services[j].id) != CastId(id)
    ensures o.status != 200 ==> o.services == services
    ensures o.status == 200 ==>
              && (o.message == Activated <==> isActive.value.b)
              && (o.message == Deactivated <==> !isActive.value.b)
              && exists k :: 0 <= k < |services| && Some(services[k].id) == CastId(id) &&
                             o.services == services[k := services[k].(isActive := isActive.value.b)]
  {
    if !(isActive.Some? && isActive.value.Bool?) then Toggled(services, 400, "")
    else match CastId(id)
      case None => Toggled(services, 500, "")
      case Some(key) =>
        match FindService(services, key)
        case None => Toggled(services, 404, "")
        case Some(k) =>
          var on := isActive.value.b;
          Toggled(services[k := services[k].(isActive := on)], 200, if on then Activated else Deactivated)
  }

  /** Ids are distinct. */
  predicate ServicesWellFormed(services: seq<Service>) {
    forall i, j :: 0 <= i < j < |services| ==> services[i].id != services[j].id
  }

  /** With distinct ids, switching a service back to the flag it had restores the
      collection. */
  lemma ToggleBackRestores(services: seq<Service>, id: string, on: bool)
    requires ServicesWellFormed(services)
    requires ToggleServiceState(services, id, Some(Joi.Bool(on))).status == 200
    ensures var first := ToggleServiceState(services, id, Some(Joi.Bool(on)));
            exists k :: 0 <= k < |services| && Some(services[k].id) == CastId(id) &&
                        ToggleServiceState(first.services, id, Some(Joi.Bool(services[k].isActive))).services == services
  {
    var first := ToggleServiceState(services, id, Some(Joi.Bool(on)));
    var k :| 0 <= k < |services| && Some(services[k].id) == CastId(id) &&
             first.services == services[k := services[k].(isActive := on)];
    assert first.services[k].id == services[k].id;
    var second := ToggleServiceState(first.services, id, Some(Joi.Bool(services[k].isActive)));
    assert second.status == 200;
    var k2 :| 0 <= k2 < |first.services| && Some(first.services[k2].id) == CastId(id) &&
              second.services == first.services[k2 := first.services[k2].(isActive := services[k].isActive)];
    assert k2 == k;
    assert second.services == services;
  }
}

=== FILE: service_validator.dfy ===
/** The request-body schemas for services (src/validators/serviceValidator.ts): the
    library schema, a plain description of the bodies it accepts, and a lemma proving
    the two agree. */
module ServiceValidator {
  import opened Wrappers
  import opened Joi
  import opened Formats
  import opened Fields

  /** `number().precision(2).min(0)`: rounding to cents comes first, so a price down
      to half a cent below zero rounds up to zero and passes. */
  lemma RoundedPriceNonNegative(x: real)
    ensures RoundCents(x) >= 0.0 <==> x >= -0.005
  {
    var f := (x * 100.0 + 0.5).Floor;
    assert RoundCents(x) == f as real / 100.0;
    if x >= -0.005 {
      assert x * 100.0 + 0.5 >= 0.0;
    } else {
      assert x * 100.0 + 0.5 < 0.0;
    }
  }

  /** A price a body may carry: a number (or numeric string), within the safe-integer
      range, no lower than -0.005. */
  predicate IsPrice(v: Value, lib: Library) {
    && AsNumber(v, lib).Some?
    && -MaxSafeInteger <= AsNumber(v, lib).value <= MaxSafeInteger
    && AsNumber(v, lib).value >= -0.005
  }

  lemma PriceField(k: string, pr: Presence, p: Payload, lib: Library)
    ensures FieldOk(k, Rule(Number(0.0, false, true), pr), p, lib) <==>
            if k in p then IsPrice(p[k], lib) else !IsRequired(pr, p)
  {
    if k in p && AsNumber(p[k], lib).Some? {
      RoundedPriceNonNegative(AsNumber(p[k], lib).value);
    }
  }

  function CreateServiceSchema(): Schema {
    Schema(map[
      "name" := Rule(Text(Some(3), Some(50), Plain), Optional),
      "description" := Rule(Text(None, Some(500), Plain), Optional),
      "duration" := DurationRule(Required),
      "category" := Rule(Text(Some(3), Some(50), Plain), Required),
      "price" := Rule(Number(0.0, false, true), Required)
    ], false, [])
  }

  /** A new service has a duration in `H:MM` text, a category of 3 to 50 characters and
      a price; a name has 3 to 50 characters and a description 1 to 500. */
  predicate CreateServiceRules(p: Payload, lib: Library) {
    && p.Keys <= {"name", "description", "duration", "category", "price"}
    && "duration" in p && p["duration"].Str? && IsDurationText(p["duration"].s)
    && "category" in p && p["category"].Str? && 3 <= |p["category"].s| <= 50
    && "price" in p && IsPrice(p["price"], lib)
    && ("name" in p ==> p["name"].Str? && 3 <= |p["name"].s| <= 50)
    && ("description" in p ==> p["description"].Str? && 1 <= |p["description"].s| <= 500)
  }

  lemma CreateServiceSound(p: Payload, lib: Library)
    requires Accepts(CreateServiceSchema(), p, lib)
    ensures CreateServiceRules(p, lib)
  {
    var s := CreateServiceSchema();
    assert FieldOk("duration", s.fields["duration"], p, lib);
    DurationField("duration", Required, p, lib);
    assert FieldOk("price", s.fields["price"], p, lib);
    PriceField("price", Required, p, lib);
    assert FieldOk("name", s.fields["name"], p, lib);
    assert FieldOk("description", s.fields["description"], p, lib);
    assert FieldOk("category", s.fields["category"], p, lib);
  }

  lemma CreateServiceComplete(p: Payload, lib: Library)
    requires CreateServiceRules(p, lib)
    ensures Accepts(CreateServiceSchema(), p, lib)
  {
    var s := CreateServiceSchema();
    forall k | k in s.fields ensures FieldOk(k, s.fields[k], p, lib) {
      if k == "duration" { DurationField(k, Required, p, lib); }
      else if k == "price" { PriceField(k, Required, p, lib); }
    }
  }

  /** The create-service schema accepts exactly the bodies `CreateServiceRules`
      describes. */
  lemma CreateServiceIff(p: Payload, lib: Library)
    ensures Accepts(CreateServiceSchema(), p, lib) <==> CreateServiceRules(p, lib)
  {
    if Accepts(CreateServiceSchema(), p, lib) { CreateServiceSound(p, lib); }
    if CreateServiceRules(p, lib) { CreateServiceComplete(p, lib); }
  }

  /** Neither part of a duration is bounded: "9:75" is accepted as a duration, and so is
      a zero-length "0:00" (with a zero price). */
  lemma UnboundedDurations(lib: Library)
    ensures Accepts(CreateServiceSchema(), map["duration" := Str("9:75"), "category" := Str("Spa"), "price" := Num(0.0)], lib)
    ensures Accepts(CreateServiceSchema(), map["duration" := Str("0:00"), "category" := Str("Spa"), "price" := Num(0.0)], lib)
  {
    var a := map["duration" := Str("9:75"), "category" := Str("Spa"), "price" := Num(0.0)];
    var b := map["duration" := Str("0:00"), "category" := Str("Spa"), "price" := Num(0.0)];
    assert AllDigits("9") && AllDigits("75") && AllDigits("0") && AllDigits("00");
    assert "9:75"[..1] == "9" && "9:75"[2..] == "75";
    assert "0:00"[..1] == "0" && "0:00"[2..] == "00";
    CreateServiceComplete(a, lib);
    CreateServiceComplete(b, lib);
  }

  function UpdateServiceSchema(): Schema {
    Schema(map[
      "name" := Rule(Text(Some(3), Some(50), Plain), Optional),
      "description" := Rule(Text(None, Some(500), Plain), Optional),
      "duration" := Rule(Number(1.0, true, false), Optional),
      "price" := Rule(Number(0.0, false, true), Optional),
      "isActive" := Rule(Boolean, Optional)
    ], true, [])
  }

  /** An update changes at least one field; here a duration is a whole number of at
      least 1, not the `H:MM` text a new service must carry, and the category cannot be
      changed. */
  predicate UpdateServiceRules(p: Payload, lib: Library) {
    && p != map[]
    && p.Keys <= {"name", "description", "duration", "price", "isActive"}
    && ("name" in p ==> p["name"].Str? && 3 <= |p["name"].s| <= 50)
    && ("description" in p ==> p["description"].Str? && 1 <= |p["description"].s| <= 500)
    && ("duration" in p ==>
          && AsNumber(p["duration"], lib).Some?
          && IsInteger(AsNumber(p["duration"], lib).value)
          && 1.0 <= AsNumber(p["duration"], lib).value <= MaxSafeInteger)
    && ("price" in p ==> IsPrice(p["price"], lib))
    && ("isActive" in p ==> AsBool(p["isActive"]).Some?)
  }

  lemma UpdateServiceSound(p: Payload, lib: Library)
    requires Accepts(UpdateServiceSchema(), p, lib)
    ensures UpdateServiceRules(p, lib)
  {
    var s := UpdateServiceSchema();
    assert FieldOk("price", s.fields["price"], p, lib);
    PriceField("price", Optional, p, lib);
    assert FieldOk("name", s.fields["name"], p, lib);
    assert FieldOk("description", s.fields["description"], p, lib);
    assert FieldOk("duration", s.fields["duration"], p, lib);
    assert FieldOk("isActive", s.fields["isActive"], p, lib);
  }

  lemma UpdateServiceComplete(p: Payload, lib: Library)
    requires UpdateServiceRules(p, lib)
    ensures Accepts(UpdateServiceSchema(), p, lib)
  {
    var s := UpdateServiceSchema();
    forall k | k in s.fields ensures FieldOk(k, s.fields[k], p, lib) {
      if k == "price" { PriceField(k, Optional, p, lib); }
    }
  }

  /** The update-service schema accepts exactly the bodies `UpdateServiceRules`
      describes. */
  lemma UpdateServiceIff(p: Payload, lib: Library)
    ensures Accepts(UpdateServiceSchema(), p, lib) <==> UpdateServiceRules(p, lib)
  {
    if Accepts(UpdateServiceSchema(), p, lib) { UpdateServiceSound(p, lib); }
    if UpdateServiceRules(p, lib) { UpdateServiceComplete(p, lib); }
  }

  function FilterServiceSchema(): Schema {
    Schema(map[
      "name" := Rule(Text(None, Some(50), Plain), Optional),
      "isActive" := Rule(Boolean, Optional)
    ], false, ["name", "isActive"])
  }

  /** A service query names a name of 1 to 50 characters, an active flag, or both. */
  predicate FilterServiceRules(p: Payload, lib: Library) {
    && p.Keys <= {"name", "isActive"}
    && p != map[]
    && ("name" in p ==> p["name"].Str? && 1 <= |p["name"].s| <= 50)
    && ("isActive" in p ==> AsBool(p["isActive"]).Some?)
  }

  /** The service-filter schema accepts exactly the queries `FilterServiceRules`
      describes. */
  lemma FilterServiceIff(p: Payload, lib: Library)
    ensures Accepts(FilterServiceSchema(), p, lib) <==> FilterServiceRules(p, lib)
  {
    var s := FilterServiceSchema();
    if Accepts(s, p, lib) {
      assert FieldOk("name", s.fields["name"], p, lib);
      assert FieldOk("isActive", s.fields["isActive"], p, lib);
    }
    if FilterServiceRules(p, lib) {
      if "name" in p { assert s.anyOf[0] in p; } else { assert s.anyOf[1] in p; }
    }
  }
}

=== FILE: user_validator.dfy ===
/** The request-body schemas for users (src/validators/userValidator.ts): the library
    schema, a plain description of the bodies it accepts, and a lemma proving the two
    agree. */
module UserValidator {
  import opened Wrappers
  import opened Joi

  const RoleNames: seq<string> := ["admin", "employé", "client"]

  predicate IsRoleName(v: Value) {
    v in {Str("admin"), Str("employé"), Str("client")}
  }

  predicate IsEmailText(v: Value, lib: Library) {
    v.Str? && v.s != [] && lib.isEmail(v.s)
  }

  predicate IsNameText(v: Value) {
    v.Str? && 2 <= |v.s| <= 50
  }

  predicate IsPasswordText(v: Value) {
    v.Str? && 8 <= |v.s| <= 128
  }

  function RegisterSchema(): Schema {
    Schema(map[
      "firstName" := Rule(Text(Some(2), Some(50), Plain), Required),
      "lastName" := Rule(Text(Some(2), Some(50), Plain), Required),
      "email" := Rule(Text(None, None, Email), Required),
      "password" := Rule(Text(Some(8), Some(128), Plain), Required),
      "role" := Rule(OneOf(RoleNames), Optional)
    ], false, [])
  }

  /** A registration carries both names (2 to 50 characters), an email address and a
      password of 8 to 128 characters; a single role name may be added. */
  predicate RegisterRules(p: Payload, lib: Library) {
    && p.Keys <= {"firstName", "lastName", "email", "password", "role"}
    && "firstName" in p && IsNameText(p["firstName"])
    && "lastName" in p && IsNameText(p["lastName"])
    && "email" in p && IsEmailText(p["email"], lib)
    && "password" in p && IsPasswordText(p["password"])
    && ("role" in p ==> IsRoleName(p["role"]))
  }

  /** The registration schema accepts exactly the bodies `RegisterRules` describes. */
  lemma RegisterIff(p: Payload, lib: Library)
    ensures Accepts(RegisterSchema(), p, lib) <==> RegisterRules(p, lib)
  {
    var s := RegisterSchema();
    if Accepts(s, p, lib) {
      assert FieldOk("firstName", s.fields["firstName"], p, lib);
      assert FieldOk("lastName", s.fields["lastName"], p, lib);
      assert FieldOk("email", s.fields["email"], p, lib);
      assert FieldOk("password", s.fields["password"], p, lib);
      assert FieldOk("role", s.fields["role"], p, lib);
    }
  }

  /** A role sent to the registration schema is a single name, never an array: the
      array form the registration handler looks for is rejected here first. */
  lemma RegisterRoleIsName(p: Payload, lib: Library)
    requires Accepts(RegisterSchema(), p, lib) && "role" in p
    ensures p["role"].Str? && !p["role"].Arr?
  {
    RegisterIff(p, lib);
  }

  function LoginSchema(): Schema {
    Schema(map[
      "email" := Rule(Text(None, None, Email), Required),
      "password" := Rule(Text(Some(8), Some(128), Plain), Required)
    ], false, [])
  }

  /** A login carries exactly an email address and a password of 8 to 128 characters. */
  predicate LoginRules(p: Payload, lib: Library) {
    && p.Keys == {"email", "password"}
    && IsEmailText(p["email"], lib)
    && IsPasswordText(p["password"])
  }

  /** The login schema accepts exactly the bodies `LoginRules` describes. */
  lemma LoginIff(p: Payload, lib: Library)
    ensures Accepts(LoginSchema(), p, lib) <==> LoginRules(p, lib)
  {
    var s := LoginSchema();
    if Accepts(s, p, lib) {
      assert FieldOk("email", s.fields["email"], p, lib);
      assert FieldOk("password", s.fields["password"], p, lib);
    }
  }

  function UpdateUserSchema(): Schema {
    Schema(map[
      "firstName" := Rule(Text(Some(2), Some(50), Plain), Optional),
      "lastName" := Rule(Text(Some(2), Some(50), Plain), Optional),
      "email" := Rule(Text(None, None, Email), Optional),
      "password" := Rule(Text(Some(8), Some(128), Plain), Optional),
      "role" := Rule(OneOf(RoleNames), Optional)
    ], true, [])
  }

  /** An update changes at least one of the five registration fields, each under the
      registration's rule. */
  predicate UpdateUserRules(p: Payload, lib: Library) {
    && p != map[]
    && p.Keys <= {"firstName", "lastName", "email", "password", "role"}
    && ("firstName" in p ==> IsNameText(p["firstName"]))
    && ("lastName" in p ==> IsNameText(p["lastName"]))
    && ("email" in p ==> IsEmailText(p["email"], lib))
    && ("password" in p ==> IsPasswordText(p["password"]))
    && ("role" in p ==> IsRoleName(p["role"]))
  }

  /** The update-user schema accepts exactly the bodies `UpdateUserRules` describes. */
  lemma UpdateUserIff(p: Payload, lib: Library)
    ensures Accepts(UpdateUserSchema(), p, lib) <==> UpdateUserRules(p, lib)
  {
    if Accepts(UpdateUserSchema(), p, lib) { UpdateUserSound(p, lib); }
    if UpdateUserRules(p, lib) { UpdateUserComplete(p, lib); }
  }

  lemma UpdateUserSound(p: Payload, lib: Library)
    requires Accepts(UpdateUserSchema(), p, lib)
    ensures UpdateUserRules(p, lib)
  {
    var s := UpdateUserSchema();
    assert FieldOk("firstName", s.fields["firstName"], p, lib);
    assert FieldOk("lastName", s.fields["lastName"], p, lib);
    assert FieldOk("email", s.fields["email"], p, lib);
    assert FieldOk("password", s.fields["password"], p, lib);
    assert FieldOk("role", s.fields["role"], p, lib);
  }

  lemma UpdateUserComplete(p: Payload, lib: Library)
    requires UpdateUserRules(p, lib)
    ensures Accepts(UpdateUserSchema(), p, lib)
  {
    var s := UpdateUserSchema();
    forall k | k in s.fields ensures FieldOk(k, s.fields[k], p, lib) {
      if k == "firstName" || k == "lastName" {
        assert s.fields[k] == Rule(Text(Some(2), Some(50), Plain), Optional);
      } else if k == "password" {
        assert s.fields[k] == Rule(Text(Some(8), Some(128), Plain), Optional);
      }
    }
  }

  function FilterUserSchema(): Schema {
    Schema(map[
      "role" := Rule(OneOf(RoleNames), Optional),
      "email" := Rule(Text(None, None, Email), Optional)
    ], false, ["role", "email"])
  }

  /** A user query names a role, an email address, or both. */
  predicate FilterUserRules(p: Payload, lib: Library) {
    && p.Keys <= {"role", "email"}
    && p != map[]
    && ("role" in p ==> IsRoleName(p["role"]))
    && ("email" in p ==> IsEmailText(p["email"], lib))
  }

  /** The user-filter schema accepts exactly the queries `FilterUserRules` describes. */
  lemma FilterUserIff(p: Payload, lib: Library)
    ensures Accepts(FilterUserSchema(), p, lib) <==> FilterUserRules(p, lib)
  {
    var s := FilterUserSchema();
    if Accepts(s, p, lib) {
      assert FieldOk("role", s.fields["role"], p, lib);
      assert FieldOk("email", s.fields["email"], p, lib);
    }
    if FilterUserRules(p, lib) {
      if "role" in p { assert s.anyOf[0] in p; } else { assert s.anyOf[1] in p; }
    }
  }

  function PermissionsSchema(): Schema {
    Schema(map["permissions" := Rule(Strings, Required)], false, [])
  }

  /** A permissions body is exactly a list of non-empty strings; the empty list is
      accepted. */
  predicate PermissionsRules(p: Payload) {
    && p.Keys == {"permissions"}
    && p["permissions"].Arr?
    && forall i :: 0 <= i < |p["permissions"].items| ==>
         p["permissions"].items[i].Str? && p["permissions"].items[i].s != []
  }

  /** The permissions schema accepts exactly the bodies `PermissionsRules` describes. */
  lemma PermissionsIff(p: Payload, lib: Library)
    ensures Accepts(PermissionsSchema(), p, lib) <==> PermissionsRules(p)
  {
    var s := PermissionsSchema();
    if Accepts(s, p, lib) {
      assert FieldOk("permissions", s.fields["permissions"], p, lib);
    }
  }
}

=== FILE: working_hours_controller.dfy ===
/** The working-hours handlers (src/controllers/workingHoursController.ts): recording
    working hours and listing them through a filter built from the query. The record
    is src/models/workingHoursModel.ts. */
module WorkingHoursController {
  import opened Wrappers
  import opened Models
  import opened Http
  import opened Lists
  import opened Formats
  import opened Queries
  import Joi

  datatype WorkingHours = WorkingHours(
    id: Id,
    userId: Id,
    startTime: string,
    endTime: string,
    day: Option<string>,
    date: Option<int>,
    isRecurring: bool,
    priority: bool)

  /** The body of a creation request. `priority` may be sent, but the handler never
      reads it. */
  datatype HoursBody = HoursBody(
    userId: Option<string>,
    startTime: Option<string>,
    endTime: Option<string>,
    isRecurring: Option<Joi.Value>,
    date: Option<string>,
    day: Option<string>,
    priority: Option<Joi.Value>)

  /** The document mapper's boolean cast: `true`, `"true"`, `1`, `"1"` and `"yes"` are
      true; `false`, `"false"`, `0`, `"0"` and `"no"` are false; anything else is a
      cast error. */
  function CastBoolean(v: Joi.Value): (r: Option<bool>)
    ensures r == Some(true) <==> v in {Joi.Bool(true), Joi.Str("true"), Joi.Num(1.0), Joi.Str("1"), Joi.Str("yes")}
    ensures r == Some(false) <==> v in {Joi.Bool(false), Joi.Str("false"), Joi.Num(0.0), Joi.Str("0"), Joi.Str("no")}
  {
    match v
    case Bool(b) => Some(b)
    case Num(n) => if n == 1.0 then Some(true) else if n == 0.0 then Some(false) else None
    case Str(s) =>
      if s in {"true", "1", "yes"} then Some(true)
      else if s in {"false", "0", "no"} then Some(false)
      else None
    case _ => None
  }

  datatype Saved = Saved(hours: seq<WorkingHours>, status: int)

  function FindHours(hours: seq<WorkingHours>, id: Id): (r: Option<nat>)
    ensures r.None? <==> forall j :: 0 <= j < |hours| ==> hours[j].id != id
  {
    FindFirst(hours, (w: WorkingHours) => w.id == id)
  }

  /** `createWorkingHours`: the document holds the six fields the handler copies: the
      employee id (an ObjectId), the two times (required, non-empty, unchecked), the
      recurring flag (required, cast to a boolean), an optional date (an empty one
      leaves the path unset) and an optional day (trimmed). `priority` keeps its default, false. 500 when a field does not
      cast, 201 after appending. */
  function CreateWorkingHours(hours: seq<WorkingHours>, body: HoursBody, castDate: DateCast, newId: Id): (o: Saved)
    ensures o.status in {500, 201}
    ensures o.status == 201 <==>
              && body.userId.Some? && IsObjectId(body.userId.value)
              && body.startTime.Some? && body.startTime.value != []
              && body.endTime.Some? && body.endTime.value != []
              && body.isRecurring.Some? && CastBoolean(body.isRecurring.value).Some?
              && (Given(body.date) ==> castDate(body.date.value).Some?)
              && forall j :: 0 <= j < |hours| ==> hours[j].id != newId
    ensures o.status == 500 ==> o.hours == hours
    ensures o.status == 201 ==>
              && |o.hours| == |hours| + 1 && o.hours[..|hours|] == hours
              && var h := o.hours[|hours|];
                 && h.id == newId
                 && Some(h.userId) == CastId(body.userId.value)
                 && h.startTime == body.startTime.value && h.endTime == body.endTime.value
                 && Some(h.isRecurring) == CastBoolean(body.isRecurring.value)
                 && (h.date.Some? <==> Given(body.date))
                 && (Given(body.date) ==> h.date == castDate(body.date.value))
                 && (h.day.Some? <==> body.day.Some?)
                 && (body.day.Some? ==> h.day == Some(Trim(body.day.value)))
                 && !h.priority
  {
    var user := if body.userId.Some? then CastId(body.userId.value) else None;
    var recurring := if body.isRecurring.Some? then CastBoolean(body.isRecurring.value) else None;
    var date := if body.date.None? then Some(None) else PathDate(body.date.value, castDate);
    var day := if body.day.Some? then Some(Trim(body.day.value)) else None;
    if && user.Some? && recurring.Some? && date.Some?
       && body.startTime.Some? && body.startTime.value != []
       && body.endTime.Some? && body.endTime.value != []
       && FindHours(hours, newId).None?
    then Saved(hours + [WorkingHours(newId, user.value, body.startTime.value, body.endTime.value,
                                     day, date.value, recurring.value, false)], 201)
    else Saved(hours, 500)
  }

  /** Whatever `priority` the body carries, the outcome is the same. */
  lemma PriorityIgnored(hours: seq<WorkingHours>, body: HoursBody, castDate: DateCast, newId: Id,
                        priority: Option<Joi.Value>)
    ensures CreateWorkingHours(hours, body.(priority := priority), castDate, newId)
         == CreateWorkingHours(hours, body, castDate, newId)
  {
  }

  /** An empty date is cast to null and leaves the path unset: the outcome is the one
      for a body without a date. */
  lemma EmptyDateIsNoDate(hours: seq<WorkingHours>, body: HoursBody, castDate: DateCast, newId: Id)
    requires body.date == Some("")
    ensures CreateWorkingHours(hours, body, castDate, newId)
         == CreateWorkingHours(hours, body.(date := None), castDate, newId)
  {
  }

  // ---------------------------------------------------------------------------
  // getWorkingHours

  datatype HoursQuery = HoursQuery(userId: Option<string>, isRecurring: Option<string>)

  datatype HoursFilter = HoursFilter(userId: Option<string>, isRecurring: Option<bool>)

  /** An employee condition for a non-empty `userId`; a recurrence condition whenever
      the parameter is there, true only for exactly `true`. */
  function HoursFilterOf(q: HoursQuery): (f: HoursFilter)
    ensures f.userId.Some? <==> Given(q.userId)
    ensures f.userId.Some? ==> f.userId == q.userId
    ensures f.isRecurring.Some? <==> q.isRecurring.Some?
    ensures f.isRecurring.Some? ==> (f.isRecurring.value <==> q.isRecurring.value == "true")
  {
    HoursFilter(
      if Given(q.userId) then q.userId else None,
      if q.isRecurring.Some? then Some(q.isRecurring.value == "true") else None)
  }

  /** `WorkingHour.find(filter)`: 500 when the employee id is not an ObjectId; otherwise
      the records meeting both conditions, in store order. */
  function GetWorkingHours(hours: seq<WorkingHours>, q: HoursQuery): (r: Listing<WorkingHours>)
    ensures r.status in {200, 500}
    ensures r.status == 500 <==> Given(q.userId) && !IsObjectId(q.userId.value)
    ensures r.status == 200 ==>
              && IsSubseq(r.data, hours)
              && forall h :: h in r.data <==>
                   && h in hours
                   && (Given(q.userId) ==> Some(h.userId) == CastId(q.userId.value))
                   && (q.isRecurring.Some? ==> (h.isRecurring <==> q.isRecurring.value == "true"))
  {
    var f := HoursFilterOf(q);
    match CastOptionalId(f.userId)
    case None => Listing(500, [])
    case Some(user) => Listing(200, Filter(hours, Matching(user, f.isRecurring)))
  }

  /** The test the cast filter applies to a record. */
  function Matching(user: Option<Id>, recurring: Option<bool>): WorkingHours -> bool {
    (h: WorkingHours) =>
      && (user.Some? ==> h.userId == user.value)
      && (recurring.Some? ==> h.isRecurring == recurring.value)
  }

  /** With no parameters every record is listed, in store order. */
  lemma EmptyQueryListsAll(hours: seq<WorkingHours>)
    ensures GetWorkingHours(hours, HoursQuery(None, None)) == Listing(200, hours)
  {
    FilterAll(hours, Matching(None, None));
  }
}

=== FILE: working_hours_validator.dfy ===
/** The request-body schemas for working hours (src/validators/workingHoursValidator.ts):
    the library schema, a plain description of the bodies it accepts, and a lemma
    proving the two agree. */
module WorkingHoursValidator {
  import opened Wrappers
  import opened Joi
  import opened Formats
  import opened Fields

  const RecurrencePatterns: seq<string> := ["daily", "weekly", "monthly", "none"]

  function CreateWorkingHoursSchema(): Schema {
    Schema(map[
      "userId" := IdRule(Required),
      "startTime" := ClockRule(Required),
      "endTime" := ClockRule(Required),
      "isRecurring" := Rule(Boolean, Required),
      "day" := Rule(Text(None, None, Plain), RequiredWhen("isRecurring", true)),
      "date" := Rule(Date(true, None), RequiredWhen("isRecurring", false))
    ], false, [])
  }

  /** A new slot names its employee, two `HH:mm` times and whether it recurs; a
      recurring slot must name its day and a one-off slot its ISO date. Nothing relates
      the two times to each other. */
  predicate CreateWorkingHoursRules(p: Payload, lib: Library) {
    && p.Keys <= {"userId", "startTime", "endTime", "isRecurring", "day", "date"}
    && "userId" in p && p["userId"].Str? && IsObjectId(p["userId"].s)
    && "startTime" in p && p["startTime"].Str? && IsClockTime(p["startTime"].s)
    && "endTime" in p && p["endTime"].Str? && IsClockTime(p["endTime"].s)
    && "isRecurring" in p && AsBool(p["isRecurring"]).Some?
    && ("day" in p ==> p["day"].Str? && p["day"].s != [])
    && (AsBool(p["isRecurring"]) == Some(true) ==> "day" in p)
    && ("date" in p ==> lib.date(p["date"], true).Some?)
    && (AsBool(p["isRecurring"]) == Some(false) ==> "date" in p)
  }

  lemma CreateWorkingHoursSound(p: Payload, lib: Library)
    requires Accepts(CreateWorkingHoursSchema(), p, lib)
    ensures CreateWorkingHoursRules(p, lib)
  {
    var s := CreateWorkingHoursSchema();
    assert FieldOk("userId", s.fields["userId"], p, lib);
    IdField("userId", Required, p, lib);
    assert FieldOk("startTime", s.fields["startTime"], p, lib);
    ClockField("startTime", Required, p, lib);
    assert FieldOk("endTime", s.fields["endTime"], p, lib);
    ClockField("endTime", Required, p, lib);
    CreateWorkingHoursSoundRecurrence(p, lib);
  }

  /** The recurrence part of the accepted bodies: the flag converts to a boolean, and
      it decides whether the day or the date must be present. */
  lemma CreateWorkingHoursSoundRecurrence(p: Payload, lib: Library)
    requires Accepts(CreateWorkingHoursSchema(), p, lib)
    ensures "isRecurring" in p && AsBool(p["isRecurring"]).Some?
    ensures "day" in p ==> p["day"].Str? && p["day"].s != []
    ensures AsBool(p["isRecurring"]) == Some(true) ==> "day" in p
    ensures "date" in p ==> lib.date(p["date"], true).Some?
    ensures AsBool(p["isRecurring"]) == Some(false) ==> "date" in p
  {
    var s := CreateWorkingHoursSchema();
    assert FieldOk("isRecurring", s.fields["isRecurring"], p, lib);
    assert FieldOk("day", s.fields["day"], p, lib);
    assert FieldOk("date", s.fields["date"], p, lib);
  }

  lemma CreateWorkingHoursComplete(p: Payload, lib: Library)
    requires CreateWorkingHoursRules(p, lib)
    ensures Accepts(CreateWorkingHoursSchema(), p, lib)
  {
    var s := CreateWorkingHoursSchema();
    forall k | k in s.fields ensures FieldOk(k, s.fields[k], p, lib) {
      if k == "userId" { IdField(k, Required, p, lib); }
      else if k == "startTime" || k == "endTime" { ClockField(k, Required, p, lib); }
    }
  }

  /** The create-working-hours schema accepts exactly the bodies
      `CreateWorkingHoursRules` describes. */
  lemma CreateWorkingHoursIff(p: Payload, lib: Library)
    ensures Accepts(CreateWorkingHoursSchema(), p, lib) <==> CreateWorkingHoursRules(p, lib)
  {
    if Accepts(CreateWorkingHoursSchema(), p, lib) { CreateWorkingHoursSound(p, lib); }
    if CreateWorkingHoursRules(p, lib) { CreateWorkingHoursComplete(p, lib); }
  }

  /** The schema never compares the two times: an accepted slot stays accepted with any
      other well-formed end time, one before its start included. */
  lemma EndTimeUnconstrained(p: Payload, lib: Library, t: string)
    requires Accepts(CreateWorkingHoursSchema(), p, lib)
    requires IsClockTime(t)
    ensures Accepts(CreateWorkingHoursSchema(), p["endTime" := Str(t)], lib)
  {
    CreateWorkingHoursSound(p, lib);
    CreateWorkingHoursComplete(p["endTime" := Str(t)], lib);
  }

  function UpdateWorkingHoursSchema(): Schema {
    Schema(map[
      "startTime" := ClockRule(Optional),
      "endTime" := ClockRule(Optional),
      "isRecurring" := Rule(Boolean, Optional),
      "recurrencePattern" := Rule(OneOf(RecurrencePatterns), Optional),
      "date" := Rule(Date(true, None), Optional)
    ], true, [])
  }

  /** An update changes at least one of five fields; `day` and `userId` cannot be
      changed, and a recurrence pattern is one of four names. */
  predicate UpdateWorkingHoursRules(p: Payload, lib: Library) {
    && p != map[]
    && p.Keys <= {"startTime", "endTime", "isRecurring", "recurrencePattern", "date"}
    && ("startTime" in p ==> p["startTime"].Str? && IsClockTime(p["startTime"].s))
    && ("endTime" in p ==> p["endTime"].Str? && IsClockTime(p["endTime"].s))
    && ("isRecurring" in p ==> AsBool(p["isRecurring"]).Some?)
    && ("recurrencePattern" in p ==>
          p["recurrencePattern"] in {Str("daily"), Str("weekly"), Str("monthly"), Str("none")})
    && ("date" in p ==> lib.date(p["date"], true).Some?)
  }

  lemma UpdateWorkingHoursSound(p: Payload, lib: Library)
    requires Accepts(UpdateWorkingHoursSchema(), p, lib)
    ensures UpdateWorkingHoursRules(p, lib)
  {
    var s := UpdateWorkingHoursSchema();
    assert FieldOk("startTime", s.fields["startTime"], p, lib);
    ClockField("startTime", Optional, p, lib);
    assert FieldOk("endTime", s.fields["endTime"], p, lib);
    ClockField("endTime", Optional, p, lib);
    assert FieldOk("isRecurring", s.fields["isRecurring"], p, lib);
    assert FieldOk("recurrencePattern", s.fields["recurrencePattern"], p, lib);
    assert FieldOk("date", s.fields["date"], p, lib);
  }

  lemma UpdateWorkingHoursComplete(p: Payload, lib: Library)
    requires UpdateWorkingHoursRules(p, lib)
    ensures Accepts(UpdateWorkingHoursSchema(), p, lib)
  {
    var s := UpdateWorkingHoursSchema();
    forall k | k in s.fields ensures FieldOk(k, s.fields[k], p, lib) {
      if k == "startTime" || k == "endTime" { ClockField(k, Optional, p, lib); }
    }
  }

  /** The update-working-hours schema accepts exactly the bodies
      `UpdateWorkingHoursRules` describes. */
  lemma UpdateWorkingHoursIff(p: Payload, lib: Library)
    ensures Accepts(UpdateWorkingHoursSchema(), p, lib) <==> UpdateWorkingHoursRules(p, lib)
  {
    if Accepts(UpdateWorkingHoursSchema(), p, lib) { UpdateWorkingHoursSound(p, lib); }
    if UpdateWorkingHoursRules(p, lib) { UpdateWorkingHoursComplete(p, lib); }
  }
}

=== FILE: wrappers.dfy ===
/** The optional value used for absent request fields, missing store entries and
    coercions that can fail. */
module Wrappers {

  datatype Option<+T> = None | Some(value: T) {

    /** The value, or `default` when there is none. */
    function GetOr(default: T): T {
      match this
      case Some(v) => v
      case None => default
    }
  }
}
